=== FILE: README.md ===
# QA pipeline dashboard — a Dafny model of its core

The application is an Angular front end for QA engineers. From it they trigger
Azure DevOps test pipelines, follow each run, read the step-by-step results,
download the HTML report, and keep a history of past runs. Admins manage the QA
users and their permissions on projects and pipelines. This project models the
logic behind those screens as pure Dafny functions over immutable state:

- **Results.** The summary broadcaster: counts, per-feature summaries and
  storage (`ResultsState`). The run-history service with its capped log and
  trends (`TestHistory`). The stored pipeline execution (`PipelineStorage`).
- **Backend requests.** The results API: request URLs, error texts, the
  report-download pipeline (`ResultsApi`).
- **Pages.** The two runner pages (`AzureDevOpsPage`, `DashboardPage`). Each
  subscription callback is a function from one page state to the next.
- **Pipes.** The status-count pipes (`CountPipes`) and the two initials pipes
  (`SharedShortName`, `DashboardShortName`).
- **Notifications.** The notification centre (`Notifications`).
- **User admin.** The users list with filters, sorting, CSV export and local
  permission edits (`UsersList`). The add-member form (`AddMember`). The
  permission update request (`UserService`).
- **Session and theme.** The session with its access rules (`Auth`,
  `AdminGuard`). The colour theme (`Theme`).

`localStorage` is a map from key to item (`KeyValue`). An item is either text
that `JSON.parse` rejects or a document it reads back. An RxJS subject is the
log of values published on it, or the one field its current value lives in.
An HTTP response, a clock or a user's input reaches the model as a parameter.
JavaScript's loose values are explicit:
- `null` and `undefined` are `Option`;
- a `Number` is `Finite(n)` or `NaN`;
- `||` on strings is `OrElse`;
- truthiness is `Truthy`.

## Model

| member | source | states |
|---|---|---|
| TestModels.WithStatus | src/app/services/shared-dashboard-azureDevops/test-results-state.service.ts:21-22 | the exact-case status filter keeps every step with that status and no other |
| TestModels.CountStatusIsIndexCount | src/app/services/shared-dashboard-azureDevops/test-results-state.service.ts:21-22 | the count of a status is the number of positions holding it |
| TestModels.DistinctStatusCountsBounded | src/app/services/shared-dashboard-azureDevops/test-results-state.service.ts:20-22 | the counts of two different statuses add up to at most the number of steps |
| ResultsState.GroupNamesSpec | src/app/services/shared-dashboard-azureDevops/test-results-state.service.ts:45-54 | grouping by feature yields each distinct feature once, in order of first occurrence |
| ResultsState.GroupStepsSpec | src/app/services/shared-dashboard-azureDevops/test-results-state.service.ts:47-52 | each group holds exactly its feature's steps, in input order |
| ResultsState.GroupSizesTotal | src/app/services/shared-dashboard-azureDevops/test-results-state.service.ts:47-52 | every step lands in exactly one group |
| ResultsState.FeatureSummaries | src/app/services/shared-dashboard-azureDevops/test-results-state.service.ts:44-60 | one summary per distinct feature, each counting its own total, passed and failed steps; totals add up to the number of steps |
| ResultsState.Summarize | src/app/services/shared-dashboard-azureDevops/test-results-state.service.ts:18-33 | total is the number of steps; passed and failed are the exact counts and together do not exceed the total; totalFeatures is the number of distinct features; the run id defaults to 0 and the project name to '' |
| ResultsState.UpdateTestResults | src/app/services/shared-dashboard-azureDevops/test-results-state.service.ts:15-42 | an empty list changes nothing; otherwise the summary is published, its run id and project become the last run info, it is stored under its key and no other key changes |
| ResultsState.ClearTestResults | src/app/services/shared-dashboard-azureDevops/test-results-state.service.ts:69-74 | publishes null, forgets the last run and removes only the stored summary |
| ResultsState.RestoreFromStorage | src/app/services/shared-dashboard-azureDevops/test-results-state.service.ts:76-94 | nothing stored, unparsable or empty results change nothing; otherwise the summary recomputed from the stored results is published |
| ResultsState.SummarizeIsStable | src/app/services/shared-dashboard-azureDevops/test-results-state.service.ts:18-33 | recomputing a summary from its own results, run id and project name gives it back |
| ResultsState.ReloadRepublishesSameSummary | src/app/services/shared-dashboard-azureDevops/test-results-state.service.ts:76-94 | a reload after an update republishes exactly the summary and last-run info shown before |
| ResultsState.ReloadAfterClearRestoresNothing | src/app/services/shared-dashboard-azureDevops/test-results-state.service.ts:69-94 | after clearing, a fresh service restores nothing |
| PipelineStorage.SaveExecution | src/app/dashboard/services/pipeline-storage.service.ts:24-30 | the saved execution reads back; the pipeline name and every other key are untouched |
| PipelineStorage.GetExecution | src/app/dashboard/services/pipeline-storage.service.ts:32-42 | a value exactly when a parsable record is stored, and then that record |
| PipelineStorage.SetCurrentPipelineName | src/app/dashboard/services/pipeline-storage.service.ts:44-50 | the name reads back, with an empty name stored as 'Unknown Pipeline'; the execution is untouched |
| PipelineStorage.GetCurrentPipelineName | src/app/dashboard/services/pipeline-storage.service.ts:52-59 | the stored name when it is non-empty, and 'Unknown Pipeline' when nothing or the empty name is stored |
| PipelineStorage.ClearExecution | src/app/dashboard/services/pipeline-storage.service.ts:61-67 | the execution is gone; the pipeline name and other keys stay |
| PipelineStorage.SecondSaveWins | src/app/dashboard/services/pipeline-storage.service.ts:24-42 | of two saves the later one is read back |
| PipelineStorage.SaveThenClear | src/app/dashboard/services/pipeline-storage.service.ts:61-67 | clearing after a save leaves no execution |
| ResultsApi.EncodeUriComponent | src/app/dashboard/services/test-results-api.service.ts:32 | the encoded text contains only unreserved characters and '%', never '/', and text of unreserved characters is unchanged |
| ResultsApi.DecodeEncodeRoundTrip | src/app/dashboard/services/test-results-api.service.ts:32 | decoding the encoded component by `decodeURIComponent`'s rules (percent escapes of UTF-8 bytes, either hex case, no overlong forms or surrogates) gives the component back |
| ResultsApi.EncodeUriComponentInjective | src/app/dashboard/services/test-results-api.service.ts:32 | two different project names never give the same URL segment |
| ResultsApi.GetUserId | src/app/dashboard/services/test-results-api.service.ts:25-28 | the stored user id when it is non-empty, else 'default'; never empty |
| ResultsApi.TriggerPipeline | src/app/dashboard/services/test-results-api.service.ts:30-42 | a POST to the trigger path for the user, followed by exactly two path segments: the encoded project name and the pipeline id, which reads back; the scheduled time is the only query parameter, and only when given |
| ResultsApi.GetTestResults | src/app/dashboard/services/test-results-api.service.ts:44-53 | run id 0 is refused with 'Invalid run ID'; every other id gives a GET to the logs path followed by exactly two path segments, the encoded project name and the run id |
| ResultsApi.ArtifactListing | src/app/dashboard/services/test-results-api.service.ts:55-59 | a GET to the artifact path for the user followed by exactly three path segments: the encoded project name, the pipeline id and the run id |
| ResultsApi.DevOpsLink | src/app/dashboard/services/test-results-api.service.ts:149-155 | a project page link whose whole text after `key=` reads back as the given id (so does the text after the last '='), shared by both link builders |
| ResultsApi.PipelineUrl | src/app/dashboard/services/test-results-api.service.ts:149-151 | the definition page of the project; the whole text after `definitionId=` reads back as the pipeline id |
| ResultsApi.BuildUrl | src/app/dashboard/services/test-results-api.service.ts:153-155 | the build results page; the whole text after `buildId=` reads back as the run id |
| ResultsApi.HandleError | src/app/dashboard/services/test-results-api.service.ts:157-176 | 'Error: ' followed by the payload's own message exactly when it has one, otherwise 'Error Code: ' with the status, then '\nMessage: ' followed by exactly the error's own message |
| ResultsApi.NormaliseZipUrl | src/app/dashboard/services/test-results-api.service.ts:64-68 | extends the URL so that it asks for zip format, appending with '&' or '?' only when it did not already |
| ResultsApi.NormaliseZipUrlIdempotent | src/app/dashboard/services/test-results-api.service.ts:66-68 | normalising twice is normalising once |
| ResultsApi.ResolveArtifactUrl | src/app/dashboard/services/test-results-api.service.ts:60-69 | succeeds exactly when the listing has an artifact, and then gives the first artifact's URL normalised to zip form by `NormaliseZipUrl`; otherwise 'No artifacts found' |
| ResultsApi.ResolveArtifactUrlIsStable | src/app/dashboard/services/test-results-api.service.ts:60-69 | only the first artifact matters, and a listing that already points at the resolved URL resolves to that URL again |
| ResultsApi.DownloadHtmlReport | src/app/dashboard/services/test-results-api.service.ts:55-72 | a failed listing is reported through handleError; a success is the resolved zip URL; every failure text starts with 'Error' |
| ResultsApi.NoArtifactsMessage | src/app/dashboard/services/test-results-api.service.ts:61-63 | a listing without artifacts reaches the user as an error with an undefined status code |
| ResultsApi.GetErrorMessage | src/app/dashboard/services/test-results-api.service.ts:134-148 | 404, 401 and 403 get their own texts; a missing or zero status is a network failure; every other status gets 'Download failed: ' followed by exactly the error's own message |
| ResultsApi.HandleErrorKeepsMessage | src/app/dashboard/services/test-results-api.service.ts:170-173 | two errors without a payload message, with the same status and different messages, are reported with different texts |
| ResultsApi.DownloadFailedKeepsMessage | src/app/dashboard/services/test-results-api.service.ts:134-148 | two 'Download failed' texts of errors with different messages differ |
| ResultsApi.ClassifyResponse | src/app/dashboard/services/test-results-api.service.ts:84-112 | a null body fails with 'Empty response received'; an HTML login page becomes a login redirect to the URL; anything else is the file with its byte size |
| ResultsApi.CatchDownloadError | src/app/dashboard/services/test-results-api.service.ts:113-130 | 401 and 403 ask for a login at the URL; every other failure carries getErrorMessage's text |
| ResultsApi.DownloadAsWritten | src/app/dashboard/services/test-results-api.service.ts:74-132 | the download as written: the null-body error also passes through the catch handler |
| ResultsApi.EmptyBodyReportedAsNetworkError | src/app/dashboard/services/test-results-api.service.ts:94-96 | as written, a 200 response with a null body is reported as a network error |
| ResultsApi.Download | src/app/dashboard/services/test-results-api.service.ts:74-132 | the corrected download: a null body is reported by its own message, and a login request comes only from an HTTP failure |
| ResultsApi.DownloadAgreesExceptEmptyBody | src/app/dashboard/services/test-results-api.service.ts:84-130 | the correction changes nothing except the null-body case |
| AzureDevOpsPage.LoadTestResults | src/app/dashboard/components/azure-devops-page/azure-devops.component.ts:276-283 | without a tracked project, or with run id 0, only a waiting message is shown; otherwise a results request is issued |
| AzureDevOpsPage.ResultsRequestAccepted | src/app/dashboard/components/azure-devops-page/azure-devops.component.ts:276-283 | every results request the page sends names the tracked project and a run id the API client accepts |
| AzureDevOpsPage.ListingMentions | src/app/dashboard/components/azure-devops-page/azure-devops.component.ts:300-309 | the failure listing mentions every failed step that names a scenario |
| AzureDevOpsPage.OnResultsLoaded | src/app/dashboard/components/azure-devops-page/azure-devops.component.ts:284-310 | a missing or empty list only says so; otherwise the results are stored and the counts and failure listing are shown |
| AzureDevOpsPage.FailedStepsAreListed | src/app/dashboard/components/azure-devops-page/azure-devops.component.ts:297-309 | each failed step with a scenario appears by feature and scenario in the status message |
| AzureDevOpsPage.PageCountsAgreeWithSummary | src/app/dashboard/components/azure-devops-page/azure-devops.component.ts:289-296 | the page's passed, failed and total counts equal the shared summary's for the same steps |
| AzureDevOpsPage.OnResultsError | src/app/dashboard/components/azure-devops-page/azure-devops.component.ts:312-319 | a missing build 0 means waiting for the run; any other error is shown with its text |
| AzureDevOpsPage.DevOpsPipelineUrl | src/app/dashboard/components/azure-devops-page/azure-devops.component.ts:407-409 | the project's definition page; the whole text after `definitionId=` reads back as the pipeline id |
| AzureDevOpsPage.HandleFailedPipeline | src/app/dashboard/components/azure-devops-page/azure-devops.component.ts:396-405 | the message gives the failing result and, when an execution is tracked, a link to its pipeline |
| AzureDevOpsPage.StatusFor | src/app/dashboard/components/azure-devops-page/azure-devops.component.ts:367-386 | the run is finished exactly when the state is 'completed'; otherwise it is running at 50% in that state |
| AzureDevOpsPage.UpdatePipelineStatus | src/app/dashboard/components/azure-devops-page/azure-devops.component.ts:366-394 | publishes and persists the status; a succeeded completion loads results and shows 'Pipeline execution completed successfully!', or the waiting text when no project or run id is known; a failed one reports it; a running one changes no message |
| AzureDevOpsPage.Trigger | src/app/dashboard/components/azure-devops-page/azure-devops.component.ts:191-245 | nothing without a project and pipeline; otherwise an execution with run id 0 is tracked, published as initiating and saved, 'Triggering pipeline...' is shown, and the trigger request for that project and pipeline is sent |
| AzureDevOpsPage.OnTriggered | src/app/dashboard/components/azure-devops-page/azure-devops.component.ts:247-265 | the run id is adopted and stored with the status the response maps to; a completed, succeeded run of a named project with a non-zero id requests its results; a completed, succeeded run with an empty project name or run id 0, and any other outcome, requests nothing; the message is the triggered text for a running state, the success text or the waiting text for a succeeded completion, and the failure text for any other completion |
| AzureDevOpsPage.OnTriggerError | src/app/dashboard/components/azure-devops-page/azure-devops.component.ts:266-271 | the run shows as stopped, the stored execution is dropped and the error is shown |
| AzureDevOpsPage.Init | src/app/dashboard/components/azure-devops-page/azure-devops.component.ts:111-126 | a stored execution is adopted with its status and its results requested; without one the page is as created |
| AzureDevOpsPage.ReloadResumesRun | src/app/dashboard/components/azure-devops-page/azure-devops.component.ts:111-126 | when storage holds the page's run with its last published status, a reload resumes that execution in that status and requests its results exactly when it has a run id and a project |
| AzureDevOpsPage.LifecycleKeepsSynced | src/app/dashboard/components/azure-devops-page/azure-devops.component.ts:221-271 | triggering, adopting the answered run and every status update leave storage holding the tracked run with its published status |
| AzureDevOpsPage.HandlersKeepSynced | src/app/dashboard/components/azure-devops-page/azure-devops.component.ts:276-474 | loading results, showing results or their error, requesting and receiving the report leave that agreement intact |
| AzureDevOpsPage.TriggerErrorForgetsRun | src/app/dashboard/components/azure-devops-page/azure-devops.component.ts:266-271 | after a failed trigger a reload starts with no run, while the page itself still tracks the run it had |
| AzureDevOpsPage.ReloadAfterTriggered | src/app/dashboard/components/azure-devops-page/azure-devops.component.ts:247-265 | the run a trigger starts, once answered, is what a reload resumes: the same execution and status, with its results requested when it has a run id and a project name |
| AzureDevOpsPage.SampleTriggered | src/app/dashboard/components/azure-devops-page/azure-devops.component.ts:221-265 | a sample trigger answered with a completed, succeeded run sends the trigger request and then the results request, and stores the run id |
| AzureDevOpsPage.SampleRun | src/app/dashboard/components/azure-devops-page/azure-devops.component.ts:221-310 | a triggered run that completes successfully ends with its three steps counted and its failure listed |
| AzureDevOpsPage.RequestReport | src/app/dashboard/components/azure-devops-page/azure-devops.component.ts:411-422 | without an execution or with run id 0 the download is refused; otherwise the artifact listing is requested |
| AzureDevOpsPage.ReportRequestReadsBack | src/app/dashboard/components/azure-devops-page/azure-devops.component.ts:411-422 | the report request names the tracked run, and the listing URL built for it reads back as that project, pipeline and run |
| AzureDevOpsPage.OnReportDownloaded | src/app/dashboard/components/azure-devops-page/azure-devops.component.ts:430-474 | a login link, an empty file, a saved report or the failure's message, each with its own text |
| AzureDevOpsPage.DownloadedOnlyWithData | src/app/dashboard/components/azure-devops-page/azure-devops.component.ts:430-474 | 'Report downloaded successfully.' is shown exactly when a non-empty file arrived |
| AzureDevOpsPage.RowClass | src/app/dashboard/components/azure-devops-page/azure-devops.component.ts:478-485 | each of PASSED, FAILED and SKIPPED has its own row class, and every other status has none |
| AzureDevOpsPage.BadgeClass | src/app/dashboard/components/azure-devops-page/azure-devops.component.ts:487-494 | each of the three statuses has its own badge, and every other status gets the secondary badge |
| DashboardPage.IdText | src/app/dashboard/containers/dashboard-page/dashboard-page.component.ts:166-167 | the id's text reads back as the id, or 0 when it is missing |
| DashboardPage.ToRow | src/app/dashboard/containers/dashboard-page/dashboard-page.component.ts:165-175 | a row keeps every field of the step, with ids as text, and is tagged with the run |
| DashboardPage.RowCountsAreStepCounts | src/app/dashboard/containers/dashboard-page/dashboard-page.component.ts:195-197 | counting rows by status gives the step counts |
| DashboardPage.Trigger | src/app/dashboard/containers/dashboard-page/dashboard-page.component.ts:101-121 | nothing without a project and pipeline; otherwise an execution with run id 0 is tracked and published as initiating, the trigger request for that project and pipeline is sent, and the message and table are untouched |
| DashboardPage.LoadTestResults | src/app/dashboard/containers/dashboard-page/dashboard-page.component.ts:152-163 | the id is the argument, else the page's run id, else 0; without a tracked project or with id 0 only a waiting message is shown, otherwise loading starts and that run's results are requested |
| DashboardPage.LoadAgreesWithRunner | src/app/dashboard/containers/dashboard-page/dashboard-page.component.ts:152-163 | for the same execution and run id the dashboard and the runner page send the same results request, or both send none |
| DashboardPage.OnTriggered | src/app/dashboard/containers/dashboard-page/dashboard-page.component.ts:123-139 | the status is always published as stopped at 100%; only a state that is 'completed' in any letter case adopts the run and loads its results |
| DashboardPage.TriggeredRunLoadsResults | src/app/dashboard/containers/dashboard-page/dashboard-page.component.ts:101-139 | a triggered run answered as completed in any letter case is adopted, and with a project name and run id its results follow the trigger request; any other state sends only the trigger and keeps run id 0 |
| DashboardPage.TriggeredAgreesWithRunner | src/app/dashboard/containers/dashboard-page/dashboard-page.component.ts:123-139 | for a completed, succeeded run both pages adopt the same execution and request the same results |
| DashboardPage.OnTriggerError | src/app/dashboard/containers/dashboard-page/dashboard-page.component.ts:140-148 | the run is published as stopped at stage 'Error' and the error is shown |
| DashboardPage.TriggerErrorAgreesWithRunner | src/app/dashboard/containers/dashboard-page/dashboard-page.component.ts:140-148 | both pages show the same trigger error text and stop the run; the dashboard's stage is 'Error' where the runner's is empty |
| DashboardPage.OnResults | src/app/dashboard/containers/dashboard-page/dashboard-page.component.ts:188-222 | an empty list only says so; otherwise the table holds the rows and the counts are the status counts |
| DashboardPage.OnResultsError | src/app/dashboard/containers/dashboard-page/dashboard-page.component.ts:176-184 | a missing build 0 means waiting; any other error is shown; loading stops |
| DashboardPage.ResultsErrorAgreesWithRunner | src/app/dashboard/containers/dashboard-page/dashboard-page.component.ts:176-184 | both pages show the same text for a failed results request |
| DashboardPage.ReceiveResultsAsWritten | src/app/dashboard/containers/dashboard-page/dashboard-page.component.ts:163-193 | as written: the error handler's empty replacement list also runs the success path |
| DashboardPage.ErrorMessageIsOverwritten | src/app/dashboard/containers/dashboard-page/dashboard-page.component.ts:176-193 | as written, every error message is replaced by 'No test results available yet.' |
| DashboardPage.ReceiveResults | src/app/dashboard/containers/dashboard-page/dashboard-page.component.ts:163-193 | the corrected receive: a failure keeps the error handler's message |
| DashboardPage.ReceiveResultsAgreeOnSuccess | src/app/dashboard/containers/dashboard-page/dashboard-page.component.ts:165-193 | the correction changes nothing for successful responses |
| DashboardPage.FilterByStatus | src/app/dashboard/containers/dashboard-page/dashboard-page.component.ts:301-316 | 'ALL' and the empty status show every row; any other status shows exactly the rows with that status |
| DashboardPage.ApplyFilter | src/app/dashboard/containers/dashboard-page/dashboard-page.component.ts:318-335 | the trimmed, lower-cased input is searched in each row's text fields, and the status filter is reset |
| DashboardPage.SearchIgnoresInputCase | src/app/dashboard/containers/dashboard-page/dashboard-page.component.ts:322-331 | the search result does not depend on the letter case of the input |
| DashboardPage.StatusClass | src/app/dashboard/containers/dashboard-page/dashboard-page.component.ts:337-339 | only an exact 'PASSED' is shown as passed; everything else is shown as failed |
| TestHistory.StoredHistory | src/app/dashboard/services/test-results.service.ts:39-46 | nothing stored is no history, a parsable document is that history, and unparsable text is an error |
| TestHistory.Load | src/app/dashboard/services/test-results.service.ts:39-46 | a stored history is published as it was; nothing stored starts empty; corrupt text fails construction |
| TestHistory.SaveTestHistory | src/app/dashboard/services/test-results.service.ts:48-51 | the same list is published and stored; other keys are untouched |
| TestHistory.SaveThenLoad | src/app/dashboard/services/test-results.service.ts:39-51 | a saved history loads back unchanged |
| TestHistory.SummaryEntry | src/app/dashboard/services/test-results.service.ts:57-64 | the entry takes the summary's total and build number; a missing or empty branch becomes 'unknown' |
| TestHistory.AppendCapped | src/app/dashboard/services/test-results.service.ts:57-68 | the new entry is last; the oldest entry is dropped when the list would exceed 100 |
| TestHistory.OnFetchedSummary | src/app/dashboard/services/test-results.service.ts:53-73 | the fetched summary's entry is appended with the cap, published and stored |
| TestHistory.FetchesStayWithinCapacity | src/app/dashboard/services/test-results.service.ts:65-68 | however many summaries arrive, the history never exceeds 100 entries |
| TestHistory.RunEntry | src/app/dashboard/services/test-results.service.ts:79-85 | a completed run's entry has its test total, branch 'unknown' and a build number that reads back as the run id |
| TestHistory.UpdatePipelineStatus | src/app/dashboard/services/test-results.service.ts:75-89 | the status is published; a finished status with a completed run appends its entry; any other status leaves the history alone |
| TestHistory.StatusUpdateIgnoresCapacity | src/app/dashboard/services/test-results.service.ts:76-87 | unlike a fetch, a status update grows a full history to 101 entries |
| TestHistory.Recent | src/app/dashboard/services/test-results.service.ts:127 | the last ten entries, or all of them when there are fewer |
| TestHistory.RecentSlides | src/app/dashboard/services/test-results.service.ts:127 | a new entry joins the window and, once it holds ten, the oldest leaves |
| TestHistory.RecentIgnoresCapacity | src/app/dashboard/services/test-results.service.ts:57-68 | dropping the oldest entry for capacity never changes the last ten |
| TestHistory.CalculateTrend | src/app/dashboard/services/test-results.service.ts:140-145 | no trend below two values; otherwise the change from the first value to the last |
| TestHistory.TotalTestsTrend | src/app/dashboard/services/test-results.service.ts:116-138 | none below two entries; otherwise the change from the oldest of the last ten to the newest |
| TestHistory.TrendAfterFetch | src/app/dashboard/services/test-results.service.ts:116-138 | after a fetch the trend ends at the fetched total and starts at the oldest entry of the slid window |
| CountPipes.CountLowerIsIndexCount | src/app/dashboard/pipes/test-result-pipes.ts:15 | the pipe's count is the number of positions whose status lower-cases to the wanted one |
| CountPipes.SafeCount | src/app/dashboard/pipes/test-result-pipes.ts:13-16 | a missing or non-array input counts 0; a list counts the statuses that lower-case to the target, at most its length |
| CountPipes.CategoriesDisjoint | src/app/dashboard/pipes/test-result-pipes.ts:12-38 | no result is counted by two of the three pipes, so together they count at most every result |
| CountPipes.OneCategoryPerStatus | src/app/dashboard/pipes/test-result-pipes.ts:12-38 | no status, in any letter case, matches two of 'passed', 'failed' and 'skipped' |
| CountPipes.CountsBounded | src/app/dashboard/pipes/test-result-pipes.ts:12-38 | the three pipes' counts add up to at most the number of results |
| CountPipes.MissingStatusIgnored | src/app/dashboard/pipes/test-result-pipes.ts:15 | adding a result without a status changes no count |
| CountPipes.CountIgnoresCase | src/app/dashboard/pipes/test-result-pipes.ts:15 | a result is counted whatever the letter case of its status |
| CountPipes.MixedCaseCounted | src/app/dashboard/pipes/test-result-pipes.ts:15 | 'PASSED', 'Passed' and 'passed' are all counted as passed, while a missing status and 'FAILED' are not |
| CountPipes.StrictCount | src/app/dashboard/pipes/test-result-counts.pipe.ts:8-10 | the second pipe variant counts 0 for a missing list and at most the list's length otherwise |
| CountPipes.VariantsAgree | src/app/dashboard/pipes/test-result-counts.pipe.ts:8-30 | on results that all carry a status the two pipe variants give the same count |
| CountPipes.NullGivesZero | src/app/dashboard/pipes/test-result-counts.pipe.ts:9 | a missing list counts 0 |
| CountPipes.StrictCountsBounded | src/app/dashboard/pipes/test-result-counts.pipe.ts:8-30 | the strict counts add up to at most the number of results |
| CountPipes.ExactCountsAtMostPipeCounts | src/app/dashboard/pipes/test-result-pipes.ts:13-27 | the exact-case counts of the results service never exceed the pipes' counts |
| SharedShortName.ShortName | src/app/shared/pipes/short-name.pipe.ts:12-29 | at most two upper-case characters without a space; empty stays empty; a single word gives its first two letters in upper case; a name with a space gives the initials of its first and last space-separated pieces |
| SharedShortName.TwoWords | src/app/shared/pipes/short-name.pipe.ts:24-28 | two words give their initials in upper case |
| SharedShortName.ManyWords | src/app/shared/pipes/short-name.pipe.ts:17-28 | for any number of pieces only the first and the last give initials, and an empty end piece gives none |
| SharedShortName.JohnDoe | src/app/shared/pipes/short-name.pipe.ts:4 | 'John Doe' becomes 'JD' |
| SharedShortName.Idempotent | src/app/shared/pipes/short-name.pipe.ts:17-28 | applying the pipe to its own output changes nothing |
| SharedShortName.PaddedNameLosesInitials | src/app/shared/pipes/short-name.pipe.ts:17-28 | a leading space makes the first part empty, so the initials are lost |
| DashboardShortName.ShortName | src/app/dashboard/pipes/short-name.pipe.ts:8-17 | trims first, then takes the initials of the first and last words, or the first letter of a single word |
| DashboardShortName.AgreesWithSharedOnTrimmedNames | src/app/dashboard/pipes/short-name.pipe.ts:15-16 | on a trimmed two-word name both pipes give the same initials |
| DashboardShortName.SingleWordIsPrefixOfShared | src/app/dashboard/pipes/short-name.pipe.ts:13-14 | for one word the dashboard pipe's result begins the shared pipe's result |
| DashboardShortName.JohnDiffers | src/app/dashboard/pipes/short-name.pipe.ts:13-14 | 'John' becomes 'J' here but 'JO' in the shared pipe |
| DashboardShortName.SharedAfterTrim | src/app/dashboard/pipes/short-name.pipe.ts:12-16 | on multi-word names the dashboard pipe is the shared pipe applied to the trimmed name |
| DashboardShortName.PaddingIgnored | src/app/dashboard/pipes/short-name.pipe.ts:12 | surrounding spaces do not change the result |
| DashboardShortName.PaddedJohnDoe | src/app/dashboard/pipes/short-name.pipe.ts:12-16 | ' John Doe ' still gives 'JD' |
| Notifications.Save | src/app/services/notification.service.ts:82-84 | the list is published and stored; other keys are untouched |
| Notifications.Load | src/app/services/notification.service.ts:86-100 | a stored list is adopted; corrupt text is removed and the list is empty; nothing stored is empty |
| Notifications.LoadAfterPersist | src/app/services/notification.service.ts:82-94 | a persisted list loads back as it was |
| Notifications.CorruptDataRemoved | src/app/services/notification.service.ts:95-98 | unparsable stored text is deleted and yields no notifications |
| Notifications.UnreadCount | src/app/services/notification.service.ts:21-25 | at most the number of notifications |
| Notifications.UnreadCountIsIndexCount | src/app/services/notification.service.ts:23 | the unread count is the number of positions not read |
| Notifications.UnreadCountPrepend | src/app/services/notification.service.ts:42-48 | putting a notification in front adds one to the count exactly when it is unread |
| Notifications.Add | src/app/services/notification.service.ts:27-50 | the new unread notification comes first, the rest follow unchanged, the unread count grows by one, and the list is stored |
| Notifications.AddInfo | src/app/services/notification.service.ts:27-33 | an info notification is added as completed with no pipeline or run |
| Notifications.MarkListAsRead | src/app/services/notification.service.ts:53-57 | exactly the entries with that id become read; nothing else in any entry changes |
| Notifications.MarkAsRead | src/app/services/notification.service.ts:52-61 | the list with that id marked read is published and stored |
| Notifications.MarkAllAsRead | src/app/services/notification.service.ts:63-71 | every entry becomes read and nothing else changes |
| Notifications.Clear | src/app/services/notification.service.ts:73-76 | the list is emptied and stored |
| Notifications.UnknownIdChangesNothing | src/app/services/notification.service.ts:53-57 | marking an id that is not in the list changes nothing |
| Notifications.MarkAsReadIdempotent | src/app/services/notification.service.ts:52-61 | marking the same id twice is marking it once |
| Notifications.MarkAllAsReadIdempotent | src/app/services/notification.service.ts:63-71 | marking all twice is marking all once |
| Notifications.MarkAllLeavesNothingUnread | src/app/services/notification.service.ts:63-68 | after marking all, the unread count is 0 |
| Notifications.MarkListAsReadCount | src/app/services/notification.service.ts:52-58 | marking an id drops the unread count by exactly the unread entries with that id |
| QaUser.ToNumber | src/app/services/admin.role/user.service.ts:49 | Number(null) is 0 and a number is itself |
| QaUser.ParseNumber | src/app/components/add-member/add-member.component.ts:194-199 | blank text is 0, a decimal integer is its value, anything else is NaN |
| QaUser.AsBool | src/app/services/admin.role/user.service.ts:59-62 | only a present true is true |
| QaUser.ToPermission | src/app/services/admin.role/user.service.ts:58-63 | each flag is granted exactly when it is present and true |
| QaUser.ToPermissionFlagsOf | src/app/models/qa-user.model.ts:1-6 | a permission written out as flags reads back unchanged |
| UsersList.SortBy | src/app/components/users-list/users-list.component.ts:268-277 | the same column flips the direction; a new column sorts ascending; filters stay |
| UsersList.SortByTwiceRestores | src/app/components/users-list/users-list.component.ts:269-270 | sorting the current column twice restores the state |
| UsersList.NewFieldTwiceIsDescending | src/app/components/users-list/users-list.component.ts:268-274 | choosing a new column twice sorts it descending |
| UsersList.ClearFilters | src/app/components/users-list/users-list.component.ts:284-292 | the search term is empty, the view is all users and the sort is by name ascending |
| UsersList.Selected | src/app/components/users-list/users-list.component.ts:220-237 | exactly the users in the view that match the search, and no copies beyond the input's |
| UsersList.SearchIgnoresTermCase | src/app/components/users-list/users-list.component.ts:228-236 | the search does not depend on the letter case of the term |
| UsersList.LexLeTotal | src/app/components/users-list/users-list.component.ts:244-253 | any two names are comparable |
| UsersList.LexLeTransitive | src/app/components/users-list/users-list.component.ts:244-253 | the name comparison is transitive |
| UsersList.InOrderTotal | src/app/components/users-list/users-list.component.ts:239-258 | any two users are ordered one way or the other under the chosen column and direction |
| UsersList.InOrderTransitive | src/app/components/users-list/users-list.component.ts:239-258 | the user ordering is transitive |
| UsersList.Sort | src/app/components/users-list/users-list.component.ts:239-258 | the result is a permutation of the input, sorted by the chosen column and direction |
| UsersList.ApplyFilters | src/app/components/users-list/users-list.component.ts:220-261 | the shown users are exactly the selected ones, each as often as selected, in sorted order |
| UsersList.ClearedShowsEveryone | src/app/components/users-list/users-list.component.ts:284-292 | after clearing the filters every user is shown, each once |
| UsersList.DescendingIsReversedAscending | src/app/components/users-list/users-list.component.ts:257 | an ascending list read backwards is in descending order |
| UsersList.Toggle | src/app/components/users-list/users-list.component.ts:294-309 | a project with both ids flips its expansion; nothing else changes |
| UsersList.ToggleTwice | src/app/components/users-list/users-list.component.ts:294-309 | toggling twice restores every expansion |
| UsersList.EscapeCsvValue | src/app/components/users-list/users-list.component.ts:594-599 | a value with a comma, quote or newline is quoted; any other value is kept as is |
| UsersList.UndoubleDoubleQuotes | src/app/components/users-list/users-list.component.ts:597 | undoubling the doubled quotes gives the value back |
| UsersList.EscapeRoundTrip | src/app/components/users-list/users-list.component.ts:594-599 | a CSV reader recovers every escaped value |
| UsersList.PermissionCount | src/app/components/users-list/users-list.component.ts:830-837 | between 0 and 4; 0 exactly for no permission and 4 exactly for all |
| UsersList.GrantingTriggerCountsOnce | src/app/components/users-list/users-list.component.ts:833 | granting trigger adds exactly one |
| UsersList.FirstIndex | src/app/components/users-list/users-list.component.ts:526 | the first position that matches, or none when none does |
| UsersList.UpdatePipelines | src/app/components/users-list/users-list.component.ts:538-543 | the first pipeline with the id takes the permissions; no such pipeline means no change |
| UsersList.UpdateProjects | src/app/components/users-list/users-list.component.ts:536-545 | the first project holding the pipeline is updated; no such project means no change |
| UsersList.UpdateLocalPermissions | src/app/components/users-list/users-list.component.ts:525-550 | only the first user with that id can change, and only in its projects; at most one user changes and every later user is kept; an unknown user or pipeline changes nothing |
| UsersList.PermissionsLandOnFirstMatch | src/app/components/users-list/users-list.component.ts:526-543 | the permissions land on the first matching pipeline of the first matching project of the first matching user, and every other user, project, pipeline and field is unchanged |
| AddMember.RoleName | src/app/components/add-member/add-member.component.ts:266-271 | '3', '2' and '1' name QAEngineer, QALead and ProductOwner; every other role has no name |
| AddMember.RoleNameInjective | src/app/components/add-member/add-member.component.ts:266-271 | different roles never share a name |
| AddMember.PipelineRequestOf | src/app/components/add-member/add-member.component.ts:286-292 | the pipeline id as a number and its flags as permissions |
| AddMember.ProjectRequestOf | src/app/components/add-member/add-member.component.ts:284-293 | the project id with one request per pipeline, in order |
| AddMember.Submit | src/app/components/add-member/add-member.component.ts:258-309 | an invalid form is refused; an unknown role throws; a sent request always comes from a valid form and names its role |
| AddMember.SentRequestMirrorsForm | src/app/components/add-member/add-member.component.ts:279-294 | the sent request carries the form's fields, role name and projects |
| AddMember.SentIdsAreValid | src/app/components/add-member/add-member.component.ts:300-308 | no pipeline id in a sent request is NaN or 0 |
| AddMember.ValidFormIsSent | src/app/components/add-member/add-member.component.ts:258-309 | a valid form with a known role and valid pipeline ids is sent |
| AddMember.EmptyRoleFailsValidation | src/app/components/add-member/add-member.component.ts:258-263 | an empty role is refused by validation before the role check |
| AddMember.OnPipelineSelect | src/app/components/add-member/add-member.component.ts:194-218 | 'null' clears the pipeline, a numeric choice sets it to that number, and an empty or unparsable choice keeps it |
| AddMember.SelectIdempotent | src/app/components/add-member/add-member.component.ts:194-218 | selecting the same option twice is selecting it once |
| AddMember.SelectingRenderedId | src/app/components/add-member/add-member.component.ts:194-199 | choosing a rendered pipeline id selects that id |
| AddMember.NamePipelines | src/app/components/add-member/add-member.component.ts:104-107 | ids are kept, a nameless pipeline gets a name, and named ones are untouched |
| AddMember.AddPipeline | src/app/components/add-member/add-member.component.ts:139-171 | no project means 'select a project'; no loaded pipelines means an error; with both it succeeds, appending a pipeline with the first loaded id and every permission off to that project only |
| AddMember.AddedPipelineGrantsNothing | src/app/components/add-member/add-member.component.ts:154-161 | the added pipeline's id is the first loaded pipeline's, with no permission granted |
| AddMember.ClosePermissionsModal | src/app/components/add-member/add-member.component.ts:238-244 | the modal is hidden with no target and no name |
| AddMember.FindPipeline | src/app/components/add-member/add-member.component.ts:231 | the first pipeline in the list with that id; none is found only when no pipeline has it |
| AddMember.OpenPermissionsModal | src/app/components/add-member/add-member.component.ts:221-236 | the modal is shown for that project and pipeline; with a chosen project, loaded pipelines and a non-zero id it shows the name of the first loaded pipeline with that id, or 'Pipeline' when there is none or it has no name; otherwise the previous name stays |
| AddMember.SavePermissions | src/app/components/add-member/add-member.component.ts:246-256 | only the targeted pipeline takes the permissions and the modal closes |
| AddMember.OpenThenSave | src/app/components/add-member/add-member.component.ts:221-256 | opening a pipeline's modal and saving gives that pipeline exactly the saved permissions |
| UserService.UpdatePermissions | src/app/services/admin.role/user.service.ts:38-73 | a missing user id or pipeline id fails with its message; otherwise a PUT to the user's change-access URL with the numeric id and the permissions |
| UserService.ZeroPipelineIdAccepted | src/app/services/admin.role/user.service.ts:44-49 | pipeline id 0 is accepted and sent as 0 |
| UserService.UserIdEndsTheUrl | src/app/services/admin.role/user.service.ts:65 | the user id is the last path segment of the URL |
| UserService.PermissionsRoundTrip | src/app/services/admin.role/user.service.ts:56-64 | permissions given with every flag arrive in the payload unchanged |
| Auth.CanAccessRoute | src/app/components/login/auth.service.ts:106-117 | admins go anywhere; others are barred from every route starting with /app/users or /app/add-member |
| Auth.PrefixAlsoBlocksLookalikes | src/app/components/login/auth.service.ts:114-116 | a non-admin is also barred from '/app/users-archive' but not from '/app/dashboard' |
| Auth.FullName | src/app/components/login/auth.service.ts:79-87 | first and last name joined by a space when both are non-empty, else 'User' |
| Auth.AuthKeys | src/app/models/auth.model.ts:27-34 | the six storage keys are distinct |
| Auth.SetUserSession | src/app/components/login/auth.service.ts:122-140 | the state mirrors the user and all six keys hold its fields; other keys are untouched |
| Auth.ClearUserSession | src/app/components/login/auth.service.ts:145-163 | signed out with all six keys removed; other keys are untouched |
| Auth.LogoutRevokes | src/app/components/login/auth.service.ts:54-60 | after logout nobody is authenticated or admin, and the name is 'User' |
| Auth.Load | src/app/components/login/auth.service.ts:168-189 | only an exact 'true' flag signs in, with the stored fields; otherwise signed out |
| Auth.SetThenLoad | src/app/components/login/auth.service.ts:168-189 | a set session is restored exactly by a fresh load |
| Auth.ClearThenLoad | src/app/components/login/auth.service.ts:145-189 | after logout a fresh load stays signed out |
| Auth.TriggerUsesSignedInUser | src/app/dashboard/services/test-results-api.service.ts:25-28 | the signed-in user's id is the one the trigger URL uses; after logout it is 'default' |
| AdminGuard.CanActivate | src/app/components/login/admin.guard.ts:14-25 | admins pass; other signed-in users go to the dashboard; everyone else goes to login |
| AdminGuard.AllowedImpliesRouteAccess | src/app/components/login/admin.guard.ts:16-18 | whoever the guard lets through may access every route |
| AdminGuard.LoggedOutGoesToLogin | src/app/components/login/admin.guard.ts:24 | after logout the guard sends to login |
| AdminGuard.RestoredAdminAllowed | src/app/components/login/admin.guard.ts:16-18 | an admin session restored from storage passes the guard |
| Theme.InitialConsistent | src/app/components/services/shared.service.ts:8-14 | the service starts with blue on, light mode and the names matching |
| Theme.SetBlueTheme | src/app/components/services/shared.service.ts:26-31 | only blue is on and named; dark mode is untouched |
| Theme.SetPinkTheme | src/app/components/services/shared.service.ts:33-38 | only pink is on and named; dark mode is untouched |
| Theme.SetGreenTheme | src/app/components/services/shared.service.ts:40-45 | only green is on and named; dark mode is untouched |
| Theme.SetDarkMode | src/app/components/services/shared.service.ts:47-50 | the flag takes the value and the mode is 'dark' exactly when it is true; the theme is untouched |
| Theme.RunStaysConsistent | src/app/components/services/shared.service.ts:26-50 | after any calls exactly one theme is on with its name, and the mode follows the flag |
| Theme.DarkModeIsLastSet | src/app/components/services/shared.service.ts:47-54 | getDarkMode returns the last value set, and theme calls do not touch it |

## Left out

- HTTP, timers and the DOM are outside the model. Responses are parameters, and each request is a value the model returns. Polling intervals, toasts, modals, `window.open` and the blob download are omitted.
- The runner page's scheduled trigger (azure-devops.component.ts:196-219) builds a date from form input and the clock. Only the immediate trigger is modelled. `ResultsApi.TriggerPipeline` takes the already formatted time as text.
- The runner page turns the download URL into a `URL` and edits its search parameters (azure-devops.component.ts:425-427). That parsing is left out; the model takes the resulting URL as a parameter.
- The page's own try/catch around the DOM download only guards browser calls, so it is left out.
- Both pages' `refreshTestResults`, the dashboard's `build_id` query parameter in `ngOnInit`, and the project and pipeline pickers' loading calls are left out. They are plumbing around calls that are modelled.
- `getAllUsers` is left out. It returns the server's list unchanged and only logs.
- Login's HTTP call is left out. Its response is the user handed to `Auth.SetUserSession`.
- `getLatestResults`, `getFlakyTests` and `getTestHistory` are left out. They are pass-through calls or return a constant.
- Floating point is left out: pass rates, the overall pass rate and the trend percentage.
- TestHistory.CalculateTrend: returns the first and last value rather than the percentage change, because floating point is left out.
- Timestamps and generated notification ids are left out. Ids are parameters of `Notifications.Add`.
- The count pipes that are not null-safe throw on a result without a status. `CountPipes.StrictCount` therefore takes statuses that are all present.
- Status comparisons follow the source. The results services compare exactly (`'PASSED'`), while the count pipes lower-case first. The model keeps both, and `CountPipes.ExactCountsAtMostPipeCounts` relates them.
- Case mapping covers ASCII letters only. Characters whose upper case is longer (such as 'ß') are not modelled, and the two-character bound of the initials pipes relies on this.
- SharedShortName.ShortName: characters are Unicode scalar values, while `substring(0, 2)` counts UTF-16 code units. A name starting with a character outside the Basic Multilingual Plane (an emoji) gives one character in the source and two here.
- DashboardShortName.ShortName: likewise `charAt(0)` of a name starting outside the Basic Multilingual Plane is a lone surrogate in the source, and the whole character here.
- UsersList.Sort: `localeCompare` is modelled as code-point order, and the stability of `Array.prototype.sort` is not stated. The contract is a sorted permutation.
- QaUser.ParseNumber: `Number()` on text covers decimal integers only. Hexadecimal, exponent and fractional forms become `NaN`, and so does a leading '+' (`Number("+12")` is 12). The pipeline select only ever holds ids it rendered, which have no such form.
- ResultsApi.EncodeUriComponent: strings are sequences of Unicode scalar values, so a lone surrogate, which makes `encodeURIComponent` throw, cannot occur in the model.
- PipelineStorage.SaveExecution: every storage call is assumed to succeed. The service wraps each `localStorage` call in a try/catch that logs and swallows the error (src/app/dashboard/services/pipeline-storage.service.ts:24-67), so in the source a failed `setItem` leaves nothing stored; the model's store is a map that cannot fail.
- The runner page's `runPipeline` event, emitted after a successful trigger (azure-devops.component.ts:258-264), is left out. It only notifies the parent component, which is outside the model.
- The add-member e-mail validator is not modelled. Its verdict is the `emailWellFormed` parameter.
- Aliasing between `users` and `filteredUsers` is not modelled, nor the in-place `push` on the published history array. The model works on values.
- The `TestStepResult` interface names `status` and `featureName`, while the code reads `Status` and `Feature`. The model follows the code.

## Findings

| source | as written | input that shows it | evidently intended | confidence | as-written member | corrected member |
|---|---|---|---|---|---|---|
| src/app/dashboard/services/test-results-api.service.ts:94-130 | the error thrown for a null response body goes through the same `catchError`; it has no status, so it is reported as a network error | a 200 response whose body is null | report 'Empty response received' | not executed | ResultsApi.EmptyBodyReportedAsNetworkError | ResultsApi.Download |
| src/app/dashboard/containers/dashboard-page/dashboard-page.component.ts:176-193 | `catchError` sets the error message and returns an empty list, which `next` then treats as "no results", overwriting the message | an error containing 'Pipeline execution for build 0 not found' | keep the waiting message set by the error handler | not executed | DashboardPage.ErrorMessageIsOverwritten | DashboardPage.ReceiveResults |

=== FILE: add_member.dfy ===
/** The add-member form (`AddMemberComponent`): choosing pipelines, editing their
    permissions in a modal, and turning the form into the access request that is
    sent. The form's own validators are summarised by `FormValid`; the verdict of
    the email-format validator is a parameter. */
module AddMember {
  import opened Common
  import opened QaUser

  const FillRequiredMessage := "Please fill in all required fields."
  const SelectRoleMessage := "Please select a role before submitting."
  const InvalidPipelinesMessage := "Please select valid pipelines for all projects."
  const SelectProjectMessage := "Please select a project before adding a pipeline."
  const NoPipelinesMessage := "No pipelines available for this project."
  const UnnamedPipeline := "Unnamed Pipeline"
  const DefaultModalName := "Pipeline"

  datatype PipelineForm = PipelineForm(id: Option<Num>, flags: LooseFlags)
  datatype ProjectForm = ProjectForm(projectId: string, pipelines: seq<PipelineForm>)
  datatype MemberForm = MemberForm(firstname: string, lastname: string, email: string, role: string, projects: seq<ProjectForm>)

  datatype PipelineRequest = PipelineRequest(id: Num, permissions: Permission)
  datatype ProjectRequest = ProjectRequest(projectId: string, pipelines: seq<PipelineRequest>)
  datatype AccessRequest = AccessRequest(firstname: string, lastname: string, email: string, role: string, projects: seq<ProjectRequest>)

  /** What a submission ends in: refused with a message, an exception, or the request sent. */
  datatype SubmitOutcome = Refused(message: string) | Thrown(message: string) | Sent(request: AccessRequest)

  /** A pipeline as loaded for a project; a missing name is shown as 'Unnamed Pipeline'. */
  datatype AzurePipeline = AzurePipeline(id: int, name: string)

  // ---------------------------------------------------------------------------
  // Submission
  // ---------------------------------------------------------------------------

  /** The required validators: names, email, role and every project id filled in,
      every pipeline id present; plus the email-format verdict. */
  predicate FormValid(form: MemberForm, emailWellFormed: bool) {
    form.firstname != "" && form.lastname != "" && form.email != "" && emailWellFormed && form.role != ""
    && (forall i :: 0 <= i < |form.projects| ==> form.projects[i].projectId != "")
    && (forall i, j :: 0 <= i < |form.projects| && 0 <= j < |form.projects[i].pipelines| ==>
          form.projects[i].pipelines[j].id.Some?)
  }

  /** The select's role values: '3', '2' and '1'. */
  function RoleName(role: string): (r: Option<string>)
    ensures r.Some? <==> role == "3" || role == "2" || role == "1"
    ensures role == "3" ==> r == Some("QAEngineer")
    ensures role == "2" ==> r == Some("QALead")
    ensures role == "1" ==> r == Some("ProductOwner")
  {
    if role == "3" then Some("QAEngineer")
    else if role == "2" then Some("QALead")
    else if role == "1" then Some("ProductOwner")
    else None
  }

  /** The three role names are distinct, so the mapping is one-to-one. */
  lemma RoleNameInjective(a: string, b: string)
    requires RoleName(a).Some? && RoleName(a) == RoleName(b)
    ensures a == b
  {
  }

  function InvalidRoleMessage(role: string): string {
    "Invalid role value: " + role + ". Expected '3:QAENGINEER', " + "'2:QALEAD', or '1:PRODUCTOWNER'"
  }

  function PipelineRequestOf(p: PipelineForm): (r: PipelineRequest)
    ensures r.id == ToNumber(p.id) && r.permissions == ToPermission(p.flags)
  {
    PipelineRequest(ToNumber(p.id), ToPermission(p.flags))
  }

  function ProjectRequestOf(p: ProjectForm): (r: ProjectRequest)
    ensures r.projectId == p.projectId && |r.pipelines| == |p.pipelines|
    ensures forall j :: 0 <= j < |p.pipelines| ==> r.pipelines[j] == PipelineRequestOf(p.pipelines[j])
  {
    ProjectRequest(p.projectId, seq(|p.pipelines|, j requires 0 <= j < |p.pipelines| => PipelineRequestOf(p.pipelines[j])))
  }

  /** `!pipeline.Id || isNaN(pipeline.Id)` on the converted id. */
  predicate BadId(id: Num) {
    id == Finite(0) || id == NaN
  }

  predicate HasInvalidPipelines(projects: seq<ProjectRequest>) {
    exists i, j :: 0 <= i < |projects| && 0 <= j < |projects[i].pipelines| && BadId(projects[i].pipelines[j].id)
  }

  function RequestProjects(projects: seq<ProjectForm>): (r: seq<ProjectRequest>)
    ensures |r| == |projects| && forall i :: 0 <= i < |projects| ==> r[i] == ProjectRequestOf(projects[i])
  {
    seq(|projects|, i requires 0 <= i < |projects| => ProjectRequestOf(projects[i]))
  }

  /** `onSubmit`. */
  function Submit(form: MemberForm, emailWellFormed: bool): (r: SubmitOutcome)
    ensures !FormValid(form, emailWellFormed) ==> r == Refused(FillRequiredMessage)
    ensures FormValid(form, emailWellFormed) && RoleName(form.role).None? ==> r == Thrown(InvalidRoleMessage(form.role))
    ensures r.Sent? ==> FormValid(form, emailWellFormed) && RoleName(form.role) == Some(r.request.role)
  {
    if !FormValid(form, emailWellFormed) then Refused(FillRequiredMessage)
    else match RoleName(form.role)
      case None => if form.role == "" then Refused(SelectRoleMessage) else Thrown(InvalidRoleMessage(form.role))
      case Some(role) =>
        var projects := RequestProjects(form.projects);
        if HasInvalidPipelines(projects) then Refused(InvalidPipelinesMessage)
        else Sent(AccessRequest(form.firstname, form.lastname, form.email, role, projects))
  }

  /** The request copies the form: names, email, project ids, each pipeline id
      through `Number` and each flag through `!!`. */
  lemma SentRequestMirrorsForm(form: MemberForm, emailWellFormed: bool)
    requires Submit(form, emailWellFormed).Sent?
    ensures var req := Submit(form, emailWellFormed).request;
            req.firstname == form.firstname && req.lastname == form.lastname && req.email == form.email
            && |req.projects| == |form.projects|
            && (forall i :: 0 <= i < |form.projects| ==> req.projects[i] == ProjectRequestOf(form.projects[i]))
  {
  }

  /** Every pipeline id in a sent request is a non-zero integer, and each one is
      the form's id unchanged. */
  lemma SentIdsAreValid(form: MemberForm, emailWellFormed: bool, i: nat, j: nat)
    requires Submit(form, emailWellFormed).Sent?
    requires i < |form.projects| && j < |form.projects[i].pipelines|
    ensures var id := Submit(form, emailWellFormed).request.projects[i].pipelines[j].id;
            id.Finite? && id.n != 0 && form.projects[i].pipelines[j].id == Some(id)
  {
    var req := Submit(form, emailWellFormed).request;
    assert !BadId(req.projects[i].pipelines[j].id);
  }

  /** A valid form with a known role and non-zero pipeline ids is sent. */
  lemma ValidFormIsSent(form: MemberForm, emailWellFormed: bool)
    requires FormValid(form, emailWellFormed) && RoleName(form.role).Some?
    requires forall i, j :: 0 <= i < |form.projects| && 0 <= j < |form.projects[i].pipelines| ==>
               form.projects[i].pipelines[j].id.Some? && !BadId(form.projects[i].pipelines[j].id.value)
    ensures Submit(form, emailWellFormed).Sent?
  {
  }

  /** An empty role already fails the required validator, so the role check's own
      message for it is never shown. */
  lemma EmptyRoleFailsValidation(form: MemberForm, emailWellFormed: bool)
    requires form.role == ""
    ensures Submit(form, emailWellFormed) == Refused(FillRequiredMessage)
  {
  }

  // ---------------------------------------------------------------------------
  // Choosing pipelines
  // ---------------------------------------------------------------------------

  /** `onPipelineSelect`: a numeric choice different from the current id replaces
      it; 'null' clears an id that is set; anything else keeps the id. */
  function OnPipelineSelect(current: Option<Num>, selected: string): (r: Option<Num>)
    ensures r == current || r == None || (r.Some? && r.value.Finite? && r.value == ParseNumber(selected))
    ensures r != current && r.Some? ==> selected != "" && selected != "null" && r.value.Finite?
    ensures r != current && r.None? ==> selected == "null"
    ensures selected == "null" ==> r == None
    ensures selected != "" && selected != "null" && ParseNumber(selected).Finite? ==> r == Some(ParseNumber(selected))
    ensures selected != "" && selected != "null" && ParseNumber(selected).NaN? ==> r == current
  {
    if selected != "" && selected != "null" then
      var id := ParseNumber(selected);
      if id != NaN && current != Some(id) then Some(id) else current
    else if selected == "null" && current != None then None
    else current
  }

  /** Choosing the same option again changes nothing. */
  lemma SelectIdempotent(current: Option<Num>, selected: string)
    ensures OnPipelineSelect(OnPipelineSelect(current, selected), selected) == OnPipelineSelect(current, selected)
  {
  }

  /** An option rendered from a pipeline id selects exactly that id. */
  lemma SelectingRenderedId(current: Option<Num>, id: int)
    ensures OnPipelineSelect(current, IntToString(id)) == Some(Finite(id))
  {
    var s := IntToString(id);
    ParseIntToString(id);
    assert !IsJsSpace(s[0]) && !IsJsSpace(s[|s| - 1]) by {
      if AllDigits(s) {
        assert IsDigit(s[0]) && IsDigit(s[|s| - 1]);
      } else {
        assert s[0] == '-' && AllDigits(s[1..]);
        assert s[|s| - 1] == s[1..][|s[1..]| - 1];
      }
    }
    assert s != "null" by {
      assert s[0] != 'n';
    }
  }

  /** The pipelines shown for a project: missing names become 'Unnamed Pipeline'. */
  function NamePipelines(raw: seq<AzurePipeline>): (r: seq<AzurePipeline>)
    ensures |r| == |raw|
    ensures forall i :: 0 <= i < |raw| ==> r[i].id == raw[i].id && r[i].name != ""
    ensures forall i :: 0 <= i < |raw| && raw[i].name != "" ==> r[i] == raw[i]
  {
    seq(|raw|, i requires 0 <= i < |raw| => if raw[i].name == "" then raw[i].(name := UnnamedPipeline) else raw[i])
  }

  /** `addPipeline`: needs a chosen project and at least one loaded pipeline, and adds
      the first one with every permission off. */
  function AddPipeline(form: MemberForm, projectIndex: nat, loaded: Option<seq<AzurePipeline>>): (r: Result<MemberForm, string>)
    requires projectIndex < |form.projects|
    ensures form.projects[projectIndex].projectId == "" ==> r == Failure(SelectProjectMessage)
    ensures form.projects[projectIndex].projectId != "" && (loaded.None? || loaded.value == []) ==>
              r == Failure(NoPipelinesMessage)
    ensures form.projects[projectIndex].projectId != "" && loaded.Some? && |loaded.value| > 0 ==> r.Success?
    ensures r.Success? ==>
              loaded.Some? && |loaded.value| > 0
              && |r.value.projects| == |form.projects|
              && (forall i :: 0 <= i < |form.projects| && i != projectIndex ==> r.value.projects[i] == form.projects[i])
              && r.value.projects[projectIndex].projectId == form.projects[projectIndex].projectId
              && r.value.projects[projectIndex].pipelines
                 == form.projects[projectIndex].pipelines
                    + [PipelineForm(Some(Finite(loaded.value[0].id)), FlagsOf(NoPermission))]
    ensures r.Success? ==> r.value.(projects := form.projects) == form
  {
    var project := form.projects[projectIndex];
    if project.projectId == "" then Failure(SelectProjectMessage)
    else if loaded.None? || |loaded.value| == 0 then Failure(NoPipelinesMessage)
    else
      var added := PipelineForm(Some(Finite(loaded.value[0].id)), FlagsOf(NoPermission));
      Success(form.(projects := form.projects[projectIndex := project.(pipelines := project.pipelines + [added])]))
  }

  /** A pipeline just added carries the first loaded pipeline's id and grants nothing
      until permissions are saved for it. */
  lemma AddedPipelineGrantsNothing(form: MemberForm, projectIndex: nat, loaded: Option<seq<AzurePipeline>>)
    requires projectIndex < |form.projects|
    requires AddPipeline(form, projectIndex, loaded).Success?
    ensures var ps := AddPipeline(form, projectIndex, loaded).value.projects[projectIndex].pipelines;
            |ps| > 0 && PermissionCountIsZero(ToPermission(ps[|ps| - 1].flags))
            && loaded.Some? && |loaded.value| > 0 && ps[|ps| - 1].id == Some(Finite(loaded.value[0].id))
  {
  }

  predicate PermissionCountIsZero(p: Permission) {
    !p.canViewHistory && !p.canTrigger && !p.canViewResults && !p.canDownloadReport
  }

  // ---------------------------------------------------------------------------
  // The permissions modal
  // ---------------------------------------------------------------------------

  /** The modal's state: whether it is shown, which pipeline it edits, the name it
      shows and the indices it remembers. */
  datatype Modal = Modal(show: bool, target: Option<(nat, nat)>, pipelineName: string, projectIndex: int, pipelineIndex: int)

  const ClosedModal := Modal(false, None, "", -1, -1)

  predicate Targets(form: MemberForm, pi: nat, qi: nat) {
    pi < |form.projects| && qi < |form.projects[pi].pipelines|
  }

  /** `closePermissionsModal`. */
  function ClosePermissionsModal(m: Modal): (r: Modal)
    ensures !r.show && r.target.None? && r.pipelineName == "" && r.projectIndex == -1 && r.pipelineIndex == -1
  {
    ClosedModal
  }

  /** The first pipeline with the id, if any, as `Array.prototype.find` gives it. */
  function FindPipeline(pipelines: seq<AzurePipeline>, id: int): (r: Option<AzurePipeline>)
    ensures r.Some? ==> r.value in pipelines && r.value.id == id
    ensures r.Some? ==> exists k :: 0 <= k < |pipelines| && pipelines[k] == r.value
                                    && forall i :: 0 <= i < k ==> pipelines[i].id != id
    ensures r.None? ==> forall i :: 0 <= i < |pipelines| ==> pipelines[i].id != id
  {
    if |pipelines| == 0 then None
    else if pipelines[0].id == id then Some(pipelines[0])
    else
      var rest := FindPipeline(pipelines[1..], id);
      if rest.Some? then
        var k :| 0 <= k < |pipelines| - 1 && pipelines[1..][k] == rest.value
                 && forall i :: 0 <= i < k ==> pipelines[1..][i].id != id;
        assert pipelines[k + 1] == rest.value;
        assert forall i :: 0 <= i < k + 1 ==> pipelines[i].id != id by {
          forall i | 0 <= i < k + 1 ensures pipelines[i].id != id {
            if i > 0 { assert pipelines[i] == pipelines[1..][i - 1]; }
          }
        }
        rest
      else rest
  }

  /** The modal looks the name up only when the pipeline's project is chosen, its
      pipelines are loaded and the pipeline has a non-zero id. */
  predicate NameLookup(form: MemberForm, loaded: map<string, seq<AzurePipeline>>, pi: nat, qi: nat)
    requires Targets(form, pi, qi)
  {
    var projectId := form.projects[pi].projectId;
    var id := form.projects[pi].pipelines[qi].id;
    projectId != "" && id.Some? && id.value.Finite? && id.value.n != 0 && projectId in loaded
  }

  /** `openPermissionsModal`: remembers the pipeline and, when the project and a
      non-zero id are known, shows the name of the first loaded pipeline with that id,
      or 'Pipeline' when there is none or it has no name. */
  function OpenPermissionsModal(form: MemberForm, m: Modal, loaded: map<string, seq<AzurePipeline>>, pi: nat, qi: nat): (r: Modal)
    requires Targets(form, pi, qi)
    ensures r.show && r.target == Some((pi, qi)) && r.projectIndex == pi && r.pipelineIndex == qi
    ensures r.pipelineName != m.pipelineName ==> r.pipelineName != ""
    ensures !NameLookup(form, loaded, pi, qi) ==> r.pipelineName == m.pipelineName
    ensures NameLookup(form, loaded, pi, qi) ==>
              var ps := loaded[form.projects[pi].projectId];
              var n := form.projects[pi].pipelines[qi].id.value.n;
              && (forall k :: 0 <= k < |ps| && ps[k].id == n && (forall i :: 0 <= i < k ==> ps[i].id != n) ==>
                    r.pipelineName == (if ps[k].name != "" then ps[k].name else DefaultModalName))
              && ((forall i :: 0 <= i < |ps| ==> ps[i].id != n) ==> r.pipelineName == DefaultModalName)
  {
    var projectId := form.projects[pi].projectId;
    var id := form.projects[pi].pipelines[qi].id;
    var name :=
      if projectId != "" && id.Some? && id.value.Finite? && id.value.n != 0 && projectId in loaded then
        match FindPipeline(loaded[projectId], id.value.n)
        case Some(p) => if p.name != "" then p.name else DefaultModalName
        case None => DefaultModalName
      else m.pipelineName;
    Modal(true, Some((pi, qi)), name, pi, qi)
  }

  /** `savePermissions`: only the four flags of the pipeline being edited change;
      the modal is closed in every case. */
  function SavePermissions(form: MemberForm, m: Modal, perms: Permission): (r: (MemberForm, Modal))
    ensures r.1 == ClosedModal
    ensures r.0.(projects := form.projects) == form && |r.0.projects| == |form.projects|
    ensures forall i :: 0 <= i < |form.projects| ==>
              r.0.projects[i].projectId == form.projects[i].projectId
              && |r.0.projects[i].pipelines| == |form.projects[i].pipelines|
    ensures forall i, j :: 0 <= i < |form.projects| && 0 <= j < |form.projects[i].pipelines| ==>
              r.0.projects[i].pipelines[j].id == form.projects[i].pipelines[j].id
    ensures forall i, j :: 0 <= i < |form.projects| && 0 <= j < |form.projects[i].pipelines| && m.target != Some((i, j)) ==>
              r.0.projects[i].pipelines[j] == form.projects[i].pipelines[j]
    ensures m.target.Some? && Targets(form, m.target.value.0, m.target.value.1) ==>
              r.0.projects[m.target.value.0].pipelines[m.target.value.1].flags == FlagsOf(perms)
  {
    var patched :=
      match m.target
      case Some((pi, qi)) =>
        if Targets(form, pi, qi) then
          var project := form.projects[pi];
          var pipeline := project.pipelines[qi];
          form.(projects := form.projects[pi := project.(pipelines := project.pipelines[qi := pipeline.(flags := FlagsOf(perms))])])
        else form
      case None => form;
    (patched, ClosePermissionsModal(m))
  }

  /** Saving through a freshly opened modal sets exactly the flags given. */
  lemma OpenThenSave(form: MemberForm, m: Modal, loaded: map<string, seq<AzurePipeline>>, pi: nat, qi: nat, perms: Permission)
    requires Targets(form, pi, qi)
    ensures var saved := SavePermissions(form, OpenPermissionsModal(form, m, loaded, pi, qi), perms).0;
            ToPermission(saved.projects[pi].pipelines[qi].flags) == perms
  {
    ToPermissionFlagsOf(perms);
  }
}

=== FILE: admin_guard.dfy ===
/** `AdminGuard.canActivate`: admins pass, other signed-in users go to the
    dashboard, everyone else to the login page. */
module AdminGuard {
  import opened Auth

  const DashboardRoute := "/app/dashboard"
  const LoginRoute := "/login"

  datatype Decision = Allow | RedirectTo(path: string)

  function CanActivate(st: AuthState): (d: Decision)
    ensures d == Allow <==> st.isAuthenticated && IsAdmin(st)
    ensures d == RedirectTo(DashboardRoute) <==> st.isAuthenticated && !IsAdmin(st)
    ensures d == RedirectTo(LoginRoute) <==> !st.isAuthenticated
  {
    if st.isAuthenticated && IsAdmin(st) then Allow
    else if st.isAuthenticated then RedirectTo(DashboardRoute)
    else RedirectTo(LoginRoute)
  }

  /** Whoever the guard lets through may also open every admin route. */
  lemma AllowedImpliesRouteAccess(st: AuthState, route: string)
    requires CanActivate(st) == Allow
    ensures CanAccessRoute(st, route)
  {
  }

  /** After logout the guard sends the user to the login page. */
  lemma LoggedOutGoesToLogin<T>(s: Session<T>)
    ensures CanActivate(ClearUserSession(s).state) == RedirectTo(LoginRoute)
  {
  }

  /** A signed-in admin restored from storage is let through. */
  lemma RestoredAdminAllowed<T>(s: Session<T>, user: UserResponse)
    requires user.role == AdminRole
    ensures CanActivate(Load(SetUserSession(s, user).store).state) == Allow
  {
    SetThenLoad(s, user);
  }
}

=== FILE: auth.dfy ===
/** `AuthService`: the signed-in user's state, mirrored in storage under six keys,
    and the access rules derived from it. Login's HTTP call is left out: its
    response is the `UserResponse` handed to `SetUserSession`. */
module Auth {
  import opened Common
  import opened KeyValue
  import ResultsApi

  const UserIdKey := "user_id"
  const FirstNameKey := "first_name"
  const LastNameKey := "last_name"
  const EmailKey := "email"
  const RoleKey := "role"
  const IsAuthenticatedKey := "is_authenticated"

  const AdminRole := "Admin"
  const UsersRoute := "/app/users"
  const AddMemberRoute := "/app/add-member"
  const AnonymousName := "User"

  datatype AuthState = AuthState(
    userId: Option<string>,
    firstName: Option<string>,
    lastName: Option<string>,
    email: Option<string>,
    role: Option<string>,
    isAuthenticated: bool)

  const SignedOut := AuthState(None, None, None, None, None, false)

  datatype UserResponse = UserResponse(id: string, firstname: string, lastname: string, email: string, role: string)

  /** The service: its current state and the storage it mirrors it to. The six keys
      only ever hold text. */
  datatype Session<T> = Session(state: AuthState, store: Store<T>)

  predicate IsAdmin(st: AuthState)
  {
    st.role == Some(AdminRole)
  }

  /** `canAccessRoute`: admins go anywhere; others are kept out of every route that
      starts with an admin-only route. */
  function CanAccessRoute(st: AuthState, route: string): (ok: bool)
    ensures IsAdmin(st) ==> ok
    ensures !IsAdmin(st) ==> (ok <==> !IsPrefix(UsersRoute, route) && !IsPrefix(AddMemberRoute, route))
  {
    IsAdmin(st) || !(IsPrefix(UsersRoute, route) || IsPrefix(AddMemberRoute, route))
  }

  /** A prefix test also shuts non-admins out of routes that only begin like an
      admin route. */
  lemma PrefixAlsoBlocksLookalikes(st: AuthState)
    requires !IsAdmin(st)
    ensures !CanAccessRoute(st, "/app/users-archive")
    ensures CanAccessRoute(st, "/app/dashboard")
  {
    var r := "/app/users-archive";
    assert r[..|UsersRoute|] == UsersRoute;
    var d := "/app/dashboard";
    assert d[5] != UsersRoute[5] && d[5] != AddMemberRoute[5];
  }

  /** `getUserFullName`. */
  function FullName(st: AuthState): (name: string)
    ensures Truthy(st.firstName) && Truthy(st.lastName) ==> name == st.firstName.value + " " + st.lastName.value
    ensures !(Truthy(st.firstName) && Truthy(st.lastName)) ==> name == AnonymousName
    ensures name != ""
  {
    if Truthy(st.firstName) && Truthy(st.lastName) then st.firstName.value + " " + st.lastName.value
    else AnonymousName
  }

  /** `setUserSession`: the state mirrors the user and all six keys are written. */
  function SetUserSession<T(==)>(s: Session<T>, user: UserResponse): (r: Session<T>)
    ensures r.state == AuthState(Some(user.id), Some(user.firstname), Some(user.lastname),
                                 Some(user.email), Some(user.role), true)
    ensures GetText(r.store, UserIdKey) == Some(user.id) && GetText(r.store, FirstNameKey) == Some(user.firstname)
    ensures GetText(r.store, LastNameKey) == Some(user.lastname) && GetText(r.store, EmailKey) == Some(user.email)
    ensures GetText(r.store, RoleKey) == Some(user.role) && GetText(r.store, IsAuthenticatedKey) == Some("true")
    ensures forall k :: k !in AuthKeys() ==> GetItem(r.store, k) == GetItem(s.store, k)
  {
    var st := SetText(s.store, UserIdKey, user.id);
    var st := SetText(st, FirstNameKey, user.firstname);
    var st := SetText(st, LastNameKey, user.lastname);
    var st := SetText(st, EmailKey, user.email);
    var st := SetText(st, RoleKey, user.role);
    var st := SetText(st, IsAuthenticatedKey, "true");
    Session(AuthState(Some(user.id), Some(user.firstname), Some(user.lastname), Some(user.email), Some(user.role), true), st)
  }

  function AuthKeys(): (keys: set<string>)
    ensures |keys| == 6
  {
    assert UserIdKey[0] != FirstNameKey[0] && UserIdKey[0] != LastNameKey[0] && UserIdKey[0] != EmailKey[0];
    assert UserIdKey[0] != RoleKey[0] && UserIdKey[0] != IsAuthenticatedKey[0];
    assert FirstNameKey[0] != LastNameKey[0] && FirstNameKey[0] != EmailKey[0] && FirstNameKey[0] != RoleKey[0];
    assert FirstNameKey[0] != IsAuthenticatedKey[0] && LastNameKey[0] != EmailKey[0] && LastNameKey[0] != RoleKey[0];
    assert LastNameKey[0] != IsAuthenticatedKey[0] && EmailKey[0] != RoleKey[0] && EmailKey[0] != IsAuthenticatedKey[0];
    assert RoleKey[0] != IsAuthenticatedKey[0];
    {UserIdKey, FirstNameKey, LastNameKey, EmailKey, RoleKey, IsAuthenticatedKey}
  }

  /** `clearUserSession` (and so `logout`): signed out, all six keys removed. */
  function ClearUserSession<T(==)>(s: Session<T>): (r: Session<T>)
    ensures r.state == SignedOut
    ensures forall k :: k in AuthKeys() ==> GetItem(r.store, k) == None
    ensures forall k :: k !in AuthKeys() ==> GetItem(r.store, k) == GetItem(s.store, k)
  {
    Session(SignedOut, s.store - AuthKeys())
  }

  /** After logout nobody is authenticated or an admin. */
  lemma LogoutRevokes<T>(s: Session<T>)
    ensures !ClearUserSession(s).state.isAuthenticated && !IsAdmin(ClearUserSession(s).state)
    ensures FullName(ClearUserSession(s).state) == AnonymousName
  {
  }

  /** The constructor's `loadUserFromLocalStorage`: only an exact 'true' flag signs
      the user in, with whatever the other keys hold. */
  function Load<T>(store: Store<T>): (r: Session<T>)
    ensures r.store == store
    ensures r.state.isAuthenticated <==> GetText(store, IsAuthenticatedKey) == Some("true")
    ensures !r.state.isAuthenticated ==> r.state == SignedOut
    ensures r.state.isAuthenticated ==>
              r.state.userId == GetText(store, UserIdKey) && r.state.role == GetText(store, RoleKey)
              && r.state.firstName == GetText(store, FirstNameKey) && r.state.lastName == GetText(store, LastNameKey)
              && r.state.email == GetText(store, EmailKey)
  {
    if GetText(store, IsAuthenticatedKey) == Some("true") then
      Session(AuthState(GetText(store, UserIdKey), GetText(store, FirstNameKey), GetText(store, LastNameKey),
                        GetText(store, EmailKey), GetText(store, RoleKey), true), store)
    else Session(SignedOut, store)
  }

  /** A session that was set is restored as it was by a fresh load. */
  lemma SetThenLoad<T>(s: Session<T>, user: UserResponse)
    ensures Load(SetUserSession(s, user).store) == SetUserSession(s, user)
  {
  }

  /** After logout a fresh load stays signed out. */
  lemma ClearThenLoad<T>(s: Session<T>)
    ensures Load(ClearUserSession(s).store) == ClearUserSession(s)
  {
    assert IsAuthenticatedKey in AuthKeys();
  }

  /** The user id written at sign-in is the one the results API puts in a trigger
      URL; after logout that API falls back to 'default'. */
  lemma TriggerUsesSignedInUser<T>(s: Session<T>, user: UserResponse)
    requires user.id != ""
    ensures ResultsApi.GetUserId(SetUserSession(s, user).store) == user.id
    ensures ResultsApi.GetUserId(ClearUserSession(SetUserSession(s, user)).store) == ResultsApi.DefaultUserId
  {
    assert ResultsApi.UserIdKey == UserIdKey;
    assert UserIdKey in AuthKeys();
  }
}

=== FILE: azure_devops_page.dfy ===
/** The pipeline runner page (`AzureDevopsComponent`): an immediate trigger, the
    status mapping of the trigger response, loading and summarising the run's test
    results, the report download guards and the row/badge style maps.

    The page is a state record: the values published on its status subject, the
    status line shown to the user, the loaded result counts, the tracked execution,
    the execution store and the backend requests the page has issued. Each event
    handler is a function from one page state to the next; the responses it reacts
    to are parameters. */
module AzureDevOpsPage {
  import opened Common
  import opened KeyValue
  import opened TestModels
  import opened PipelineStorage
  import opened ResultsApi
  import ResultsState

  const CompletedStatus := RunStatus(false, Some(100), Some("Completed"))

  const TriggeringMessage := "Triggering pipeline..."
  const TriggeredPrefix := "Pipeline triggered successfully! Run ID: "
  const SucceededMessage := "Pipeline execution completed successfully!"
  const FailedPrefix := "Pipeline execution failed with status: "
  const TriggerFailedPrefix := "Failed to trigger pipeline: "
  const WaitingToStart := "Waiting for pipeline execution to start..."
  const NoResultsYet := "No test results available yet."
  const BuildZeroNotFound := "Pipeline execution for build 0 not found"
  const WaitingToComplete := "Waiting for pipeline " + "execution to complete..."
  const ResultsErrorPrefix := "Error loading test results: "
  const NoExecutionToDownload := "No pipeline execution available to " + "download report."
  const RetrievingReport := "Retrieving report download URL..."
  const EmptyFileMessage := "Error: Empty file received"
  const ReportDownloaded := "Report downloaded successfully."

  /** `currentTestResults`. */
  datatype LoadedResults = LoadedResults(passedCount: nat, failedCount: nat, totalCount: nat, details: seq<Step>)

  /** A backend call the page has issued: a pipeline trigger, a results load, or an
      artifact listing for the report. */
  datatype Call =
    | TriggerCall(projectName: string, pipelineId: int)
    | ResultsCall(runId: int, projectName: string)
    | ReportCall(projectName: string, pipelineId: int, runId: int)

  datatype Page = Page(
    published: seq<RunStatus>,
    message: string,
    results: Option<LoadedResults>,
    execution: Option<ExecutionRef>,
    store: Store<Execution>,
    calls: seq<Call>)

  datatype Project = Project(id: string, name: string)
  datatype Pipeline = Pipeline(id: int, name: string)

  /** The status subject's current value: the last one published, or its initial value. */
  function CurrentStatus(page: Page): RunStatus {
    LastPublished(page.published)
  }

  function Publish(page: Page, s: RunStatus): (r: Page)
    ensures CurrentStatus(r) == s
  {
    page.(published := page.published + [s])
  }

  function Created(store: Store<Execution>): (r: Page)
    ensures CurrentStatus(r) == Idle && r.execution.None? && r.calls == []
  {
    Page([Idle], "", None, None, store, [])
  }

  // ---------------------------------------------------------------------------
  // Loading results
  // ---------------------------------------------------------------------------

  /** `loadTestResults`: without a tracked project or with run id 0 only a waiting
      message is shown; otherwise the results of that run are requested. */
  function LoadTestResults(page: Page, runId: int): (r: Page)
    ensures var ready := page.execution.Some? && page.execution.value.projectName != "" && runId != 0;
            (ready ==> r == page.(calls := page.calls + [ResultsCall(runId, page.execution.value.projectName)]))
            && (!ready ==> r == page.(message := WaitingToStart))
  {
    if page.execution.None? || page.execution.value.projectName == "" || runId == 0 then
      page.(message := WaitingToStart)
    else
      page.(calls := page.calls + [ResultsCall(runId, page.execution.value.projectName)])
  }

  /** One line of the failure listing, with the exception line when there is one. */
  function FailureEntry(s: Step): (r: string)
    ensures IsPrefix("- " + s.feature + ": " + s.scenario + "\n", r)
  {
    var head := "- " + s.feature + ": " + s.scenario + "\n";
    PrefixOfConcat(head, if Truthy(s.exceptionMessage) then "  Error: " + s.exceptionMessage.value + "\n" else "");
    head + (if Truthy(s.exceptionMessage) then "  Error: " + s.exceptionMessage.value + "\n" else "")
  }

  /** The failure listing: one entry per failed step that names a scenario. */
  function FailureListing(failed: seq<Step>): string {
    if |failed| == 0 then ""
    else
      var last := failed[|failed| - 1];
      FailureListing(failed[..|failed| - 1]) + (if last.scenario != "" then FailureEntry(last) else "")
  }

  /** Every failed step that names a scenario is mentioned in the listing. */
  lemma {:induction false} ListingMentions(failed: seq<Step>, i: nat)
    requires i < |failed| && failed[i].scenario != ""
    ensures Contains(FailureListing(failed), "- " + failed[i].feature + ": " + failed[i].scenario + "\n")
  {
    var n := |failed| - 1;
    var x := failed[i];
    var head := "- " + x.feature + ": " + x.scenario + "\n";
    if i == n {
      var e := FailureEntry(x);
      assert e == head + e[|head|..];
      ContainsItself(head);
      ContainsPrefixOf(head, head, e[|head|..]);
      ContainsAfter(FailureListing(failed[..n]), e, head);
    } else {
      assert failed[..n][i] == x;
      ListingMentions(failed[..n], i);
      ContainsPrefixOf(FailureListing(failed[..n]), head, if failed[n].scenario != "" then FailureEntry(failed[n]) else "");
    }
  }

  function CountsLine(passed: nat, failed: nat): string {
    "Test results loaded: " + IntToString(passed) + " passed, " + IntToString(failed) + " failed."
  }

  /** The results arrived: an empty or missing list only says so and keeps the
      previous counts; otherwise the counts are replaced and the status line gives
      them, followed by the failure listing when something failed. */
  function OnResultsLoaded(page: Page, results: Option<seq<Step>>): (r: Page)
    ensures results.None? || |results.value| == 0 ==> r == page.(message := NoResultsYet)
    ensures results.Some? && |results.value| > 0 ==>
              && r.results == Some(LoadedResults(CountStatus(results.value, Passed), CountStatus(results.value, Failed),
                                                 |results.value|, results.value))
              && IsPrefix(CountsLine(CountStatus(results.value, Passed), CountStatus(results.value, Failed)), r.message)
              && (CountStatus(results.value, Failed) == 0 ==>
                    r.message == CountsLine(CountStatus(results.value, Passed), 0))
    ensures r.execution == page.execution && r.store == page.store && r.calls == page.calls && r.published == page.published
  {
    if results.None? || |results.value| == 0 then page.(message := NoResultsYet)
    else
      var steps := results.value;
      var failed := WithStatus(steps, Failed);
      var loaded := LoadedResults(CountStatus(steps, Passed), |failed|, |steps|, steps);
      var line := CountsLine(loaded.passedCount, loaded.failedCount);
      var text := line + (if |failed| > 0 then "\nFailed tests:\n" + FailureListing(failed) else "");
      PrefixOfConcat(line, if |failed| > 0 then "\nFailed tests:\n" + FailureListing(failed) else "");
      page.(results := Some(loaded), message := text)
  }

  /** Each failed step with a scenario is listed by feature and scenario in the status line. */
  lemma FailedStepsAreListed(page: Page, steps: seq<Step>, x: Step)
    requires x in steps && x.status == Failed && x.scenario != ""
    ensures Contains(OnResultsLoaded(page, Some(steps)).message, "- " + x.feature + ": " + x.scenario + "\n")
  {
    var failed := WithStatus(steps, Failed);
    assert x in failed;
    var i :| 0 <= i < |failed| && failed[i] == x;
    var entry := "- " + x.feature + ": " + x.scenario + "\n";
    var listing := FailureListing(failed);
    ListingMentions(failed, i);
    var line := CountsLine(CountStatus(steps, Passed), |failed|);
    var message := OnResultsLoaded(page, Some(steps)).message;
    assert message == line + ("\nFailed tests:\n" + listing);
    assert line + ("\nFailed tests:\n" + listing) == (line + "\nFailed tests:\n") + listing;
    ContainsAfter(line + "\nFailed tests:\n", listing, entry);
  }

  /** The page's counts are the ones the shared results summary computes for the same steps. */
  lemma PageCountsAgreeWithSummary(page: Page, steps: seq<Step>, runId: Option<int>, projectName: Option<string>)
    requires |steps| > 0
    ensures var loaded := OnResultsLoaded(page, Some(steps)).results.value;
            var summary := ResultsState.Summarize(steps, runId, projectName);
            loaded.passedCount == summary.passedSteps && loaded.failedCount == summary.failedSteps
            && loaded.totalCount == summary.totalSteps && loaded.details == summary.recentResults
  {
  }

  /** The results request failed: a missing build 0 means the run has not started yet. */
  function OnResultsError(page: Page, error: string): (r: Page)
    ensures Contains(error, BuildZeroNotFound) ==> r.message == WaitingToComplete
    ensures !Contains(error, BuildZeroNotFound) ==> r.message == ResultsErrorPrefix + error
    ensures r == page.(message := r.message)
  {
    if Contains(error, BuildZeroNotFound) then page.(message := WaitingToComplete)
    else page.(message := ResultsErrorPrefix + error)
  }

  // ---------------------------------------------------------------------------
  // Triggering and the status of a run
  // ---------------------------------------------------------------------------

  /** The host the page's own `getPipelineUrl` links to. */
  const PageDevOpsHost := "https://dev.azure.com"

  /** The pipeline link used in the failure message (`getPipelineUrl` of the page). */
  function DevOpsPipelineUrl(projectName: string, pipelineId: int): (r: string)
    ensures IsPrefix(PageDevOpsHost + "/" + projectName + DefinitionIdKey + "=", r)
    ensures ParseInt(r[|PageDevOpsHost + "/" + projectName + DefinitionIdKey + "="|..]) == Some(pipelineId)
    ensures ParseInt(LastAfter(r, '=')) == Some(pipelineId)
  {
    DevOpsLink(PageDevOpsHost, projectName, DefinitionIdKey, pipelineId)
  }

  function LinkSuffix(url: string): string {
    " <a href=\"" + url + "\" target=\"_blank\">View in Azure DevOps</a>"
  }

  /** `handleFailedPipeline`: the failing result, and a link to the pipeline when an execution is tracked. */
  function HandleFailedPipeline(page: Page, response: ExecutionResponse): (r: Page)
    ensures IsPrefix(FailedPrefix + response.result, r.message)
    ensures page.execution.Some? ==>
              Contains(r.message, DevOpsPipelineUrl(page.execution.value.projectName, page.execution.value.pipelineId))
    ensures page.execution.None? ==> r.message == FailedPrefix + response.result
    ensures r == page.(message := r.message)
  {
    var text := FailedPrefix + response.result;
    match page.execution
    case None => page.(message := text)
    case Some(e) =>
      var url := DevOpsPipelineUrl(e.projectName, e.pipelineId);
      var link := LinkSuffix(url);
      assert link == (" <a href=\"" + url) + ("\" target=\"_blank\">View in Azure DevOps</a>");
      ContainsSuffix(" <a href=\"", url);
      ContainsPrefixOf(" <a href=\"" + url, url, "\" target=\"_blank\">View in Azure DevOps</a>");
      ContainsAfter(text, link, url);
      PrefixOfConcat(text, link);
      page.(message := text + link)
  }

  /** The status a trigger response maps to: exactly 'completed' is finished, anything else is half way. */
  function StatusFor(response: ExecutionResponse): (s: RunStatus)
    ensures response.state == "completed" <==> !s.isRunning
    ensures response.state == "completed" ==> s == CompletedStatus
    ensures response.state != "completed" ==> s == RunStatus(true, Some(50), Some(response.state))
  {
    if response.state == "completed" then CompletedStatus else RunStatus(true, Some(50), Some(response.state))
  }

  /** The record persisted for the tracked execution. */
  function Persisted(e: ExecutionRef, status: RunStatus): Execution {
    Execution(e.projectName, e.pipelineId, None, e.runId, status)
  }

  /** `updatePipelineStatus`: a completed run either loads its results or reports
      the failure; the mapped status is published and, when an execution is
      tracked, persisted with it. */
  function UpdatePipelineStatus(page: Page, response: ExecutionResponse): (r: Page)
    ensures CurrentStatus(r) == StatusFor(response)
    ensures r.execution == page.execution && r.results == page.results
    ensures page.execution.Some? ==> GetExecution(r.store) == Some(Persisted(page.execution.value, StatusFor(response)))
    ensures page.execution.None? ==> r.store == page.store
    ensures response.state == "completed" && response.result == "succeeded" ==>
              r.calls == LoadTestResults(page, response.runId).calls
    ensures !(response.state == "completed" && response.result == "succeeded") ==> r.calls == page.calls
    ensures response.state == "completed" && response.result != "succeeded" ==>
              IsPrefix(FailedPrefix + response.result, r.message)
    ensures var ready := page.execution.Some? && page.execution.value.projectName != "" && response.runId != 0;
            response.state == "completed" && response.result == "succeeded" ==>
              r.message == (if ready then SucceededMessage else WaitingToStart)
    ensures response.state != "completed" ==> r.message == page.message
  {
    var handled :=
      if response.state != "completed" then page
      else if response.result == "succeeded" then LoadTestResults(page.(message := SucceededMessage), response.runId)
      else HandleFailedPipeline(page, response);
    var published := Publish(handled, StatusFor(response));
    match page.execution
    case None => published
    case Some(e) => published.(store := SaveExecution(published.store, Persisted(e, StatusFor(response))))
  }

  /** `triggerPipeline`, immediate path: nothing happens without a selected project
      and pipeline; otherwise an execution with run id 0 is tracked, published as
      initiating and persisted, and then the trigger request is sent. */
  function Trigger(page: Page, project: Option<Project>, pipeline: Option<Pipeline>): (r: Page)
    ensures project.None? || pipeline.None? ==> r == page
    ensures project.Some? && pipeline.Some? ==>
              && r.execution == Some(ExecutionRef(project.value.name, pipeline.value.id, 0))
              && CurrentStatus(r) == Initiating
              && GetExecution(r.store) == Some(Execution(project.value.name, pipeline.value.id, None, 0, Initiating))
              && GetCurrentPipelineName(r.store) == GetCurrentPipelineName(page.store)
              && r.message == TriggeringMessage
              && r.calls == page.calls + [TriggerCall(project.value.name, pipeline.value.id)]
              && r.results == page.results
  {
    if project.None? || pipeline.None? then page
    else
      var e := ExecutionRef(project.value.name, pipeline.value.id, 0);
      var published := Publish(page.(execution := Some(e)), Initiating);
      published.(store := SaveExecution(published.store, Persisted(e, Initiating)), message := TriggeringMessage,
                 calls := published.calls + [TriggerCall(e.projectName, e.pipelineId)])
  }

  /** The trigger request succeeded: the run id is adopted and the response handled. */
  function OnTriggered(page: Page, projectName: string, pipelineId: int, response: ExecutionResponse): (r: Page)
    ensures r.execution == Some(ExecutionRef(projectName, pipelineId, response.runId))
    ensures GetExecution(r.store) == Some(Execution(projectName, pipelineId, None, response.runId, StatusFor(response)))
    ensures CurrentStatus(r) == StatusFor(response)
    ensures response.state != "completed" ==> r.message == TriggeredPrefix + IntToString(response.runId)
    ensures response.state == "completed" && response.result == "succeeded" && projectName != "" && response.runId != 0
            ==> r.calls == page.calls + [ResultsCall(response.runId, projectName)]
    ensures response.state == "completed" && response.result == "succeeded" && (projectName == "" || response.runId == 0)
            ==> r.calls == page.calls
    ensures !(response.state == "completed" && response.result == "succeeded") ==> r.calls == page.calls
    ensures response.state == "completed" && response.result == "succeeded" && projectName != "" && response.runId != 0
            ==> r.message == SucceededMessage
    ensures response.state == "completed" && response.result == "succeeded" && (projectName == "" || response.runId == 0)
            ==> r.message == WaitingToStart
    ensures response.state == "completed" && response.result != "succeeded" ==>
              IsPrefix(FailedPrefix + response.result, r.message)
  {
    var adopted := page.(message := TriggeredPrefix + IntToString(response.runId),
                         execution := Some(ExecutionRef(projectName, pipelineId, response.runId)));
    UpdatePipelineStatus(adopted, response)
  }

  /** The trigger request failed: the run is shown as stopped and the stored execution is dropped. */
  function OnTriggerError(page: Page, error: string): (r: Page)
    ensures CurrentStatus(r) == Idle && !CurrentStatus(r).isRunning
    ensures GetExecution(r.store) == None
    ensures GetCurrentPipelineName(r.store) == GetCurrentPipelineName(page.store)
    ensures r.message == TriggerFailedPrefix + error
    ensures r.execution == page.execution && r.calls == page.calls
  {
    var published := Publish(page, Idle);
    published.(message := TriggerFailedPrefix + error, store := ClearExecution(published.store))
  }

  /** `ngOnInit`: a stored execution is adopted with its status, and its results are
      requested when it already has a run id. */
  function Init(store: Store<Execution>): (r: Page)
    ensures GetExecution(store).None? ==> r == Created(store)
    ensures GetExecution(store).Some? ==>
              var e := GetExecution(store).value;
              && r.execution == Some(ExecutionRef(e.projectName, e.pipelineId, e.runId))
              && CurrentStatus(r) == e.status
              && r.store == store
              && (e.runId > 0 && e.projectName != "" <==> r.calls == [ResultsCall(e.runId, e.projectName)])
  {
    match GetExecution(store)
    case None => Created(store)
    case Some(e) =>
      var adopted := Publish(Created(store).(execution := Some(ExecutionRef(e.projectName, e.pipelineId, e.runId))), e.status);
      if e.runId > 0 then LoadTestResults(adopted, e.runId) else adopted
  }

  // ---------------------------------------------------------------------------
  // The run across reloads
  // ---------------------------------------------------------------------------

  /** The page agrees with storage: a reload would find the execution it tracks,
      with the status it last published. */
  predicate Synced(page: Page) {
    page.execution.Some? ==> GetExecution(page.store) == Some(Persisted(page.execution.value, CurrentStatus(page)))
  }

  /** Reloading a synced page resumes the same run in the same status, and asks
      for its results exactly when it has a run id and a project. */
  lemma ReloadResumesRun(page: Page)
    requires Synced(page) && page.execution.Some?
    ensures var resumed := Init(page.store);
            var e := page.execution.value;
            && resumed.execution == page.execution
            && CurrentStatus(resumed) == CurrentStatus(page)
            && resumed.store == page.store
            && (e.runId > 0 && e.projectName != "" <==> resumed.calls == [ResultsCall(e.runId, e.projectName)])
  {
  }

  /** Triggering, adopting the run and every status update leave the page synced. */
  lemma LifecycleKeepsSynced(page: Page, project: Option<Project>, pipeline: Option<Pipeline>,
                             projectName: string, pipelineId: int, response: ExecutionResponse)
    requires Synced(page)
    ensures Synced(Trigger(page, project, pipeline))
    ensures Synced(OnTriggered(page, projectName, pipelineId, response))
    ensures Synced(UpdatePipelineStatus(page, response))
  {
  }

  /** The handlers that only show messages or send requests keep the page synced. */
  lemma HandlersKeepSynced(page: Page, runId: int, results: Option<seq<Step>>, error: string,
                           outcome: Result<Transfer, DownloadError>)
    requires Synced(page)
    ensures Synced(LoadTestResults(page, runId))
    ensures Synced(OnResultsLoaded(page, results))
    ensures Synced(OnResultsError(page, error))
    ensures Synced(RequestReport(page))
    ensures Synced(OnReportDownloaded(page, outcome))
  {
  }

  /** A failed trigger is forgotten by a reload, although the page itself still
      tracks the run until then. */
  lemma TriggerErrorForgetsRun(page: Page, error: string)
    ensures var failed := OnTriggerError(page, error);
            && Init(failed.store) == Created(failed.store)
            && (failed.execution.Some? ==> !Synced(failed))
  {
  }

  /** The run a trigger starts, once the trigger is answered, is what a reload resumes:
      the same execution and status, and a request for its results when it has a
      run id and a project name. */
  lemma ReloadAfterTriggered(page: Page, project: Project, pipeline: Pipeline, response: ExecutionResponse)
    ensures var answered := OnTriggered(Trigger(page, Some(project), Some(pipeline)), project.name, pipeline.id, response);
            var resumed := Init(answered.store);
            && resumed.execution == answered.execution
            && resumed.execution == Some(ExecutionRef(project.name, pipeline.id, response.runId))
            && CurrentStatus(resumed) == CurrentStatus(answered)
            && (response.runId > 0 && project.name != "" ==> resumed.calls == [ResultsCall(response.runId, project.name)])
  {
    var answered := OnTriggered(Trigger(page, Some(project), Some(pipeline)), project.name, pipeline.id, response);
    ReloadResumesRun(answered);
  }

  /** A results request the page sends is one the API client accepts: its run id is
      not 0, and it names the tracked project. */
  lemma ResultsRequestAccepted(page: Page, runId: int, apiUrl: string)
    requires LoadTestResults(page, runId).calls != page.calls
    ensures var sent := LoadTestResults(page, runId).calls;
            && |sent| == |page.calls| + 1
            && sent[|page.calls|] == ResultsCall(runId, page.execution.value.projectName)
            && GetTestResults(apiUrl, runId, page.execution.value.projectName).Success?
  {
  }

  /** A report request names the tracked run, and the listing URL the API client
      builds for it reads back as that project, pipeline and run. */
  lemma ReportRequestReadsBack<T>(page: Page, apiUrl: string, apiStore: Store<T>)
    requires page.execution.Some? && page.execution.value.runId != 0
    ensures var e := page.execution.value;
            var sent := RequestReport(page).calls;
            var url := ArtifactListing(apiUrl, apiStore, e.projectName, e.pipelineId, e.runId).url;
            var segments := SegmentsAfter(apiUrl + "/api/QAUser/download-artifact/" + GetUserId(apiStore) + "/", url);
            && sent == page.calls + [ReportCall(e.projectName, e.pipelineId, e.runId)]
            && |segments| == 3
            && DecodeUriComponent(segments[0]) == Some(e.projectName)
            && ParseInt(segments[1]) == Some(e.pipelineId)
            && ParseInt(segments[2]) == Some(e.runId)
  {
    var e := page.execution.value;
    DecodeEncodeRoundTrip(e.projectName);
    ParseIntToString(e.pipelineId);
    ParseIntToString(e.runId);
  }

  lemma AuthMessageStart(url: string)
    ensures AuthMessage(url) != ReportDownloaded
  {
    assert AuthMessage(url)[0] == AuthLinkStart[0] == 'A';
    assert ReportDownloaded[0] == 'R';
  }

  /** The page says the report was downloaded exactly when a non-empty file arrived. */
  lemma DownloadedOnlyWithData(page: Page, outcome: Result<Transfer, DownloadError>)
    ensures OnReportDownloaded(page, outcome).message == ReportDownloaded
            <==> outcome.Success? && outcome.value.BlobData? && outcome.value.size > 0
  {
    match outcome
    case Success(AuthRedirect(url)) =>
      AuthMessageStart(url);
    case Success(BlobData(size, _)) =>
    case Failure(AuthRequired(url)) =>
      AuthMessageStart(url);
    case Failure(FailedWith(m)) =>
      assert ("Failed to download report: " + m + ". Please try again later.")[0] != ReportDownloaded[0];
  }

  /** The sample run's steps: two passed and one failed. */
  lemma SampleCounts()
    ensures var steps := [SampleStep("Login", Passed), SampleStep("Login", Failed), SampleStep("Search", Passed)];
            CountStatus(steps, Passed) == 2 && CountStatus(steps, Failed) == 1
  {
    var s1, s2, s3 := SampleStep("Login", Passed), SampleStep("Login", Failed), SampleStep("Search", Passed);
    assert [s1] == [] + [s1] && [s1, s2] == [s1] + [s2] && [s1, s2, s3] == [s1, s2] + [s3];
    assert Passed != Failed;
    CountStatusAppend([], s1, Passed);
    CountStatusAppend([s1], s2, Passed);
    CountStatusAppend([s1, s2], s3, Passed);
    CountStatusAppend([], s1, Failed);
    CountStatusAppend([s1], s2, Failed);
    CountStatusAppend([s1, s2], s3, Failed);
  }

  /** The sample trigger: project 'Sample', pipeline 42, answered with run 777
      completed and succeeded; the trigger and then the results are requested. */
  lemma SampleTriggered(store: Store<Execution>)
    ensures var triggered := Trigger(Created(store), Some(Project("p1", "Sample")), Some(Pipeline(42, "Nightly")));
            var answered := OnTriggered(triggered, "Sample", 42, ExecutionResponse(777, "e1", "completed", "succeeded"));
            && answered.calls == [TriggerCall("Sample", 42), ResultsCall(777, "Sample")]
            && GetExecution(answered.store).Some? && GetExecution(answered.store).value.runId == 777
  {
    var triggered := Trigger(Created(store), Some(Project("p1", "Sample")), Some(Pipeline(42, "Nightly")));
    assert triggered.calls == [TriggerCall("Sample", 42)];
  }

  /** A sample run: the triggered run above loads two passed steps and one failed step. */
  lemma SampleRun(store: Store<Execution>)
    ensures var steps := [SampleStep("Login", Passed), SampleStep("Login", Failed), SampleStep("Search", Passed)];
            var triggered := Trigger(Created(store), Some(Project("p1", "Sample")), Some(Pipeline(42, "Nightly")));
            var answered := OnTriggered(triggered, "Sample", 42, ExecutionResponse(777, "e1", "completed", "succeeded"));
            var loaded := OnResultsLoaded(answered, Some(steps));
            && answered.calls == [TriggerCall("Sample", 42), ResultsCall(777, "Sample")]
            && GetExecution(loaded.store).Some? && GetExecution(loaded.store).value.runId == 777
            && loaded.results == Some(LoadedResults(2, 1, 3, steps))
  {
    SampleTriggered(store);
    SampleCounts();
  }

  function SampleStep(feature: string, status: string): Step {
    Step(None, None, feature, "Scenario", "Step", status, None, None)
  }

  // ---------------------------------------------------------------------------
  // Report download
  // ---------------------------------------------------------------------------

  /** `downloadHtmlReport` guard: refused without an execution or with run id 0. */
  function RequestReport(page: Page): (r: Page)
    ensures page.execution.None? || page.execution.value.runId == 0 <==> r.calls == page.calls
    ensures page.execution.None? || page.execution.value.runId == 0 ==> r == page.(message := NoExecutionToDownload)
    ensures page.execution.Some? && page.execution.value.runId != 0 ==>
              var e := page.execution.value;
              r == page.(message := RetrievingReport, calls := page.calls + [ReportCall(e.projectName, e.pipelineId, e.runId)])
  {
    if page.execution.None? || page.execution.value.runId == 0 then page.(message := NoExecutionToDownload)
    else
      var e := page.execution.value;
      page.(message := RetrievingReport, calls := page.calls + [ReportCall(e.projectName, e.pipelineId, e.runId)])
  }

  const AuthLinkStart := "Authentication required. Please <a href=\""
  const AuthLinkEnd := "\" target=\"_blank\">login to Azure DevOps</a> " + "first, then try downloading again."

  function AuthMessage(url: string): string {
    AuthLinkStart + url + AuthLinkEnd
  }

  /** The download finished: a login link, an empty file, or the saved report. */
  function OnReportDownloaded(page: Page, outcome: Result<Transfer, DownloadError>): (r: Page)
    ensures outcome.Success? && outcome.value.BlobData? ==>
              (r.message == EmptyFileMessage <==> outcome.value.size == 0)
    ensures outcome.Success? && outcome.value.BlobData? && outcome.value.size > 0 ==> r.message == ReportDownloaded
    ensures outcome.Success? && outcome.value.AuthRedirect? ==> r.message == AuthMessage(outcome.value.url)
    ensures outcome.Failure? && outcome.error.AuthRequired? ==> r.message == AuthMessage(outcome.error.url)
    ensures outcome.Failure? && outcome.error.FailedWith? ==>
              r.message == "Failed to download report: " + outcome.error.message + ". Please try again later."
    ensures r == page.(message := r.message)
  {
    match outcome
    case Success(AuthRedirect(url)) => page.(message := AuthMessage(url))
    case Success(BlobData(size, _)) =>
      if size == 0 then page.(message := EmptyFileMessage)
      else
        assert ReportDownloaded[0] != EmptyFileMessage[0];
        page.(message := ReportDownloaded)
    case Failure(AuthRequired(url)) => page.(message := AuthMessage(url))
    case Failure(FailedWith(m)) => page.(message := "Failed to download report: " + m + ". Please try again later.")
  }

  // ---------------------------------------------------------------------------
  // Style maps
  // ---------------------------------------------------------------------------

  function RowClass(status: string): (r: string)
    ensures r == "table-success" <==> status == Passed
    ensures r == "table-danger" <==> status == Failed
    ensures r == "table-warning" <==> status == Skipped
    ensures r == "" <==> status !in {Passed, Failed, Skipped}
  {
    if status == Passed then "table-success"
    else if status == Failed then "table-danger"
    else if status == Skipped then "table-warning"
    else ""
  }

  function BadgeClass(status: string): (r: string)
    ensures IsPrefix("badge bg-", r)
    ensures r == "badge bg-success" <==> status == Passed
    ensures r == "badge bg-danger" <==> status == Failed
    ensures r == "badge bg-warning text-dark" <==> status == Skipped
    ensures r == "badge bg-secondary" <==> status !in {Passed, Failed, Skipped}
  {
    if status == Passed then "badge bg-success"
    else if status == Failed then "badge bg-danger"
    else if status == Skipped then "badge bg-warning text-dark"
    else "badge bg-secondary"
  }
}

=== FILE: common.dfy ===
/** Shared vocabulary of the model: optional values and results (for JavaScript's
    null/undefined and thrown errors), JavaScript truthiness of strings, ASCII case
    maps, substring search and decimal rendering of integers. */
module Common {

  /** A value that may be null or undefined. */
  datatype Option<+T> = None | Some(value: T) {
    function GetOr(default: T): T {
      match this
      case Some(v) => v
      case None => default
    }
  }

  /** The outcome of an operation that may throw or emit an error. */
  datatype Result<+R, +E> = Success(value: R) | Failure(error: E)

  /** JavaScript truthiness of a possibly missing string: null, undefined and '' are falsy. */
  predicate Truthy(s: Option<string>) {
    s.Some? && s.value != ""
  }

  /** `s || fallback` for a possibly missing string. */
  function OrElse(s: Option<string>, fallback: string): (r: string)
    ensures Truthy(s) ==> r == s.value
    ensures !Truthy(s) ==> r == fallback
  {
    if Truthy(s) then s.value else fallback
  }

  // ---------------------------------------------------------------------------
  // ASCII case maps (toLowerCase / toUpperCase restricted to ASCII letters)
  // ---------------------------------------------------------------------------

  function LowerChar(c: char): char {
    if 'A' <= c <= 'Z' then (c as int + 32) as char else c
  }

  function UpperChar(c: char): char {
    if 'a' <= c <= 'z' then (c as int - 32) as char else c
  }

  function Lower(s: string): (r: string)
    ensures |r| == |s|
    ensures forall i :: 0 <= i < |s| ==> r[i] == LowerChar(s[i])
  {
    seq(|s|, i requires 0 <= i < |s| => LowerChar(s[i]))
  }

  function Upper(s: string): (r: string)
    ensures |r| == |s|
    ensures forall i :: 0 <= i < |s| ==> r[i] == UpperChar(s[i])
  {
    seq(|s|, i requires 0 <= i < |s| => UpperChar(s[i]))
  }

  lemma LowerIdempotent(s: string)
    ensures Lower(Lower(s)) == Lower(s)
  {
  }

  lemma UpperIdempotent(s: string)
    ensures Upper(Upper(s)) == Upper(s)
  {
  }

  /** Upper-casing never makes a space. */
  lemma UpperSpaceFree(s: string)
    requires ' ' !in s
    ensures ' ' !in Upper(s)
  {
    forall i | 0 <= i < |s|
      ensures Upper(s)[i] != ' '
    {
      assert s[i] != ' ';
    }
  }

  // ---------------------------------------------------------------------------
  // Prefixes and substrings (startsWith / includes)
  // ---------------------------------------------------------------------------

  predicate IsPrefix(p: string, s: string) {
    |p| <= |s| && s[..|p|] == p
  }

  /** `s.includes(p)`: p occurs in s at some offset. */
  predicate Contains(s: string, p: string)
    decreases |s|
  {
    IsPrefix(p, s) || (|s| > 0 && Contains(s[1..], p))
  }

  /** The offset-based reading of `Contains`. */
  lemma ContainsAt(s: string, p: string, k: nat)
    requires k + |p| <= |s| && s[k..k + |p|] == p
    ensures Contains(s, p)
    decreases k
  {
    if k > 0 {
      assert s[1..][k - 1..k - 1 + |p|] == s[k..k + |p|];
      ContainsAt(s[1..], p, k - 1);
    }
  }

  lemma {:induction false} ContainsSuffix(a: string, p: string)
    ensures Contains(a + p, p)
  {
    assert (a + p)[|a|..|a| + |p|] == p;
    ContainsAt(a + p, p, |a|);
  }

  lemma {:induction false} ContainsPrefixOf(s: string, p: string, t: string)
    requires Contains(s, p)
    ensures Contains(s + t, p)
    decreases |s|
  {
    if IsPrefix(p, s) {
      assert (s + t)[..|p|] == s[..|p|];
    } else {
      assert (s + t)[1..] == s[1..] + t;
      ContainsPrefixOf(s[1..], p, t);
    }
  }

  lemma {:induction false} ContainsAfter(a: string, s: string, p: string)
    requires Contains(s, p)
    ensures Contains(a + s, p)
    decreases |a|
  {
    if |a| > 0 {
      assert (a + s)[1..] == a[1..] + s;
      ContainsAfter(a[1..], s, p);
    } else {
      assert a + s == s;
    }
  }

  lemma ContainsItself(p: string)
    ensures Contains(p, p)
  {
    assert p[..|p|] == p;
  }

  /** A string that does not contain the character c cannot contain a pattern that does. */
  lemma {:induction false} NotContainsChar(s: string, p: string, c: char)
    requires c !in s && c in p
    ensures !Contains(s, p)
    decreases |s|
  {
    var i :| 0 <= i < |p| && p[i] == c;
    if |p| <= |s| {
      assert s[..|p|][i] != p[i];
    }
    if |s| > 0 {
      NotContainsChar(s[1..], p, c);
    }
  }

  // ---------------------------------------------------------------------------
  // String.prototype.trim
  // ---------------------------------------------------------------------------

  /** The characters `trim` removes: ECMAScript white space and line terminators. */
  predicate IsJsSpace(c: char) {
    c in {'\t', '\n', '\U{000B}', '\U{000C}', '\r', ' ', '\U{00A0}', '\U{1680}', '\U{2028}', '\U{2029}',
          '\U{202F}', '\U{205F}', '\U{3000}', '\U{FEFF}'}
    || ('\U{2000}' <= c <= '\U{200A}')
  }

  function TrimStart(s: string): (r: string)
    ensures |r| <= |s| && r == s[|s| - |r|..]
    ensures forall k :: 0 <= k < |s| - |r| ==> IsJsSpace(s[k])
    ensures |r| > 0 ==> !IsJsSpace(r[0])
  {
    if |s| > 0 && IsJsSpace(s[0]) then TrimStart(s[1..]) else s
  }

  function TrimEnd(s: string): (r: string)
    ensures |r| <= |s| && r == s[..|r|]
    ensures forall k :: |r| <= k < |s| ==> IsJsSpace(s[k])
    ensures |r| > 0 ==> !IsJsSpace(r[|r| - 1])
  {
    if |s| > 0 && IsJsSpace(s[|s| - 1]) then TrimEnd(s[..|s| - 1]) else s
  }

  /** `s.trim()`: leading and trailing white space removed, nothing else. */
  function Trim(s: string): (r: string)
    ensures |r| <= |s|
    ensures |r| > 0 ==> !IsJsSpace(r[0]) && !IsJsSpace(r[|r| - 1])
    ensures (|s| == 0 || (!IsJsSpace(s[0]) && !IsJsSpace(s[|s| - 1]))) ==> r == s
  {
    TrimEnd(TrimStart(s))
  }

  lemma TrimIdempotent(s: string)
    ensures Trim(Trim(s)) == Trim(s)
  {
  }

  // ---------------------------------------------------------------------------
  // String.prototype.split with a one-character separator, and Array.prototype.join
  // ---------------------------------------------------------------------------

  /** `s.split(sep)`: the pieces between separators; always at least one piece, and
      adjacent or outer separators give empty pieces. */
  function Split(s: string, sep: char): (parts: seq<string>)
    ensures |parts| >= 1
    ensures forall i :: 0 <= i < |parts| ==> sep !in parts[i]
    ensures |parts| == 1 <==> sep !in s
    ensures |parts| == 1 ==> parts[0] == s
  {
    if |s| == 0 then [""]
    else
      var init := Split(s[..|s| - 1], sep);
      var c := s[|s| - 1];
      assert s == s[..|s| - 1] + [c];
      if c == sep then init + [""]
      else init[..|init| - 1] + [init[|init| - 1] + [c]]
  }

  /** `parts.join(sep)`. */
  function Join(parts: seq<string>, sep: char): string
    requires |parts| >= 1
  {
    if |parts| == 1 then parts[0] else Join(parts[..|parts| - 1], sep) + [sep] + parts[|parts| - 1]
  }

  /** Extending the last piece extends the joined string. */
  lemma JoinExtendLast(parts: seq<string>, sep: char, c: char)
    requires |parts| >= 1
    ensures Join(parts[..|parts| - 1] + [parts[|parts| - 1] + [c]], sep) == Join(parts, sep) + [c]
  {
    var k := |parts| - 1;
    var ext := parts[..k] + [parts[k] + [c]];
    if k > 0 {
      assert ext[..k] == parts[..k];
      assert Join(ext, sep) == Join(parts[..k], sep) + [sep] + (parts[k] + [c]);
    }
  }

  /** Joining the pieces with the separator gives back the string. */
  lemma {:induction false} JoinSplit(s: string, sep: char)
    ensures Join(Split(s, sep), sep) == s
  {
    if |s| > 0 {
      var n := |s| - 1;
      var init := Split(s[..n], sep);
      var c := s[n];
      JoinSplit(s[..n], sep);
      assert s == s[..n] + [c];
      if c == sep {
        var parts := init + [""];
        assert Split(s, sep) == parts;
        assert parts[..|parts| - 1] == init;
        assert Join(parts, sep) == Join(init, sep) + [sep] + "";
      } else {
        assert Split(s, sep) == init[..|init| - 1] + [init[|init| - 1] + [c]];
        JoinExtendLast(init, sep, c);
      }
    }
  }

  /** A separator followed by a separator-free tail adds that tail as the last piece. */
  lemma {:induction false} SplitLastPart(a: string, sep: char, b: string)
    requires sep !in b
    ensures Split(a + [sep] + b, sep) == Split(a, sep) + [b]
  {
    if |b| == 0 {
      assert a + [sep] + b == a + [sep];
      assert (a + [sep])[..|a|] == a;
    } else {
      var n := |b| - 1;
      SplitLastPart(a, sep, b[..n]);
      var s := a + [sep] + b;
      assert s[..|s| - 1] == a + [sep] + b[..n];
      assert s[|s| - 1] == b[n];
      assert b == b[..n] + [b[n]];
    }
  }

  /** The first piece is whatever precedes the first separator. */
  lemma {:induction false} SplitFirstPart(a: string, sep: char, rest: string)
    requires sep !in a
    ensures |Split(a + [sep] + rest, sep)| >= 2 && Split(a + [sep] + rest, sep)[0] == a
  {
    var s := a + [sep] + rest;
    assert s[|a|] == sep;
    if |rest| == 0 {
      assert s[..|s| - 1] == a;
    } else {
      var n := |rest| - 1;
      SplitFirstPart(a, sep, rest[..n]);
      assert s[..|s| - 1] == a + [sep] + rest[..n];
    }
  }

  /** A leading separator makes an empty first piece. */
  lemma {:induction false} SplitLeadingSeparator(sep: char, rest: string)
    ensures |Split([sep] + rest, sep)| >= 2 && Split([sep] + rest, sep)[0] == ""
  {
    var s := [sep] + rest;
    if |rest| == 0 {
      assert s[..0] == "";
    } else {
      var n := |rest| - 1;
      SplitLeadingSeparator(sep, rest[..n]);
      assert s[..|s| - 1] == [sep] + rest[..n];
    }
  }

  /** `s.charAt(0)`: the first character, or the empty string. */
  function CharAt0(s: string): (r: string)
    ensures |s| == 0 ==> r == ""
    ensures |s| > 0 ==> r == [s[0]]
  {
    if |s| == 0 then "" else s[..1]
  }

  // ---------------------------------------------------------------------------
  // Decimal numbers (Number.prototype.toString and Number(...) on decimal text)
  // ---------------------------------------------------------------------------

  predicate IsDigit(c: char) {
    '0' <= c <= '9'
  }

  function DigitChar(d: nat): (c: char)
    requires d < 10
    ensures IsDigit(c)
  {
    ('0' as int + d) as char
  }

  function DigitValue(c: char): (d: nat)
    requires IsDigit(c)
    ensures d < 10
  {
    c as int - '0' as int
  }

  function NatToString(n: nat): (r: string)
    ensures |r| > 0
    ensures forall i :: 0 <= i < |r| ==> IsDigit(r[i])
    decreases n
  {
    if n < 10 then [DigitChar(n)] else NatToString(n / 10) + [DigitChar(n % 10)]
  }

  /** `String(i)` for an integer. */
  function IntToString(i: int): (r: string)
    ensures |r| > 0
    ensures '/' !in r && ' ' !in r && '=' !in r
  {
    if i < 0 then "-" + NatToString(-i) else NatToString(i)
  }

  predicate AllDigits(s: string) {
    forall i :: 0 <= i < |s| ==> IsDigit(s[i])
  }

  function DigitsValue(s: string): nat
    requires AllDigits(s)
  {
    if |s| == 0 then 0 else DigitsValue(s[..|s| - 1]) * 10 + DigitValue(s[|s| - 1])
  }

  /** Decimal text to a number: digits with an optional leading '-'; anything else is NaN (None). */
  function ParseInt(s: string): Option<int> {
    if |s| > 1 && s[0] == '-' && AllDigits(s[1..]) then Some(0 - DigitsValue(s[1..]))
    else if |s| > 0 && AllDigits(s) then Some(DigitsValue(s))
    else None
  }

  lemma {:induction false} DigitsOfNatToString(n: nat)
    ensures AllDigits(NatToString(n))
    ensures DigitsValue(NatToString(n)) == n
    decreases n
  {
    var r := NatToString(n);
    if n >= 10 {
      DigitsOfNatToString(n / 10);
      assert r[..|r| - 1] == NatToString(n / 10);
    }
  }

  /** Printing an integer and reading it back gives the integer. */
  lemma {:induction false} ParseIntToString(i: int)
    ensures ParseInt(IntToString(i)) == Some(i)
  {
    var s := IntToString(i);
    if i < 0 {
      assert s[1..] == NatToString(-i);
      DigitsOfNatToString(-i);
      assert |s| > 1 && s[0] == '-';
    } else {
      DigitsOfNatToString(i);
      assert s == NatToString(i);
      assert IsDigit(s[0]);
      assert !(|s| > 1 && s[0] == '-');
    }
  }

  lemma IntToStringInjective(i: int, j: int)
    requires IntToString(i) == IntToString(j)
    ensures i == j
  {
    ParseIntToString(i);
    ParseIntToString(j);
  }
}

=== FILE: count_pipes.dfy ===
/** The status-count pipes (`passedCount`, `failedCount`, `skippedCount`) in their
    two variants. Both compare the lower-cased status with 'passed', 'failed' or
    'skipped', so they ignore letter case. The null-safe variant answers 0 for a
    null or non-array input and skips elements without a status; the other
    variant answers 0 only for a null input and needs every status present. */
module CountPipes {
  import opened Common
  import opened TestModels

  const PassedLower := "passed"
  const FailedLower := "failed"
  const SkippedLower := "skipped"

  /** What the null-safe pipes can be given: null, something that is not an array,
      or an array of elements whose status may be missing. */
  datatype PipeInput = NullInput | NonArray | Items(statuses: seq<Option<string>>)

  /** `r.status?.toLowerCase() === target`: a missing status never matches. */
  predicate MatchesLower(status: Option<string>, target: string) {
    status.Some? && Lower(status.value) == target
  }

  function CountLower(statuses: seq<Option<string>>, target: string): (n: nat)
    ensures n <= |statuses|
  {
    if |statuses| == 0 then 0
    else CountLower(statuses[..|statuses| - 1], target) + (if MatchesLower(statuses[|statuses| - 1], target) then 1 else 0)
  }

  /** The count as the number of matching positions. */
  lemma {:induction false} CountLowerIsIndexCount(statuses: seq<Option<string>>, target: string)
    ensures CountLower(statuses, target) == |set i | 0 <= i < |statuses| && MatchesLower(statuses[i], target)|
  {
    if |statuses| > 0 {
      var n := |statuses| - 1;
      CountLowerIsIndexCount(statuses[..n], target);
      var before := set i | 0 <= i < n && MatchesLower(statuses[..n][i], target);
      var after := set i | 0 <= i < |statuses| && MatchesLower(statuses[i], target);
      if MatchesLower(statuses[n], target) {
        assert after == before + {n};
      } else {
        assert after == before;
      }
    }
  }

  /** The null-safe pipe for one target. */
  function SafeCount(input: PipeInput, target: string): (n: nat)
    ensures input.NullInput? || input.NonArray? ==> n == 0
    ensures input.Items? ==> n == CountLower(input.statuses, target) && n <= |input.statuses|
  {
    match input
    case Items(statuses) => CountLower(statuses, target)
    case _ => 0
  }

  function PassedCount(input: PipeInput): nat { SafeCount(input, PassedLower) }
  function FailedCount(input: PipeInput): nat { SafeCount(input, FailedLower) }
  function SkippedCount(input: PipeInput): nat { SafeCount(input, SkippedLower) }

  /** No status, whatever its letter case, falls into two of the three categories. */
  lemma OneCategoryPerStatus(status: Option<string>)
    ensures !(MatchesLower(status, PassedLower) && MatchesLower(status, FailedLower))
    ensures !(MatchesLower(status, PassedLower) && MatchesLower(status, SkippedLower))
    ensures !(MatchesLower(status, FailedLower) && MatchesLower(status, SkippedLower))
  {
    assert PassedLower[0] == 'p' && FailedLower[0] == 'f' && SkippedLower[0] == 's';
  }

  /** The three categories are disjoint: no element is counted by two pipes, so
      together they count at most every element. */
  lemma {:induction false} CategoriesDisjoint(statuses: seq<Option<string>>)
    ensures forall i :: 0 <= i < |statuses| ==>
              (if MatchesLower(statuses[i], PassedLower) then 1 else 0)
              + (if MatchesLower(statuses[i], FailedLower) then 1 else 0)
              + (if MatchesLower(statuses[i], SkippedLower) then 1 else 0) <= 1
    ensures CountLower(statuses, PassedLower) + CountLower(statuses, FailedLower) + CountLower(statuses, SkippedLower)
            <= |statuses|
  {
    forall i | 0 <= i < |statuses|
      ensures (if MatchesLower(statuses[i], PassedLower) then 1 else 0)
              + (if MatchesLower(statuses[i], FailedLower) then 1 else 0)
              + (if MatchesLower(statuses[i], SkippedLower) then 1 else 0) <= 1
    {
      OneCategoryPerStatus(statuses[i]);
    }
    if |statuses| > 0 {
      var n := |statuses| - 1;
      CategoriesDisjoint(statuses[..n]);
    }
  }

  lemma CountsBounded(input: PipeInput)
    ensures PassedCount(input) + FailedCount(input) + SkippedCount(input) <= if input.Items? then |input.statuses| else 0
  {
    if input.Items? {
      CategoriesDisjoint(input.statuses);
    }
  }

  /** Elements with a missing status add nothing to any count. */
  lemma {:induction false} MissingStatusIgnored(statuses: seq<Option<string>>, target: string)
    ensures CountLower(statuses + [None], target) == CountLower(statuses, target)
  {
    assert (statuses + [None])[..|statuses|] == statuses;
  }

  /** Changing the letter case of statuses changes no count. */
  lemma {:induction false} CountIgnoresCase(statuses: seq<Option<string>>, recased: seq<Option<string>>, target: string)
    requires |recased| == |statuses|
    requires forall i :: 0 <= i < |statuses| ==>
               statuses[i].Some? == recased[i].Some? && (statuses[i].Some? ==> Lower(statuses[i].value) == Lower(recased[i].value))
    ensures CountLower(statuses, target) == CountLower(recased, target)
  {
    if |statuses| > 0 {
      var n := |statuses| - 1;
      CountIgnoresCase(statuses[..n], recased[..n], target);
    }
  }

  /** 'PASSED' and 'Passed' are both counted as passed. */
  lemma MixedCaseCounted()
    ensures PassedCount(Items([Some("PASSED"), Some("Passed"), Some("passed"), None, Some("FAILED")])) == 3
  {
    var xs := [Some("PASSED"), Some("Passed"), Some("passed"), None, Some("FAILED")];
    assert Lower("PASSED") == PassedLower && Lower("Passed") == PassedLower && Lower("passed") == PassedLower;
    assert Lower("FAILED")[0] == 'f' && PassedLower[0] == 'p';
    assert xs[..1] == [Some("PASSED")] && xs[..1][..0] == [];
    assert CountLower(xs[..1], PassedLower) == 1;
    assert xs[..2][..1] == xs[..1];
    assert CountLower(xs[..2], PassedLower) == 2;
    assert xs[..3][..2] == xs[..2];
    assert CountLower(xs[..3], PassedLower) == 3;
    assert xs[..4][..3] == xs[..3];
    assert CountLower(xs[..4], PassedLower) == 3;
    assert xs[..4] == xs[..|xs| - 1];
  }

  // ---------------------------------------------------------------------------
  // The second variant
  // ---------------------------------------------------------------------------

  /** `results ? results.filter(r => r.status.toLowerCase() === target).length : 0`;
      its elements always carry a status. */
  function StrictCount(results: Option<seq<string>>, target: string): (n: nat)
    ensures results.None? ==> n == 0
    ensures results.Some? ==> n <= |results.value|
  {
    match results
    case None => 0
    case Some(statuses) => StrictCountOf(statuses, target)
  }

  function StrictCountOf(statuses: seq<string>, target: string): (n: nat)
    ensures n <= |statuses|
  {
    if |statuses| == 0 then 0
    else StrictCountOf(statuses[..|statuses| - 1], target) + (if Lower(statuses[|statuses| - 1]) == target then 1 else 0)
  }

  function Present(statuses: seq<string>): (r: seq<Option<string>>)
    ensures |r| == |statuses| && forall i :: 0 <= i < |statuses| ==> r[i] == Some(statuses[i])
  {
    seq(|statuses|, i requires 0 <= i < |statuses| => Some(statuses[i]))
  }

  /** On arrays whose statuses are all present the two variants agree. */
  lemma {:induction false} VariantsAgree(statuses: seq<string>, target: string)
    ensures StrictCount(Some(statuses), target) == SafeCount(Items(Present(statuses)), target)
  {
    if |statuses| > 0 {
      var n := |statuses| - 1;
      VariantsAgree(statuses[..n], target);
      assert Present(statuses)[..n] == Present(statuses[..n]);
    }
  }

  /** Both variants answer 0 for null. */
  lemma NullGivesZero(target: string)
    ensures StrictCount(None, target) == 0 && SafeCount(NullInput, target) == 0
  {
  }

  /** The second variant's three counts together are at most the length. */
  lemma StrictCountsBounded(statuses: seq<string>)
    ensures StrictCount(Some(statuses), PassedLower) + StrictCount(Some(statuses), FailedLower)
            + StrictCount(Some(statuses), SkippedLower) <= |statuses|
  {
    VariantsAgree(statuses, PassedLower);
    VariantsAgree(statuses, FailedLower);
    VariantsAgree(statuses, SkippedLower);
    CategoriesDisjoint(Present(statuses));
  }

  // ---------------------------------------------------------------------------
  // Against the services' exact-case counts
  // ---------------------------------------------------------------------------

  function StatusesOf(steps: seq<Step>): (r: seq<Option<string>>)
    ensures |r| == |steps| && forall i :: 0 <= i < |steps| ==> r[i] == Some(steps[i].status)
  {
    seq(|steps|, i requires 0 <= i < |steps| => Some(steps[i].status))
  }

  /** A step counted under its exact status is counted by a pipe whose target is that
      status lower-cased. */
  lemma {:induction false} ExactAtMostLower(steps: seq<Step>, statuses: seq<Option<string>>, exact: string, lower: string)
    requires |statuses| == |steps| && forall i :: 0 <= i < |steps| ==> statuses[i] == Some(steps[i].status)
    requires Lower(exact) == lower
    ensures CountStatus(steps, exact) <= CountLower(statuses, lower)
  {
    if |steps| > 0 {
      var n := |steps| - 1;
      ExactAtMostLower(steps[..n], statuses[..n], exact, lower);
      assert steps == steps[..n] + [steps[n]];
      CountStatusAppend(steps[..n], steps[n], exact);
    }
  }

  /** Every step the services count as 'PASSED' the pipe counts as passed, and the
      same for 'FAILED'; the pipes may count more (other letter cases). */
  lemma ExactCountsAtMostPipeCounts(steps: seq<Step>)
    ensures CountStatus(steps, Passed) <= PassedCount(Items(StatusesOf(steps)))
    ensures CountStatus(steps, Failed) <= FailedCount(Items(StatusesOf(steps)))
  {
    assert Lower(Passed) == PassedLower && Lower(Failed) == FailedLower;
    ExactAtMostLower(steps, StatusesOf(steps), Passed, PassedLower);
    ExactAtMostLower(steps, StatusesOf(steps), Failed, FailedLower);
  }
}

=== FILE: dashboard_page.dfy ===
/** The dashboard page (`DashboardComponent`), the second variant of the runner:
    its trigger handling compares the run state without regard to case and adopts
    the run id only for completed runs; its results table can be narrowed by status
    or by a free-text search.

    As in the runner page, the component is a state record and each handler a
    function from one state to the next. The results table stands for the
    material table data source: its rows, its filter text and which filter
    predicate is installed. */
module DashboardPage {
  import opened Common
  import opened TestModels
  import opened PipelineStorage
  import opened ResultsApi
  import Runner = AzureDevOpsPage

  const AllStatuses := "ALL"

  /** A row of the results table (`TestResult`): ids rendered as text, '0' when missing. */
  datatype Row = Row(
    id: string,
    reportId: string,
    feature: string,
    scenario: string,
    status: string,
    stepName: string,
    exceptionType: Option<string>,
    exceptionMessage: Option<string>,
    runId: int)

  /** The filter predicate installed on the table. The data source starts with its
      own default predicate, which only ever meets the empty filter. */
  datatype Matcher = DefaultPredicate | StatusEquals | TextSearch

  datatype Table = Table(rows: seq<Row>, filter: string, matcher: Matcher)

  /** The default predicate is replaced before any non-empty filter is set. */
  predicate ValidTable(t: Table) {
    t.filter != "" ==> t.matcher != DefaultPredicate
  }

  datatype LoadedRows = LoadedRows(passedCount: nat, failedCount: nat, totalCount: nat, details: seq<Row>)

  datatype Dashboard = Dashboard(
    published: seq<RunStatus>,
    message: string,
    error: Option<string>,
    isLoading: bool,
    pipelineRunId: Option<int>,
    execution: Option<ExecutionRef>,
    results: Option<LoadedRows>,
    passedTestsCount: nat,
    failedTestsCount: nat,
    totalTestsCount: nat,
    statusFilter: string,
    table: Table,
    calls: seq<Runner.Call>)

  function CurrentStatus(d: Dashboard): RunStatus {
    LastPublished(d.published)
  }

  function Publish(d: Dashboard, s: RunStatus): (r: Dashboard)
    ensures CurrentStatus(r) == s
  {
    d.(published := d.published + [s])
  }

  function Created(): (d: Dashboard)
    ensures CurrentStatus(d) == Idle && d.execution.None? && d.statusFilter == AllStatuses
    ensures ValidTable(d.table) && d.table.rows == []
  {
    Dashboard([Idle], "", None, false, None, None, None, 0, 0, 0, AllStatuses, Table([], "", DefaultPredicate), [])
  }

  // ---------------------------------------------------------------------------
  // Rows
  // ---------------------------------------------------------------------------

  /** `id?.toString() || '0'`. */
  function IdText(id: Option<int>): (r: string)
    ensures ParseInt(r) == Some(id.GetOr(0))
  {
    match id
    case None => assert "0"[0] == '0'; "0"
    case Some(n) => ParseIntToString(n); IntToString(n)
  }

  /** A step result as the table shows it, tagged with the run it was loaded for. */
  function ToRow(s: Step, runId: int): (r: Row)
    ensures ParseInt(r.id) == Some(s.id.GetOr(0)) && ParseInt(r.reportId) == Some(s.reportId.GetOr(0))
    ensures r.feature == s.feature && r.scenario == s.scenario && r.status == s.status && r.stepName == s.stepName
    ensures r.exceptionType == s.exceptionType && r.exceptionMessage == s.exceptionMessage && r.runId == runId
  {
    Row(IdText(s.id), IdText(s.reportId), s.feature, s.scenario, s.status, s.stepName,
        s.exceptionType, s.exceptionMessage, runId)
  }

  function ToRows(steps: seq<Step>, runId: int): (r: seq<Row>)
    ensures |r| == |steps|
    ensures forall i :: 0 <= i < |steps| ==> r[i] == ToRow(steps[i], runId)
  {
    seq(|steps|, i requires 0 <= i < |steps| => ToRow(steps[i], runId))
  }

  function RowsWithStatus(rows: seq<Row>, status: string): (r: seq<Row>)
    ensures |r| <= |rows|
    ensures forall x :: x in r <==> x in rows && x.status == status
  {
    if |rows| == 0 then []
    else
      var last := rows[|rows| - 1];
      assert rows == rows[..|rows| - 1] + [last];
      RowsWithStatus(rows[..|rows| - 1], status) + (if last.status == status then [last] else [])
  }

  lemma RowsWithStatusLast(rows: seq<Row>, status: string)
    requires |rows| > 0
    ensures |RowsWithStatus(rows, status)|
            == |RowsWithStatus(rows[..|rows| - 1], status)| + (if rows[|rows| - 1].status == status then 1 else 0)
  {
  }

  /** Rows and steps that agree position by position on their status have the same status counts. */
  lemma {:induction false} SameStatusesSameCounts(rows: seq<Row>, steps: seq<Step>, status: string)
    requires |rows| == |steps|
    requires forall i :: 0 <= i < |rows| ==> rows[i].status == steps[i].status
    ensures |RowsWithStatus(rows, status)| == CountStatus(steps, status)
  {
    if |steps| > 0 {
      var n := |steps| - 1;
      SameStatusesSameCounts(rows[..n], steps[..n], status);
      RowsWithStatusLast(rows, status);
      assert steps == steps[..n] + [steps[n]];
      CountStatusAppend(steps[..n], steps[n], status);
    }
  }

  /** Mapping steps to rows keeps each status count. */
  lemma RowCountsAreStepCounts(steps: seq<Step>, runId: int, status: string)
    ensures |RowsWithStatus(ToRows(steps, runId), status)| == CountStatus(steps, status)
  {
    SameStatusesSameCounts(ToRows(steps, runId), steps, status);
  }

  // ---------------------------------------------------------------------------
  // Triggering
  // ---------------------------------------------------------------------------

  /** `triggerPipeline`: nothing happens without a selected project and pipeline;
      otherwise an execution with run id 0 is tracked and published as initiating,
      and the trigger request is sent. */
  function Trigger(d: Dashboard, project: Option<Runner.Project>, pipeline: Option<Runner.Pipeline>): (r: Dashboard)
    ensures project.None? || pipeline.None? ==> r == d
    ensures project.Some? && pipeline.Some? ==>
              && r.execution == Some(ExecutionRef(project.value.name, pipeline.value.id, 0))
              && CurrentStatus(r) == Initiating
              && r.calls == d.calls + [Runner.TriggerCall(project.value.name, pipeline.value.id)]
              && r.message == d.message && r.table == d.table
  {
    if project.None? || pipeline.None? then d
    else
      var published := Publish(d.(execution := Some(ExecutionRef(project.value.name, pipeline.value.id, 0))), Initiating);
      published.(calls := published.calls + [Runner.TriggerCall(project.value.name, pipeline.value.id)])
  }

  /** The warning shown for a run that is not completed, linking to the pipeline page. */
  function NotCompletedWarning(state: string, pipelineUrl: string): string {
    "Warning: Pipeline is in state: " + state + ". \n" + "              Please check the pipeline logs to fix any issues: "
      + "<a href=\"" + pipelineUrl + "\" target=\"_blank\">View Pipeline Details</a>"
  }

  /** `loadTestResults(runId)`: the id is the argument, else the page's run id, else 0;
      without a tracked project or with id 0 only a waiting message is shown. */
  function LoadTestResults(d: Dashboard, runId: Option<int>): (r: Dashboard)
    ensures var id := if runId.Some? then runId.value else d.pipelineRunId.GetOr(0);
            var ready := d.execution.Some? && d.execution.value.projectName != "" && id != 0;
            && (ready ==> r == d.(isLoading := true, error := None,
                                  calls := d.calls + [Runner.ResultsCall(id, d.execution.value.projectName)]))
            && (!ready ==> r == d.(message := Runner.WaitingToStart, isLoading := false))
  {
    var id := if runId.Some? then runId.value else d.pipelineRunId.GetOr(0);
    if d.execution.None? || d.execution.value.projectName == "" || id == 0 then
      d.(message := Runner.WaitingToStart, isLoading := false)
    else
      d.(isLoading := true, error := None, calls := d.calls + [Runner.ResultsCall(id, d.execution.value.projectName)])
  }

  /** The trigger request succeeded. Only a state that is 'completed' in any letter
      case adopts the run id and loads its results; any other state leaves the run id
      at what it was and shows a warning. Either way the run is published as stopped
      at 100 with the reported state. */
  function OnTriggered(d: Dashboard, projectName: string, pipelineId: int, response: ExecutionResponse): (r: Dashboard)
    ensures CurrentStatus(r) == RunStatus(false, Some(100), Some(response.state))
    ensures Lower(response.state) == "completed" && d.execution.Some? ==>
              r.execution == Some(d.execution.value.(runId := response.runId))
    ensures Lower(response.state) == "completed" && d.execution.Some? && d.execution.value.projectName != "" && response.runId != 0 ==>
              r.calls == d.calls + [Runner.ResultsCall(response.runId, d.execution.value.projectName)]
    ensures Lower(response.state) != "completed" ==>
              && r.execution == d.execution && r.calls == d.calls
              && r.message == NotCompletedWarning(response.state, PipelineUrl(projectName, pipelineId))
  {
    var handled :=
      if Lower(response.state) == "completed" then
        var adopted := if d.execution.Some? then d.(execution := Some(d.execution.value.(runId := response.runId))) else d;
        LoadTestResults(adopted, Some(response.runId))
      else
        d.(message := NotCompletedWarning(response.state, PipelineUrl(projectName, pipelineId)));
    Publish(handled, RunStatus(false, Some(100), Some(response.state)))
  }

  /** The trigger request failed: the run is published as stopped with stage 'Error'. */
  function OnTriggerError(d: Dashboard, error: string): (r: Dashboard)
    ensures CurrentStatus(r) == RunStatus(false, Some(0), Some("Error"))
    ensures r.message == Runner.TriggerFailedPrefix + error
    ensures r.execution == d.execution && r.calls == d.calls && r.table == d.table
  {
    Publish(d.(message := Runner.TriggerFailedPrefix + error), RunStatus(false, Some(0), Some("Error")))
  }

  // ---------------------------------------------------------------------------
  // Results
  // ---------------------------------------------------------------------------

  /** The mapped results arrived: an empty list only says so; otherwise the counts,
      the table rows and the status line are replaced. */
  function OnResults(d: Dashboard, steps: seq<Step>, runId: int): (r: Dashboard)
    ensures !r.isLoading
    ensures |steps| == 0 ==> r == d.(message := Runner.NoResultsYet, isLoading := false)
    ensures |steps| > 0 ==>
              && r.table == d.table.(rows := ToRows(steps, runId))
              && r.passedTestsCount == CountStatus(steps, Passed)
              && r.failedTestsCount == CountStatus(steps, Failed)
              && r.totalTestsCount == |steps|
              && r.message == Runner.OnResultsLoaded(Runner.Created(map[]), Some(steps)).message
    ensures r.execution == d.execution && r.calls == d.calls && r.published == d.published
  {
    if |steps| == 0 then d.(message := Runner.NoResultsYet, isLoading := false)
    else
      var rows := ToRows(steps, runId);
      RowCountsAreStepCounts(steps, runId, Passed);
      RowCountsAreStepCounts(steps, runId, Failed);
      var passed := |RowsWithStatus(rows, Passed)|;
      var failed := |RowsWithStatus(rows, Failed)|;
      d.(results := Some(LoadedRows(passed, failed, |rows|, rows)),
         table := d.table.(rows := rows),
         passedTestsCount := passed, failedTestsCount := failed, totalTestsCount := |rows|,
         message := Runner.OnResultsLoaded(Runner.Created(map[]), Some(steps)).message,
         isLoading := false)
  }

  /** The results request failed: the error is reported and loading stops. */
  function OnResultsError(d: Dashboard, error: string): (r: Dashboard)
    ensures Contains(error, Runner.BuildZeroNotFound) ==> r.message == Runner.WaitingToComplete
    ensures !Contains(error, Runner.BuildZeroNotFound) ==> r.message == Runner.ResultsErrorPrefix + error
    ensures r == d.(message := r.message, isLoading := false)
  {
    if Contains(error, Runner.BuildZeroNotFound) then d.(message := Runner.WaitingToComplete, isLoading := false)
    else d.(message := Runner.ResultsErrorPrefix + error, isLoading := false)
  }

  /** The response of a results request as written: the error handler reports the
      error and then substitutes an empty list, which the success handler receives. */
  function ReceiveResultsAsWritten(d: Dashboard, outcome: Result<seq<Step>, string>, runId: int): (r: Dashboard)
    ensures outcome.Success? ==> r == OnResults(d, outcome.value, runId)
    ensures outcome.Failure? ==> r == OnResults(OnResultsError(d, outcome.error), [], runId)
  {
    match outcome
    case Success(steps) => OnResults(d, steps, runId)
    case Failure(e) => OnResults(OnResultsError(d, e), [], runId)
  }

  /** Whatever the error, the message the error handler set is overwritten at once. */
  lemma ErrorMessageIsOverwritten(d: Dashboard, error: string, runId: int)
    ensures ReceiveResultsAsWritten(d, Failure(error), runId).message == Runner.NoResultsYet
    ensures Runner.NoResultsYet != Runner.WaitingToComplete
  {
    assert Runner.NoResultsYet[0] == 'N';
  }

  /** The response of a results request with the error message kept. */
  function ReceiveResults(d: Dashboard, outcome: Result<seq<Step>, string>, runId: int): (r: Dashboard)
    ensures outcome.Success? ==> r == OnResults(d, outcome.value, runId)
    ensures outcome.Failure? ==> r == OnResultsError(d, outcome.error)
    ensures outcome.Failure? && Contains(outcome.error, Runner.BuildZeroNotFound) ==> r.message == Runner.WaitingToComplete
    ensures !r.isLoading
  {
    match outcome
    case Success(steps) => OnResults(d, steps, runId)
    case Failure(e) => OnResultsError(d, e)
  }

  /** The two agree on every successful response. */
  lemma ReceiveResultsAgreeOnSuccess(d: Dashboard, steps: seq<Step>, runId: int)
    ensures ReceiveResults(d, Success(steps), runId) == ReceiveResultsAsWritten(d, Success(steps), runId)
  {
  }

  // ---------------------------------------------------------------------------
  // The run lifecycle against the runner page
  // ---------------------------------------------------------------------------

  /** A triggered run answered as completed, in any letter case, with a run id:
      the trigger and then the results of that run in the selected project are
      requested, and the run id is adopted. Any other state sends only the trigger
      and keeps the run id 0. */
  lemma TriggeredRunLoadsResults(d: Dashboard, project: Runner.Project, pipeline: Runner.Pipeline, response: ExecutionResponse)
    ensures var answered := OnTriggered(Trigger(d, Some(project), Some(pipeline)), project.name, pipeline.id, response);
            && (Lower(response.state) == "completed" ==>
                  answered.execution == Some(ExecutionRef(project.name, pipeline.id, response.runId)))
            && (Lower(response.state) == "completed" && project.name != "" && response.runId != 0 ==>
                  answered.calls == d.calls + [Runner.TriggerCall(project.name, pipeline.id),
                                               Runner.ResultsCall(response.runId, project.name)])
            && (Lower(response.state) != "completed" ==>
                  && answered.calls == d.calls + [Runner.TriggerCall(project.name, pipeline.id)]
                  && answered.execution == Some(ExecutionRef(project.name, pipeline.id, 0)))
  {
    var triggered := Trigger(d, Some(project), Some(pipeline));
    assert triggered.calls == d.calls + [Runner.TriggerCall(project.name, pipeline.id)];
  }

  /** Given the same tracked execution and run id, the dashboard and the runner page
      send the same results request, or both send none. */
  lemma LoadAgreesWithRunner(d: Dashboard, page: Runner.Page, runId: int)
    requires d.execution == page.execution
    ensures var mine := LoadTestResults(d, Some(runId)).calls;
            var theirs := Runner.LoadTestResults(page, runId).calls;
            && |mine| - |d.calls| == |theirs| - |page.calls| <= 1
            && mine[|d.calls|..] == theirs[|page.calls|..]
  {
    var mine := LoadTestResults(d, Some(runId)).calls;
    var theirs := Runner.LoadTestResults(page, runId).calls;
    if d.execution.Some? && d.execution.value.projectName != "" && runId != 0 {
      assert mine[|d.calls|..] == [Runner.ResultsCall(runId, d.execution.value.projectName)];
      assert theirs[|page.calls|..] == [Runner.ResultsCall(runId, d.execution.value.projectName)];
    }
  }

  /** A run completed and succeeded, answered with the state in lower case, is
      adopted by both pages and its results are requested the same way. */
  lemma TriggeredAgreesWithRunner(d: Dashboard, page: Runner.Page, projectName: string, pipelineId: int,
                                  response: ExecutionResponse)
    requires d.execution == Some(ExecutionRef(projectName, pipelineId, 0))
    requires response.state == "completed" && response.result == "succeeded"
    ensures var mine := OnTriggered(d, projectName, pipelineId, response);
            var theirs := Runner.OnTriggered(page, projectName, pipelineId, response);
            && mine.execution == theirs.execution
            && (projectName != "" && response.runId != 0 ==>
                  mine.calls[|d.calls|..] == theirs.calls[|page.calls|..] == [Runner.ResultsCall(response.runId, projectName)])
  {
    CompletedIsLowerCase();
    var mine := OnTriggered(d, projectName, pipelineId, response);
    var theirs := Runner.OnTriggered(page, projectName, pipelineId, response);
    if projectName != "" && response.runId != 0 {
      assert mine.calls[|d.calls|..] == [Runner.ResultsCall(response.runId, projectName)];
      assert theirs.calls[|page.calls|..] == [Runner.ResultsCall(response.runId, projectName)];
    }
  }

  lemma CompletedIsLowerCase()
    ensures Lower("completed") == "completed"
  {
    var s := "completed";
    assert forall i :: 0 <= i < |s| ==> LowerChar(s[i]) == s[i];
  }

  /** Both pages report a failed trigger with the same message and stop the run,
      though the dashboard shows the stage 'Error' where the runner shows idle. */
  lemma TriggerErrorAgreesWithRunner(d: Dashboard, page: Runner.Page, error: string)
    ensures OnTriggerError(d, error).message == Runner.OnTriggerError(page, error).message
    ensures !CurrentStatus(OnTriggerError(d, error)).isRunning
    ensures !Runner.CurrentStatus(Runner.OnTriggerError(page, error)).isRunning
    ensures CurrentStatus(OnTriggerError(d, error)).currentStage == Some("Error")
    ensures Runner.CurrentStatus(Runner.OnTriggerError(page, error)).currentStage.None?
  {
  }

  /** Both pages report a failed results request with the same message. */
  lemma ResultsErrorAgreesWithRunner(d: Dashboard, page: Runner.Page, error: string)
    ensures OnResultsError(d, error).message == Runner.OnResultsError(page, error).message
  {
  }

  // ---------------------------------------------------------------------------
  // Filtering the table
  // ---------------------------------------------------------------------------

  /** The free-text predicate: the (lower-cased) filter occurs in a lower-cased
      feature, scenario, status, exception type or exception message. */
  predicate TextMatches(x: Row, filter: string) {
    var f := Lower(filter);
    Contains(Lower(x.feature), f) || Contains(Lower(x.scenario), f) || Contains(Lower(x.status), f)
    || (x.exceptionType.Some? && Contains(Lower(x.exceptionType.value), f))
    || (x.exceptionMessage.Some? && Contains(Lower(x.exceptionMessage.value), f))
  }

  predicate Keeps(t: Table, x: Row) {
    match t.matcher
    case DefaultPredicate => true
    case StatusEquals => x.status == t.filter
    case TextSearch => TextMatches(x, t.filter)
  }

  /** The rows the table shows: all of them under an empty filter, else those the predicate keeps, in order. */
  function Visible(t: Table): (r: seq<Row>)
    ensures |r| <= |t.rows|
    ensures t.filter == "" ==> r == t.rows
    ensures forall x :: x in r <==> x in t.rows && (t.filter == "" || Keeps(t, x))
  {
    if t.filter == "" then t.rows else KeptRows(t, t.rows)
  }

  function KeptRows(t: Table, rows: seq<Row>): (r: seq<Row>)
    ensures |r| <= |rows|
    ensures forall x :: x in r <==> x in rows && Keeps(t, x)
  {
    if |rows| == 0 then []
    else
      var last := rows[|rows| - 1];
      assert rows == rows[..|rows| - 1] + [last];
      KeptRows(t, rows[..|rows| - 1]) + (if Keeps(t, last) then [last] else [])
  }

  /** `filterByStatus`: 'ALL' clears the filter; any other status shows exactly its
      rows, except the empty status, which as an empty filter shows every row. */
  function FilterByStatus(d: Dashboard, status: string): (r: Dashboard)
    requires ValidTable(d.table)
    ensures ValidTable(r.table) && r.statusFilter == status && r.table.rows == d.table.rows
    ensures status == AllStatuses || status == "" ==> Visible(r.table) == d.table.rows
    ensures status != AllStatuses ==> forall x :: x in Visible(r.table) <==> x in d.table.rows && (status == "" || x.status == status)
  {
    if status == AllStatuses then d.(statusFilter := status, table := d.table.(filter := ""))
    else d.(statusFilter := status, table := d.table.(filter := status, matcher := StatusEquals))
  }

  /** `applyFilter`: the trimmed, lower-cased input searched for in each row's text fields. */
  function ApplyFilter(d: Dashboard, input: string): (r: Dashboard)
    requires ValidTable(d.table)
    ensures ValidTable(r.table) && r.statusFilter == AllStatuses && r.table.rows == d.table.rows
    ensures r.table.filter == Lower(Trim(input))
    ensures forall x :: x in Visible(r.table) <==>
              x in d.table.rows && (Trim(input) == "" || TextMatches(x, Lower(Trim(input))))
  {
    d.(statusFilter := AllStatuses, table := d.table.(filter := Lower(Trim(input)), matcher := TextSearch))
  }

  /** Searching is insensitive to letter case in the input. */
  lemma SearchIgnoresInputCase(x: Row, filter: string)
    ensures TextMatches(x, Lower(filter)) == TextMatches(x, filter)
  {
    LowerIdempotent(filter);
  }

  /** `getStatusClass`: only an exact 'PASSED' is shown as passed. */
  function StatusClass(status: string): (r: string)
    ensures r == "status-passed" <==> status == Passed
    ensures r == "status-failed" <==> status != Passed
  {
    if status == Passed then "status-passed" else "status-failed"
  }
}

=== FILE: key_value.dfy ===
/** The browser's durable key-value storage (`localStorage`).

    Each key holds either plain text written with `setItem(key, text)`, or a document
    written with `setItem(key, JSON.stringify(v))`. A document reads back as the value
    it encodes; a plain text entry is never the encoding of a document, so parsing it
    as one fails (this is how corrupt entries are represented). */
module KeyValue {
  import opened Common

  datatype Item<+T> = Text(raw: string) | Doc(value: T)

  type Store<T> = map<string, Item<T>>

  /** `localStorage.getItem(key)` before any parsing. */
  function GetItem<T>(st: Store<T>, key: string): (r: Option<Item<T>>)
    ensures r.Some? <==> key in st
  {
    if key in st then Some(st[key]) else None
  }

  /** `localStorage.getItem(key)` for a key that is only ever written with plain text. */
  function GetText<T>(st: Store<T>, key: string): (r: Option<string>)
    ensures r.Some? <==> key in st && st[key].Text?
    ensures r.Some? ==> r.value == st[key].raw
  {
    if key in st && st[key].Text? then Some(st[key].raw) else None
  }

  /** `localStorage.setItem(key, text)`. */
  function SetText<T(==)>(st: Store<T>, key: string, text: string): (r: Store<T>)
    ensures GetText(r, key) == Some(text)
    ensures forall k :: k != key ==> GetItem(r, k) == GetItem(st, k)
  {
    st[key := Text(text)]
  }

  /** `localStorage.setItem(key, JSON.stringify(v))`. */
  function SetDoc<T(==)>(st: Store<T>, key: string, v: T): (r: Store<T>)
    ensures GetItem(r, key) == Some(Doc(v))
    ensures forall k :: k != key ==> GetItem(r, k) == GetItem(st, k)
  {
    st[key := Doc(v)]
  }

  /** `localStorage.removeItem(key)`. */
  function Remove<T(==)>(st: Store<T>, key: string): (r: Store<T>)
    ensures GetItem(r, key) == None
    ensures forall k :: k != key ==> GetItem(r, k) == GetItem(st, k)
  {
    st - {key}
  }
}

=== FILE: notifications.dfy ===
/** `NotificationService`: a list of notifications, newest first, published on a
    subject and mirrored in storage under `notifications` after every change. Ids
    and timestamps come from the clock and a random source, so a new notification's
    id is a parameter here and timestamps are left out. */
module Notifications {
  import Common
  import opened KeyValue

  const StorageKey := "notifications"

  datatype Kind = SuccessKind | ErrorKind | WarningKind | InfoKind
  datatype RunState = Triggered | Running | Completed | FailedRun | Cancelled

  datatype Notification = Notification(
    id: string,
    kind: Kind,
    title: string,
    message: string,
    read: bool,
    status: RunState,
    pipelineId: Common.Option<string>,
    runId: Common.Option<string>)

  /** The service: the current list and the storage it writes to. */
  datatype Service = Service(list: seq<Notification>, store: Store<seq<Notification>>)

  /** Storage holds exactly the current list. */
  predicate Persisted(svc: Service) {
    GetItem(svc.store, StorageKey) == Common.Some(Doc(svc.list))
  }

  /** `saveNotifications`. */
  function Save(list: seq<Notification>, store: Store<seq<Notification>>): (r: Service)
    ensures r.list == list && Persisted(r)
    ensures forall k :: k != StorageKey ==> GetItem(r.store, k) == GetItem(store, k)
  {
    Service(list, SetDoc(store, StorageKey, list))
  }

  /** The constructor's `loadSavedNotifications`: a stored list is read back; missing
      or empty text leaves the list empty; other text fails to parse and is removed. */
  function Load(store: Store<seq<Notification>>): (r: Service)
    ensures GetItem(store, StorageKey).Some? && GetItem(store, StorageKey).value.Doc? ==>
              r.list == GetItem(store, StorageKey).value.value && r.store == store
    ensures GetItem(store, StorageKey).Some? && GetItem(store, StorageKey).value.Text?
            && GetItem(store, StorageKey).value.raw != "" ==>
              r.list == [] && GetItem(r.store, StorageKey).None?
    ensures forall k :: k != StorageKey ==> GetItem(r.store, k) == GetItem(store, k)
    ensures GetItem(store, StorageKey).None? ==> r == Service([], store)
  {
    match GetItem(store, StorageKey)
    case None => Service([], store)
    case Some(Text(raw)) => if raw == "" then Service([], store) else Service([], Remove(store, StorageKey))
    case Some(Doc(list)) => Service(list, store)
  }

  /** Whatever a mutation leaves behind is what a fresh service loads. */
  lemma LoadAfterPersist(svc: Service)
    requires Persisted(svc)
    ensures Load(svc.store) == svc
  {
  }

  /** Corrupt saved data is removed and nothing is loaded. */
  lemma CorruptDataRemoved(store: Store<seq<Notification>>, raw: string)
    requires GetItem(store, StorageKey) == Common.Some(Text(raw)) && raw != ""
    ensures Load(store).list == [] && StorageKey !in Load(store).store
  {
  }

  /** The number of notifications not yet read (`getUnreadCount`). */
  function UnreadCount(list: seq<Notification>): (n: nat)
    ensures n <= |list|
  {
    if |list| == 0 then 0
    else UnreadCount(list[..|list| - 1]) + (if list[|list| - 1].read then 0 else 1)
  }

  lemma {:induction false} UnreadCountIsIndexCount(list: seq<Notification>)
    ensures UnreadCount(list) == |set i | 0 <= i < |list| && !list[i].read|
  {
    if |list| > 0 {
      var n := |list| - 1;
      UnreadCountIsIndexCount(list[..n]);
      var before := set i | 0 <= i < n && !list[..n][i].read;
      var after := set i | 0 <= i < |list| && !list[i].read;
      if list[n].read {
        assert after == before;
      } else {
        assert after == before + {n};
      }
    }
  }

  lemma {:induction false} UnreadCountPrepend(n: Notification, list: seq<Notification>)
    ensures UnreadCount([n] + list) == UnreadCount(list) + (if n.read then 0 else 1)
  {
    if |list| > 0 {
      var k := |list| - 1;
      UnreadCountPrepend(n, list[..k]);
      assert ([n] + list)[..|list|] == [n] + list[..k];
    } else {
      assert ([n] + list)[..0] == [];
    }
  }

  /** `addNotification`: one new unread notification in front of the unchanged list. */
  function Add(svc: Service, id: string, title: string, message: string, kind: Kind, status: RunState,
               pipelineId: Common.Option<string>, runId: Common.Option<string>): (r: Service)
    ensures |r.list| == |svc.list| + 1 && r.list[1..] == svc.list
    ensures r.list[0] == Notification(id, kind, title, message, false, status, pipelineId, runId)
    ensures UnreadCount(r.list) == UnreadCount(svc.list) + 1
    ensures Persisted(r)
  {
    var n := Notification(id, kind, title, message, false, status, pipelineId, runId);
    UnreadCountPrepend(n, svc.list);
    Save([n] + svc.list, svc.store)
  }

  /** The same call with the defaults of the optional arguments. */
  function AddInfo(svc: Service, id: string, title: string, message: string): (r: Service)
    ensures |r.list| > 0 && r.list[0].kind == InfoKind && r.list[0].status == Completed
    ensures r.list[0].pipelineId.None? && r.list[0].runId.None?
  {
    Add(svc, id, title, message, InfoKind, Completed, Common.None, Common.None)
  }

  function MarkListAsRead(list: seq<Notification>, id: string): (r: seq<Notification>)
    ensures |r| == |list|
    ensures forall i :: 0 <= i < |list| ==> r[i].read == (list[i].read || list[i].id == id)
    ensures forall i :: 0 <= i < |list| ==> r[i].(read := list[i].read) == list[i]
  {
    if |list| == 0 then []
    else
      var last := list[|list| - 1];
      MarkListAsRead(list[..|list| - 1], id) + [if last.id == id then last.(read := true) else last]
  }

  /** `markAsRead(id)`: only the entries carrying that id become read. */
  function MarkAsRead(svc: Service, id: string): (r: Service)
    ensures |r.list| == |svc.list|
    ensures forall i :: 0 <= i < |svc.list| ==> r.list[i].read == (svc.list[i].read || svc.list[i].id == id)
    ensures forall i :: 0 <= i < |svc.list| ==> r.list[i].(read := svc.list[i].read) == svc.list[i]
    ensures Persisted(r)
  {
    Save(MarkListAsRead(svc.list, id), svc.store)
  }

  /** `markAllAsRead`: every entry becomes read; nothing else changes. */
  function MarkAllAsRead(svc: Service): (r: Service)
    ensures |r.list| == |svc.list|
    ensures forall i :: 0 <= i < |svc.list| ==> r.list[i] == svc.list[i].(read := true)
    ensures Persisted(r)
  {
    Save(seq(|svc.list|, i requires 0 <= i < |svc.list| => svc.list[i].(read := true)), svc.store)
  }

  /** `clearNotifications`. */
  function Clear(svc: Service): (r: Service)
    ensures r.list == [] && UnreadCount(r.list) == 0
    ensures Persisted(r)
  {
    Save([], svc.store)
  }

  /** Marking an id that no entry carries changes no entry. */
  lemma UnknownIdChangesNothing(svc: Service, id: string)
    requires forall i :: 0 <= i < |svc.list| ==> svc.list[i].id != id
    ensures MarkAsRead(svc, id).list == svc.list
  {
    var r := MarkAsRead(svc, id).list;
    forall i | 0 <= i < |svc.list|
      ensures r[i] == svc.list[i]
    {
      assert r[i].read == svc.list[i].read;
      assert r[i] == r[i].(read := svc.list[i].read);
    }
  }

  lemma MarkAsReadIdempotent(svc: Service, id: string)
    ensures MarkAsRead(MarkAsRead(svc, id), id) == MarkAsRead(svc, id)
  {
    var once := MarkAsRead(svc, id);
    var twice := MarkAsRead(once, id);
    forall i | 0 <= i < |svc.list|
      ensures twice.list[i] == once.list[i]
    {
      assert twice.list[i].read == once.list[i].read;
      assert twice.list[i] == twice.list[i].(read := once.list[i].read);
    }
    assert twice.list == once.list;
  }

  lemma MarkAllAsReadIdempotent(svc: Service)
    ensures MarkAllAsRead(MarkAllAsRead(svc)) == MarkAllAsRead(svc)
  {
    var once := MarkAllAsRead(svc);
    assert MarkAllAsRead(once).list == once.list;
  }

  /** After `markAllAsRead` nothing is unread. */
  lemma {:induction false} MarkAllLeavesNothingUnread(svc: Service)
    ensures UnreadCount(MarkAllAsRead(svc).list) == 0
  {
    var r := MarkAllAsRead(svc).list;
    UnreadCountIsIndexCount(r);
    assert (set i | 0 <= i < |r| && !r[i].read) == {};
  }

  /** Marking one id never raises the unread count, and lowers it by the number of
      unread entries carrying that id. */
  lemma {:induction false} MarkListAsReadCount(list: seq<Notification>, id: string)
    ensures UnreadCount(MarkListAsRead(list, id)) + UnreadCount(UnreadWithId(list, id)) == UnreadCount(list)
  {
    if |list| > 0 {
      var n := |list| - 1;
      MarkListAsReadCount(list[..n], id);
      var last := list[n];
      var marked := MarkListAsRead(list, id);
      assert marked == MarkListAsRead(list[..n], id) + [if last.id == id then last.(read := true) else last];
      assert marked[..n] == MarkListAsRead(list[..n], id);
      var picked := UnreadWithId(list, id);
      var rest := UnreadWithId(list[..n], id);
      if !last.read && last.id == id {
        assert picked == rest + [last];
        assert picked[..|picked| - 1] == rest;
      } else {
        assert picked == rest;
      }
    }
  }

  /** The unread entries that carry `id`, in order. */
  function UnreadWithId(list: seq<Notification>, id: string): (r: seq<Notification>)
    ensures |r| <= |list|
    ensures forall i :: 0 <= i < |r| ==> !r[i].read && r[i].id == id
  {
    if |list| == 0 then []
    else
      var last := list[|list| - 1];
      UnreadWithId(list[..|list| - 1], id) + (if !last.read && last.id == id then [last] else [])
  }
}

=== FILE: pipeline_storage.dfy ===
/** The execution record store (`PipelineStorageService`): one tracked pipeline
    execution kept under `pipeline_execution`, and the display name of the current
    pipeline kept as plain text under `current_pipeline_name`. */
module PipelineStorage {
  import opened Common
  import opened KeyValue

  const ExecutionKey := "pipeline_execution"
  const CurrentPipelineKey := "current_pipeline_name"
  const UnknownPipeline := "Unknown Pipeline"

  /** The status shape shared by the execution record and the components' status subject. */
  datatype RunStatus = RunStatus(isRunning: bool, progress: Option<int>, currentStage: Option<string>)

  /** The status subject's initial value, and the one published when a trigger is refused. */
  const Idle := RunStatus(false, None, None)
  /** The status published as a run is being started. */
  const Initiating := RunStatus(true, Some(0), Some("Initiating pipeline..."))

  /** A status subject's current value: the last value published, or its initial value. */
  function LastPublished(published: seq<RunStatus>): (s: RunStatus)
    ensures |published| > 0 ==> s == published[|published| - 1]
    ensures |published| == 0 ==> s == Idle
  {
    if |published| == 0 then Idle else published[|published| - 1]
  }

  /** The part of an execution the components track (`currentExecution`). */
  datatype ExecutionRef = ExecutionRef(projectName: string, pipelineId: int, runId: int)

  datatype Execution = Execution(
    projectName: string,
    pipelineId: int,
    pipelineName: Option<string>,
    runId: int,
    status: RunStatus)

  /** `saveExecution`: the slot now holds exactly this execution; nothing else changes. */
  function SaveExecution(store: Store<Execution>, e: Execution): (r: Store<Execution>)
    ensures GetExecution(r) == Some(e)
    ensures GetCurrentPipelineName(r) == GetCurrentPipelineName(store)
    ensures forall k :: k != ExecutionKey ==> GetItem(r, k) == GetItem(store, k)
  {
    SetDoc(store, ExecutionKey, e)
  }

  /** `getExecution`: the stored execution, or null when nothing is stored, the
      stored text is empty, or it does not parse. It never fails. */
  function GetExecution(store: Store<Execution>): (r: Option<Execution>)
    ensures r.Some? <==> GetItem(store, ExecutionKey).Some? && GetItem(store, ExecutionKey).value.Doc?
    ensures r.Some? ==> GetItem(store, ExecutionKey) == Some(Doc(r.value))
  {
    match GetItem(store, ExecutionKey)
    case None => None
    case Some(Text(_)) => None
    case Some(Doc(e)) => Some(e)
  }

  /** `setCurrentPipelineName`: plain text under its own key; the execution slot is untouched. */
  function SetCurrentPipelineName(store: Store<Execution>, name: string): (r: Store<Execution>)
    ensures GetCurrentPipelineName(r) == (if name == "" then UnknownPipeline else name)
    ensures GetExecution(r) == GetExecution(store)
    ensures forall k :: k != CurrentPipelineKey ==> GetItem(r, k) == GetItem(store, k)
  {
    SetText(store, CurrentPipelineKey, name)
  }

  /** `getCurrentPipelineName`: the stored name, or 'Unknown Pipeline' when it is missing or empty. */
  function GetCurrentPipelineName(store: Store<Execution>): (r: string)
    ensures r != ""
    ensures GetText(store, CurrentPipelineKey).None? ==> r == UnknownPipeline
    ensures GetText(store, CurrentPipelineKey) == Some("") ==> r == UnknownPipeline
    ensures GetText(store, CurrentPipelineKey).Some? && GetText(store, CurrentPipelineKey).value != ""
            ==> r == GetText(store, CurrentPipelineKey).value
  {
    OrElse(GetText(store, CurrentPipelineKey), UnknownPipeline)
  }

  /** `clearExecution`: the slot is emptied; the pipeline name is untouched. */
  function ClearExecution(store: Store<Execution>): (r: Store<Execution>)
    ensures GetExecution(r) == None
    ensures GetCurrentPipelineName(r) == GetCurrentPipelineName(store)
    ensures forall k :: k != ExecutionKey ==> GetItem(r, k) == GetItem(store, k)
  {
    Remove(store, ExecutionKey)
  }

  /** The store is single-slot: of two saves only the later one can be read back. */
  lemma SecondSaveWins(store: Store<Execution>, first: Execution, second: Execution)
    ensures GetExecution(SaveExecution(SaveExecution(store, first), second)) == Some(second)
  {
  }

  /** Clearing after any sequence of saves leaves nothing to read. */
  lemma SaveThenClear(store: Store<Execution>, e: Execution)
    ensures GetExecution(ClearExecution(SaveExecution(store, e))) == None
  {
  }
}

=== FILE: qa_user.dfy ===
/** The user-administration records: a user, the projects it may see, their
    pipelines, and the four permission flags each pipeline carries. */
module QaUser {
  import opened Common

  datatype Permission = Permission(
    canViewHistory: bool,
    canTrigger: bool,
    canViewResults: bool,
    canDownloadReport: bool)

  const NoPermission := Permission(false, false, false, false)

  datatype QaPipeline = QaPipeline(id: int, name: string, permissions: Permission)

  datatype QaProject = QaProject(id: string, name: string, pipelines: seq<QaPipeline>)

  datatype QaUser = QaUser(
    id: Option<string>,
    firstname: string,
    lastname: string,
    password: string,
    email: string,
    role: string,
    status: string,
    projects: seq<QaProject>)

  /** A JavaScript number as far as these forms use it: an integer or NaN. */
  datatype Num = Finite(n: int) | NaN

  /** `Number(x)` of a value that is a number or null. */
  function ToNumber(x: Option<Num>): (r: Num)
    ensures x.None? ==> r == Finite(0)
    ensures x.Some? ==> r == x.value
  {
    match x
    case None => Finite(0)
    case Some(v) => v
  }

  /** `Number(text)` for decimal integer text: surrounding white space is ignored,
      blank text is 0, anything else is NaN. */
  function ParseNumber(text: string): (r: Num)
    ensures Trim(text) == "" ==> r == Finite(0)
    ensures Trim(text) != "" && ParseInt(Trim(text)).Some? ==> r == Finite(ParseInt(Trim(text)).value)
    ensures Trim(text) != "" && ParseInt(Trim(text)).None? ==> r == NaN
  {
    var t := Trim(text);
    if t == "" then Finite(0)
    else match ParseInt(t)
      case Some(n) => Finite(n)
      case None => NaN
  }

  /** Permission flags as they arrive from a form or a caller: each may be missing. */
  datatype LooseFlags = LooseFlags(
    canViewHistory: Option<bool>,
    canTrigger: Option<bool>,
    canViewResults: Option<bool>,
    canDownloadReport: Option<bool>)

  /** `Boolean(x)` (equivalently `!!x`) of a flag that may be missing. */
  function AsBool(x: Option<bool>): (b: bool)
    ensures b <==> x == Some(true)
  {
    x.Some? && x.value
  }

  /** Each flag coerced to a boolean. */
  function ToPermission(f: LooseFlags): (p: Permission)
    ensures p.canViewHistory <==> f.canViewHistory == Some(true)
    ensures p.canTrigger <==> f.canTrigger == Some(true)
    ensures p.canViewResults <==> f.canViewResults == Some(true)
    ensures p.canDownloadReport <==> f.canDownloadReport == Some(true)
  {
    Permission(AsBool(f.canViewHistory), AsBool(f.canTrigger), AsBool(f.canViewResults), AsBool(f.canDownloadReport))
  }

  /** The flags of a permission record, all present. */
  function FlagsOf(p: Permission): LooseFlags {
    LooseFlags(Some(p.canViewHistory), Some(p.canTrigger), Some(p.canViewResults), Some(p.canDownloadReport))
  }

  /** Coercing flags that are all present gives the permission back. */
  lemma ToPermissionFlagsOf(p: Permission)
    ensures ToPermission(FlagsOf(p)) == p
  {
  }
}

=== FILE: results_api.dfy ===
/** The HTTP client for the backend (`TestResultsApiService`): the requests it
    builds, the way it turns an artifact listing into a zip download URL, the
    classification of a raw artifact download, and its two error-message mappings.

    HTTP itself is not modelled: a request is the value the service would hand to
    the HTTP client, and a response (or transport failure) is a parameter. */
module ResultsApi {
  import opened Common
  import opened KeyValue

  const AzureDevOpsUrl := "https://ced-cloud-tfs.visualstudio.com"
  const UserIdKey := "user_id"
  const DefaultUserId := "default"
  const ZipMarker := "$format=zip"
  const OctetStream := "application/octet-stream"

  const InvalidRunId := "Invalid run ID"
  const NoArtifacts := "No artifacts found"
  const EmptyResponse := "Empty response received"
  const NotFoundMessage := "Artifact not found or no longer available"
  const LoginRequiredMessage := "Authentication required. " + "Please login to Azure DevOps"
  const AccessDeniedMessage := "Access denied. Please check your permissions"
  const NetworkMessage := "Network error occurred. " + "Please check your connection"
  const DownloadFailedPrefix := "Download failed: "

  // ---------------------------------------------------------------------------
  // encodeURIComponent
  // ---------------------------------------------------------------------------

  /** The characters `encodeURIComponent` leaves alone. */
  predicate Unreserved(c: char) {
    ('A' <= c <= 'Z') || ('a' <= c <= 'z') || ('0' <= c <= '9') || c in "-_.!~*'()"
  }

  /** Every character of an encoded component is unreserved or the escape mark. */
  predicate UriSafe(c: char) {
    Unreserved(c) || c == '%'
  }

  function HexDigit(d: nat): (c: char)
    requires d < 16
    ensures Unreserved(c)
  {
    if d < 10 then DigitChar(d) else ('A' as int + d - 10) as char
  }

  predicate IsByte(b: int) {
    0 <= b < 256
  }

  /** The UTF-8 encoding of one code point. */
  function Utf8(c: char): (r: seq<int>)
    ensures 1 <= |r| <= 4
    ensures forall i :: 0 <= i < |r| ==> IsByte(r[i])
  {
    var cp := c as int;
    var q1 := cp / 64;
    var q2 := q1 / 64;
    if cp < 0x80 then [cp]
    else if cp < 0x800 then [0xC0 + q1, 0x80 + cp % 64]
    else if cp < 0x10000 then [0xE0 + q2, 0x80 + q1 % 64, 0x80 + cp % 64]
    else [0xF0 + q2 / 64, 0x80 + q2 % 64, 0x80 + q1 % 64, 0x80 + cp % 64]
  }

  /** The j-th character of the `%XX` escape of byte b. */
  function EscapeChar(b: int, j: nat): (c: char)
    requires IsByte(b) && j < 3
    ensures UriSafe(c)
  {
    if j == 0 then '%' else if j == 1 then HexDigit(b / 16) else HexDigit(b % 16)
  }

  /** `%XX` escapes, upper-case hexadecimal, one per byte. */
  function PercentEscapes(bytes: seq<int>): (r: string)
    requires forall i :: 0 <= i < |bytes| ==> IsByte(bytes[i])
    ensures |r| == 3 * |bytes|
    ensures forall i :: 0 <= i < |r| ==> UriSafe(r[i])
    ensures |bytes| > 0 ==> r[0] == '%'
  {
    seq(3 * |bytes|, i requires 0 <= i < 3 * |bytes| => EscapeChar(bytes[i / 3], i % 3))
  }

  function EncodeChar(c: char): (r: string)
    ensures Unreserved(c) ==> r == [c]
    ensures !Unreserved(c) ==> 3 <= |r| && r[0] == '%'
    ensures forall i :: 0 <= i < |r| ==> UriSafe(r[i])
  {
    if Unreserved(c) then [c] else PercentEscapes(Utf8(c))
  }

  /** `encodeURIComponent(s)`: unreserved characters pass through, every other
      character becomes the percent escapes of its UTF-8 bytes. */
  function EncodeUriComponent(s: string): (r: string)
    ensures |r| >= |s|
    ensures forall i :: 0 <= i < |r| ==> UriSafe(r[i])
    ensures '/' !in r
    ensures (forall i :: 0 <= i < |s| ==> Unreserved(s[i])) ==> r == s
  {
    if |s| == 0 then ""
    else
      var head := EncodeChar(s[0]);
      var tail := EncodeUriComponent(s[1..]);
      ConcatSafe(head, tail);
      SafeHasNoSlash(head + tail);
      UnreservedTail(s);
      head + tail
  }

  lemma ConcatSafe(a: string, b: string)
    requires forall i :: 0 <= i < |a| ==> UriSafe(a[i])
    requires forall i :: 0 <= i < |b| ==> UriSafe(b[i])
    ensures forall i :: 0 <= i < |a + b| ==> UriSafe((a + b)[i])
  {
    forall i | 0 <= i < |a + b|
      ensures UriSafe((a + b)[i])
    {
      if i < |a| { assert (a + b)[i] == a[i]; } else { assert (a + b)[i] == b[i - |a|]; }
    }
  }

  lemma SafeHasNoSlash(t: string)
    requires forall i :: 0 <= i < |t| ==> UriSafe(t[i])
    ensures '/' !in t
  {
    forall i | 0 <= i < |t|
      ensures t[i] != '/'
    {
      assert UriSafe(t[i]);
    }
  }

  lemma UnreservedTail(s: string)
    requires |s| > 0
    ensures (forall i :: 0 <= i < |s| ==> Unreserved(s[i])) ==>
              Unreserved(s[0]) && forall i :: 0 <= i < |s[1..]| ==> Unreserved(s[1..][i])
  {
  }

  // ---------------------------------------------------------------------------
  // decodeURIComponent, the encoder's inverse
  // ---------------------------------------------------------------------------

  /** The value of a hexadecimal digit in either letter case. */
  function HexValue(c: char): (r: Option<nat>)
    ensures r.Some? ==> r.value < 16
  {
    if '0' <= c <= '9' then Some(c as int - '0' as int)
    else if 'A' <= c <= 'F' then Some(c as int - 'A' as int + 10)
    else if 'a' <= c <= 'f' then Some(c as int - 'a' as int + 10)
    else None
  }

  lemma HexValueOfDigit(d: nat)
    requires d < 16
    ensures HexValue(HexDigit(d)) == Some(d)
  {
  }

  /** The byte escaped as `%XX` by the k-th escape of t, if it is one. */
  function EscapedByte(t: string, k: nat): (r: Option<int>)
    ensures r.Some? ==> IsByte(r.value)
  {
    if 3 * k + 3 <= |t| && t[3 * k] == '%' && HexValue(t[3 * k + 1]).Some? && HexValue(t[3 * k + 2]).Some? then
      Some(16 * HexValue(t[3 * k + 1]).value + HexValue(t[3 * k + 2]).value)
    else None
  }

  /** The six payload bits of the k-th escape, when it holds a continuation byte. */
  function ContinuationBits(t: string, k: nat): (r: Option<int>)
    ensures r.Some? ==> 0 <= r.value < 64
  {
    match EscapedByte(t, k)
    case Some(b) => if 0x80 <= b < 0xC0 then Some(b - 0x80) else None
    case None => None
  }

  /** A decoded code point and the length of its escapes, provided it is a Unicode
      scalar value that was not encoded with more bytes than it needs. */
  function ScalarOf(cp: int, least: int, width: nat): (r: Option<(char, nat)>)
    ensures r.Some? ==> r.value.0 as int == cp && r.value.1 == width
  {
    if 0 <= cp && least <= cp <= 0x10FFFF && !(0xD800 <= cp < 0xE000) then Some((cp as char, width)) else None
  }

  /** The first character of an encoded component and how many characters it takes:
      a character other than '%' stands for itself; otherwise one to four escapes
      form the UTF-8 encoding of one code point. */
  function DecodeFirst(t: string): (r: Option<(char, nat)>)
    requires |t| > 0
    ensures r.Some? ==> 1 <= r.value.1 <= |t|
  {
    if t[0] != '%' then Some((t[0], 1))
    else
      match EscapedByte(t, 0)
      case None => None
      case Some(b0) =>
        if b0 < 0x80 then Some((b0 as char, 3))
        else if 0xC0 <= b0 < 0xE0 then
          match ContinuationBits(t, 1)
          case None => None
          case Some(c1) => ScalarOf((b0 - 0xC0) * 64 + c1, 0x80, 6)
        else if 0xE0 <= b0 < 0xF0 then
          match (ContinuationBits(t, 1), ContinuationBits(t, 2))
          case (Some(c1), Some(c2)) => ScalarOf((b0 - 0xE0) * 4096 + c1 * 64 + c2, 0x800, 9)
          case _ => None
        else if 0xF0 <= b0 < 0xF8 then
          match (ContinuationBits(t, 1), ContinuationBits(t, 2), ContinuationBits(t, 3))
          case (Some(c1), Some(c2), Some(c3)) => ScalarOf((b0 - 0xF0) * 262144 + c1 * 4096 + c2 * 64 + c3, 0x10000, 12)
          case _ => None
        else None
  }

  /** `decodeURIComponent`: None where the standard function throws a URIError. */
  function DecodeUriComponent(t: string): (r: Option<string>)
    ensures r.Some? ==> |r.value| <= |t|
    decreases |t|
  {
    if |t| == 0 then Some("")
    else
      match DecodeFirst(t)
      case None => None
      case Some((c, n)) =>
        match DecodeUriComponent(t[n..])
        case None => None
        case Some(rest) => Some([c] + rest)
  }

  /** The escapes of a byte sequence, position by position. */
  lemma PercentEscapesAt(bytes: seq<int>, k: nat)
    requires forall i :: 0 <= i < |bytes| ==> IsByte(bytes[i])
    requires k < |bytes|
    ensures var r := PercentEscapes(bytes);
            r[3 * k] == '%' && r[3 * k + 1] == HexDigit(bytes[k] / 16) && r[3 * k + 2] == HexDigit(bytes[k] % 16)
  {
    var r := PercentEscapes(bytes);
    assert (3 * k) / 3 == k && (3 * k + 1) / 3 == k && (3 * k + 2) / 3 == k;
    assert r[3 * k + 1] == EscapeChar(bytes[k], 1);
    assert r[3 * k + 2] == EscapeChar(bytes[k], 2);
  }

  /** Each escape of an encoded byte sequence reads back as that byte, whatever follows. */
  lemma EscapedByteOf(bytes: seq<int>, rest: string, k: nat)
    requires forall i :: 0 <= i < |bytes| ==> IsByte(bytes[i])
    requires k < |bytes|
    ensures EscapedByte(PercentEscapes(bytes) + rest, k) == Some(bytes[k])
  {
    var t := PercentEscapes(bytes) + rest;
    PercentEscapesAt(bytes, k);
    assert t[3 * k] == '%' && t[3 * k + 1] == HexDigit(bytes[k] / 16) && t[3 * k + 2] == HexDigit(bytes[k] % 16);
    var hi, lo := bytes[k] / 16, bytes[k] % 16;
    HexValueOfDigit(hi);
    HexValueOfDigit(lo);
    EscapedByteAt(t, k, bytes[k]);
  }

  lemma EscapedByteAt(t: string, k: nat, b: int)
    requires IsByte(b)
    requires 3 * k + 3 <= |t| && t[3 * k] == '%'
    requires HexValue(t[3 * k + 1]) == Some(b / 16) && HexValue(t[3 * k + 2]) == Some(b % 16)
    ensures EscapedByte(t, k) == Some(b)
  {
  }

  /** The first character of an encoding followed by anything decodes back to that character. */
  lemma DecodeFirstOfEncoded(c: char, rest: string)
    ensures DecodeFirst(EncodeChar(c) + rest) == Some((c, |EncodeChar(c)|))
  {
    var cp := c as int;
    if Unreserved(c) {
      assert EncodeChar(c) == [c];
      assert (EncodeChar(c) + rest)[0] == c;
    } else {
      assert EncodeChar(c) == PercentEscapes(Utf8(c));
      if cp < 0x80 {
        DecodeOneByte(c, rest);
      } else if cp < 0x800 {
        DecodeTwoBytes(c, rest);
      } else if cp < 0x10000 {
        DecodeThreeBytes(c, rest);
      } else {
        DecodeFourBytes(c, rest);
      }
    }
  }

  lemma DecodeOneByte(c: char, rest: string)
    requires !Unreserved(c) && c as int < 0x80
    ensures DecodeFirst(PercentEscapes(Utf8(c)) + rest) == Some((c, 3))
    ensures |PercentEscapes(Utf8(c))| == 3
  {
    var t := PercentEscapes(Utf8(c)) + rest;
    EscapedByteOf(Utf8(c), rest, 0);
    assert t[0] == '%';
  }

  lemma DecodeTwoBytes(c: char, rest: string)
    requires !Unreserved(c) && 0x80 <= c as int < 0x800
    ensures DecodeFirst(PercentEscapes(Utf8(c)) + rest) == Some((c, 6))
    ensures |PercentEscapes(Utf8(c))| == 6
  {
    Utf8TwoBytes(c);
    ReadTwoEscapes(Utf8(c), rest);
    ScalarOfChar(c, 0x80, 6);
  }

  lemma DecodeThreeBytes(c: char, rest: string)
    requires !Unreserved(c) && 0x800 <= c as int < 0x10000
    ensures DecodeFirst(PercentEscapes(Utf8(c)) + rest) == Some((c, 9))
    ensures |PercentEscapes(Utf8(c))| == 9
  {
    Utf8ThreeBytes(c);
    ReadThreeEscapes(Utf8(c), rest);
    ScalarOfChar(c, 0x800, 9);
  }

  lemma DecodeFourBytes(c: char, rest: string)
    requires !Unreserved(c) && 0x10000 <= c as int
    ensures DecodeFirst(PercentEscapes(Utf8(c)) + rest) == Some((c, 12))
    ensures |PercentEscapes(Utf8(c))| == 12
  {
    Utf8FourBytes(c);
    ReadFourEscapes(Utf8(c), rest);
    ScalarOfChar(c, 0x10000, 12);
  }

  /** The bytes of a two-byte encoding: a lead byte and a continuation byte whose
      payload bits give the code point back. */
  lemma Utf8TwoBytes(c: char)
    requires 0x80 <= c as int < 0x800
    ensures var b := Utf8(c);
            && |b| == 2 && 0xC0 <= b[0] < 0xE0 && Continuation(b[1])
            && (b[0] - 0xC0) * 64 + (b[1] - 0x80) == c as int
  {
    var cp := c as int;
    assert Utf8(c) == [0xC0 + cp / 64, 0x80 + cp % 64];
  }

  lemma Utf8ThreeBytes(c: char)
    requires 0x800 <= c as int < 0x10000
    ensures var b := Utf8(c);
            && |b| == 3 && 0xE0 <= b[0] < 0xF0 && Continuation(b[1]) && Continuation(b[2])
            && (b[0] - 0xE0) * 4096 + (b[1] - 0x80) * 64 + (b[2] - 0x80) == c as int
  {
    var cp := c as int;
    var q1 := cp / 64;
    assert Utf8(c) == [0xE0 + q1 / 64, 0x80 + q1 % 64, 0x80 + cp % 64];
  }

  lemma Utf8FourBytes(c: char)
    requires 0x10000 <= c as int
    ensures var b := Utf8(c);
            && |b| == 4 && 0xF0 <= b[0] < 0xF8 && Continuation(b[1]) && Continuation(b[2]) && Continuation(b[3])
            && (b[0] - 0xF0) * 262144 + (b[1] - 0x80) * 4096 + (b[2] - 0x80) * 64 + (b[3] - 0x80) == c as int
  {
    var cp := c as int;
    var q1 := cp / 64;
    var q2 := q1 / 64;
    assert Utf8(c) == [0xF0 + q2 / 64, 0x80 + q2 % 64, 0x80 + q1 % 64, 0x80 + cp % 64];
  }

  /** Continuation bytes lie in 0x80..0xBF. */
  predicate Continuation(b: int) {
    0x80 <= b < 0xC0
  }

  lemma ContinuationOf(t: string, k: nat, b: int)
    requires EscapedByte(t, k) == Some(b) && Continuation(b)
    ensures ContinuationBits(t, k) == Some(b - 0x80)
  {
  }

  /** Every escape of an encoded byte sequence reads back, whatever follows it. */
  lemma EscapesReadBack(bytes: seq<int>, rest: string)
    requires forall i :: 0 <= i < |bytes| ==> IsByte(bytes[i])
    requires |bytes| > 0
    ensures (PercentEscapes(bytes) + rest)[0] == '%'
    ensures forall k :: 0 <= k < |bytes| ==> EscapedByte(PercentEscapes(bytes) + rest, k) == Some(bytes[k])
  {
    forall k | 0 <= k < |bytes|
      ensures EscapedByte(PercentEscapes(bytes) + rest, k) == Some(bytes[k])
    {
      EscapedByteOf(bytes, rest, k);
    }
  }

  lemma ReadTwoEscapes(bytes: seq<int>, rest: string)
    requires |bytes| == 2 && 0xC0 <= bytes[0] < 0xE0 && Continuation(bytes[1])
    ensures DecodeFirst(PercentEscapes(bytes) + rest) == ScalarOf((bytes[0] - 0xC0) * 64 + (bytes[1] - 0x80), 0x80, 6)
  {
    EscapesReadBack(bytes, rest);
    DecodeTwoOf(PercentEscapes(bytes) + rest, bytes[0], bytes[1]);
  }

  lemma ReadThreeEscapes(bytes: seq<int>, rest: string)
    requires |bytes| == 3 && 0xE0 <= bytes[0] < 0xF0 && Continuation(bytes[1]) && Continuation(bytes[2])
    ensures DecodeFirst(PercentEscapes(bytes) + rest)
            == ScalarOf((bytes[0] - 0xE0) * 4096 + (bytes[1] - 0x80) * 64 + (bytes[2] - 0x80), 0x800, 9)
  {
    EscapesReadBack(bytes, rest);
    DecodeThreeOf(PercentEscapes(bytes) + rest, bytes[0], bytes[1], bytes[2]);
  }

  lemma ReadFourEscapes(bytes: seq<int>, rest: string)
    requires |bytes| == 4 && 0xF0 <= bytes[0] < 0xF8
    requires Continuation(bytes[1]) && Continuation(bytes[2]) && Continuation(bytes[3])
    ensures DecodeFirst(PercentEscapes(bytes) + rest)
            == ScalarOf((bytes[0] - 0xF0) * 262144 + (bytes[1] - 0x80) * 4096 + (bytes[2] - 0x80) * 64 + (bytes[3] - 0x80),
                        0x10000, 12)
  {
    EscapesReadBack(bytes, rest);
    DecodeFourOf(PercentEscapes(bytes) + rest, bytes[0], bytes[1], bytes[2], bytes[3]);
  }

  lemma DecodeTwoOf(t: string, b0: int, b1: int)
    requires |t| > 0 && t[0] == '%' && 0xC0 <= b0 < 0xE0 && Continuation(b1)
    requires EscapedByte(t, 0) == Some(b0) && EscapedByte(t, 1) == Some(b1)
    ensures DecodeFirst(t) == ScalarOf((b0 - 0xC0) * 64 + (b1 - 0x80), 0x80, 6)
  {
    ContinuationOf(t, 1, b1);
    DecodeTwoEscapes(t, b0, b1 - 0x80);
  }

  lemma DecodeThreeOf(t: string, b0: int, b1: int, b2: int)
    requires |t| > 0 && t[0] == '%' && 0xE0 <= b0 < 0xF0 && Continuation(b1) && Continuation(b2)
    requires EscapedByte(t, 0) == Some(b0) && EscapedByte(t, 1) == Some(b1) && EscapedByte(t, 2) == Some(b2)
    ensures DecodeFirst(t) == ScalarOf((b0 - 0xE0) * 4096 + (b1 - 0x80) * 64 + (b2 - 0x80), 0x800, 9)
  {
    ContinuationOf(t, 1, b1);
    ContinuationOf(t, 2, b2);
    DecodeThreeEscapes(t, b0, b1 - 0x80, b2 - 0x80);
  }

  lemma DecodeFourOf(t: string, b0: int, b1: int, b2: int, b3: int)
    requires |t| > 0 && t[0] == '%' && 0xF0 <= b0 < 0xF8 && Continuation(b1) && Continuation(b2) && Continuation(b3)
    requires EscapedByte(t, 0) == Some(b0) && EscapedByte(t, 1) == Some(b1)
    requires EscapedByte(t, 2) == Some(b2) && EscapedByte(t, 3) == Some(b3)
    ensures DecodeFirst(t) == ScalarOf((b0 - 0xF0) * 262144 + (b1 - 0x80) * 4096 + (b2 - 0x80) * 64 + (b3 - 0x80), 0x10000, 12)
  {
    ContinuationOf(t, 1, b1);
    ContinuationOf(t, 2, b2);
    ContinuationOf(t, 3, b3);
    DecodeFourEscapes(t, b0, b1 - 0x80, b2 - 0x80, b3 - 0x80);
  }

  lemma DecodeTwoEscapes(t: string, b0: int, c1: int)
    requires |t| > 0 && t[0] == '%' && EscapedByte(t, 0) == Some(b0) && 0xC0 <= b0 < 0xE0
    requires ContinuationBits(t, 1) == Some(c1)
    ensures DecodeFirst(t) == ScalarOf((b0 - 0xC0) * 64 + c1, 0x80, 6)
  {
  }

  lemma DecodeThreeEscapes(t: string, b0: int, c1: int, c2: int)
    requires |t| > 0 && t[0] == '%' && EscapedByte(t, 0) == Some(b0) && 0xE0 <= b0 < 0xF0
    requires ContinuationBits(t, 1) == Some(c1) && ContinuationBits(t, 2) == Some(c2)
    ensures DecodeFirst(t) == ScalarOf((b0 - 0xE0) * 4096 + c1 * 64 + c2, 0x800, 9)
  {
  }

  lemma DecodeFourEscapes(t: string, b0: int, c1: int, c2: int, c3: int)
    requires |t| > 0 && t[0] == '%' && EscapedByte(t, 0) == Some(b0) && 0xF0 <= b0 < 0xF8
    requires ContinuationBits(t, 1) == Some(c1) && ContinuationBits(t, 2) == Some(c2) && ContinuationBits(t, 3) == Some(c3)
    ensures DecodeFirst(t) == ScalarOf((b0 - 0xF0) * 262144 + c1 * 4096 + c2 * 64 + c3, 0x10000, 12)
  {
  }

  /** A character's own code point always passes the scalar check. */
  lemma ScalarOfChar(c: char, least: int, width: nat)
    requires least <= c as int
    ensures ScalarOf(c as int, least, width) == Some((c, width))
  {
  }

  /** Decoding an encoded component gives the component back. */
  lemma {:induction false} DecodeEncodeRoundTrip(s: string)
    ensures DecodeUriComponent(EncodeUriComponent(s)) == Some(s)
  {
    if |s| > 0 {
      var head := EncodeChar(s[0]);
      var tail := EncodeUriComponent(s[1..]);
      var t := EncodeUriComponent(s);
      assert t == head + tail;
      DecodeFirstOfEncoded(s[0], tail);
      AfterPrefix(head, tail);
      DecodeEncodeRoundTrip(s[1..]);
      HeadAndTail(s);
    }
  }

  lemma AfterPrefix(a: string, b: string)
    ensures (a + b)[|a|..] == b
  {
  }

  lemma HeadAndTail(s: string)
    requires |s| > 0
    ensures [s[0]] + s[1..] == s
  {
  }

  /** Different components never share an encoding, so a project name reads back from its URL segment. */
  lemma EncodeUriComponentInjective(s: string, u: string)
    requires EncodeUriComponent(s) == EncodeUriComponent(u)
    ensures s == u
  {
    DecodeEncodeRoundTrip(s);
    DecodeEncodeRoundTrip(u);
  }

  // ---------------------------------------------------------------------------
  // Requests
  // ---------------------------------------------------------------------------

  datatype Verb = Get | Post

  /** A request as handed to the HTTP client: verb, URL and query parameters. */
  datatype Request = Request(verb: Verb, url: string, query: seq<(string, string)>)

  /** The trigger endpoint's answer (`PipelineExecutionResponse`). */
  datatype ExecutionResponse = ExecutionResponse(runId: int, executionId: string, state: string, result: string)

  /** `getUserId`: the stored user id, or 'default' when it is missing or empty. */
  function GetUserId<T>(store: Store<T>): (r: string)
    ensures r != ""
    ensures Truthy(GetText(store, UserIdKey)) ==> r == GetText(store, UserIdKey).value
    ensures !Truthy(GetText(store, UserIdKey)) ==> r == DefaultUserId
  {
    OrElse(GetText(store, UserIdKey), DefaultUserId)
  }

  /** The text after the last occurrence of `sep` (all of s when sep does not occur). */
  function LastAfter(s: string, sep: char): (r: string)
    ensures sep !in r
    ensures |r| <= |s| && r == s[|s| - |r|..]
  {
    if |s| == 0 then ""
    else if s[|s| - 1] == sep then ""
    else LastAfter(s[..|s| - 1], sep) + [s[|s| - 1]]
  }

  lemma {:induction false} LastAfterJoin(a: string, sep: char, b: string)
    requires sep !in b
    ensures LastAfter(a + [sep] + b, sep) == b
    decreases |b|
  {
    if |b| == 0 {
      var s := a + [sep];
      assert a + [sep] + b == s;
      assert s[|s| - 1] == sep;
    } else {
      var b', c := b[..|b| - 1], b[|b| - 1];
      var s' := a + [sep] + b';
      assert b == b' + [c];
      assert a + [sep] + b == s' + [c];
      assert c != sep;
      LastAfterJoin(a, sep, b');
      LastAfterStep(s', c, sep);
    }
  }

  /** Appending a character other than `sep` extends the text after the last `sep`. */
  lemma LastAfterStep(s: string, c: char, sep: char)
    requires c != sep
    ensures LastAfter(s + [c], sep) == LastAfter(s, sep) + [c]
  {
    assert (s + [c])[..|s|] == s;
  }

  lemma PrefixOfConcat(a: string, b: string)
    ensures IsPrefix(a, a + b)
  {
    assert (a + b)[..|a|] == a;
  }

  /** Two texts that differ in their first character: neither begins the other. */
  lemma DifferFirst(a: string, b: string)
    requires |a| > 0 && |b| > 0 && a[0] != b[0]
    ensures !IsPrefix(a, b) && !IsPrefix(b, a) && a != b
  {
    if |a| <= |b| { assert b[..|a|][0] != a[0]; }
    if |b| <= |a| { assert a[..|b|][0] != b[0]; }
  }

  /** The number that ends a URL after `sep` reads back as the number that was written there. */
  lemma TrailingNumber(prefix: string, sep: char, n: int)
    requires sep !in IntToString(n)
    ensures ParseInt(LastAfter(prefix + [sep] + IntToString(n), sep)) == Some(n)
  {
    LastAfterJoin(prefix, sep, IntToString(n));
    ParseIntToString(n);
  }

  /** The '/'-separated path segments of `url` that follow `head`. */
  function SegmentsAfter(head: string, url: string): seq<string>
    requires IsPrefix(head, url)
  {
    Split(url[|head|..], '/')
  }

  /** Two slash-free segments joined by '/' split back into themselves. */
  lemma TwoSegments(a: string, b: string)
    requires '/' !in a && '/' !in b
    ensures Split(a + "/" + b, '/') == [a, b]
  {
    SplitLastPart(a, '/', b);
  }

  /** A URL that ends with '/' and a number: the path after the head is the pieces of
      `rest` and then the number, which reads back from after the last '/'. */
  lemma LastNumber(head: string, rest: string, n: int)
    ensures IsPrefix(head, head + rest + "/" + IntToString(n))
    ensures SegmentsAfter(head, head + rest + "/" + IntToString(n)) == Split(rest, '/') + [IntToString(n)]
    ensures ParseInt(LastAfter(head + rest + "/" + IntToString(n), '/')) == Some(n)
  {
    var tail := rest + "/" + IntToString(n);
    var url := head + rest + "/" + IntToString(n);
    assert url == head + tail;
    PrefixOfConcat(head, tail);
    assert url[|head|..] == tail;
    assert tail == rest + ['/'] + IntToString(n);
    SplitLastPart(rest, '/', IntToString(n));
    assert url == (head + rest) + ['/'] + IntToString(n);
    TrailingNumber(head + rest, '/', n);
  }

  /** A URL that ends with a slash-free segment and a number: both segments follow
      the head, and the number reads back from after the last '/'. */
  lemma SegmentAndNumber(head: string, segment: string, n: int)
    requires '/' !in segment
    ensures IsPrefix(head, head + segment + "/" + IntToString(n))
    ensures SegmentsAfter(head, head + segment + "/" + IntToString(n)) == [segment, IntToString(n)]
    ensures ParseInt(LastAfter(head + segment + "/" + IntToString(n), '/')) == Some(n)
  {
    LastNumber(head, segment, n);
  }

  /** A URL that ends with a slash-free segment and two numbers: the three segments
      follow the head, and the last number reads back from after the last '/'. */
  lemma SegmentAndTwoNumbers(head: string, segment: string, m: int, n: int)
    requires '/' !in segment
    ensures IsPrefix(head, head + (segment + "/" + IntToString(m)) + "/" + IntToString(n))
    ensures SegmentsAfter(head, head + (segment + "/" + IntToString(m)) + "/" + IntToString(n))
            == [segment, IntToString(m), IntToString(n)]
    ensures ParseInt(LastAfter(head + (segment + "/" + IntToString(m)) + "/" + IntToString(n), '/')) == Some(n)
  {
    LastNumber(head, segment + "/" + IntToString(m), n);
    TwoSegments(segment, IntToString(m));
    assert [segment, IntToString(m)] + [IntToString(n)] == [segment, IntToString(m), IntToString(n)];
  }

  /** `triggerPipeline`: a POST to the trigger endpoint; a scheduled run adds the
      `scheduledTime` query parameter (its ISO text is supplied by the caller). */
  function TriggerPipeline<T>(apiUrl: string, store: Store<T>, projectName: string, pipelineId: int,
                              scheduledIso: Option<string>): (r: Request)
    ensures r.verb == Post
    ensures IsPrefix(apiUrl + "/api/QAUser/trigger-pipeline/" + GetUserId(store) + "/", r.url)
    ensures SegmentsAfter(apiUrl + "/api/QAUser/trigger-pipeline/" + GetUserId(store) + "/", r.url)
            == [EncodeUriComponent(projectName), IntToString(pipelineId)]
    ensures ParseInt(LastAfter(r.url, '/')) == Some(pipelineId)
    ensures scheduledIso.None? ==> r.query == []
    ensures scheduledIso.Some? ==> r.query == [("scheduledTime", scheduledIso.value)]
  {
    var head := apiUrl + "/api/QAUser/trigger-pipeline/" + GetUserId(store) + "/";
    var url := head + EncodeUriComponent(projectName) + "/" + IntToString(pipelineId);
    SegmentAndNumber(head, EncodeUriComponent(projectName), pipelineId);
    Request(Post, url, if scheduledIso.Some? then [("scheduledTime", scheduledIso.value)] else [])
  }

  /** `getTestResults`: run id 0 is refused before any request is made; otherwise a
      GET of the run's step results, the project as one encoded path segment. */
  function GetTestResults(apiUrl: string, runId: int, projectName: string): (r: Result<Request, string>)
    ensures r.Failure? <==> runId == 0
    ensures r.Failure? ==> r.error == InvalidRunId
    ensures r.Success? ==> r.value.verb == Get && r.value.query == []
    ensures r.Success? ==> IsPrefix(apiUrl + "/api/QAUser/azure-logs/", r.value.url)
    ensures r.Success? ==> SegmentsAfter(apiUrl + "/api/QAUser/azure-logs/", r.value.url)
                           == [EncodeUriComponent(projectName), IntToString(runId)]
    ensures r.Success? ==> ParseInt(LastAfter(r.value.url, '/')) == Some(runId)
  {
    if runId == 0 then Failure(InvalidRunId)
    else
      var head := apiUrl + "/api/QAUser/azure-logs/";
      var url := head + EncodeUriComponent(projectName) + "/" + IntToString(runId);
      SegmentAndNumber(head, EncodeUriComponent(projectName), runId);
      Success(Request(Get, url, []))
  }

  /** The listing request `downloadHtmlReport` makes before it picks an artifact. */
  function ArtifactListing<T>(apiUrl: string, store: Store<T>, projectName: string, pipelineId: int, runId: int): (r: Request)
    ensures r.verb == Get && r.query == []
    ensures IsPrefix(apiUrl + "/api/QAUser/download-artifact/" + GetUserId(store) + "/", r.url)
    ensures SegmentsAfter(apiUrl + "/api/QAUser/download-artifact/" + GetUserId(store) + "/", r.url)
            == [EncodeUriComponent(projectName), IntToString(pipelineId), IntToString(runId)]
    ensures ParseInt(LastAfter(r.url, '/')) == Some(runId)
  {
    var head := apiUrl + "/api/QAUser/download-artifact/" + GetUserId(store) + "/";
    var url := head + (EncodeUriComponent(projectName) + "/" + IntToString(pipelineId)) + "/" + IntToString(runId);
    SegmentAndTwoNumbers(head, EncodeUriComponent(projectName), pipelineId, runId);
    Request(Get, url, [])
  }

  /** A link to a page of the project on `host` whose last query parameter, `key`,
      holds `id`: the whole text after `key=` reads back as the id. */
  function DevOpsLink(host: string, projectName: string, pageAndKey: string, id: int): (r: string)
    ensures IsPrefix(host + "/" + projectName + pageAndKey + "=", r)
    ensures ParseInt(r[|host + "/" + projectName + pageAndKey + "="|..]) == Some(id)
    ensures ParseInt(LastAfter(r, '=')) == Some(id)
  {
    var base := host + "/" + projectName + pageAndKey;
    TrailingNumber(base, '=', id);
    PrefixOfConcat(base + "=", IntToString(id));
    assert (base + "=" + IntToString(id))[|base + "="|..] == IntToString(id);
    ParseIntToString(id);
    base + "=" + IntToString(id)
  }

  /** The pipeline definition page and its query key. */
  const DefinitionIdKey := "/_build?definitionId"

  /** The build results page and its query key. */
  const BuildIdKey := "/_build/results?buildId"

  /** `getPipelineUrl`: the pipeline definition page; the id is the value of `definitionId`. */
  function PipelineUrl(projectName: string, pipelineId: int): (r: string)
    ensures IsPrefix(AzureDevOpsUrl + "/" + projectName + DefinitionIdKey + "=", r)
    ensures ParseInt(r[|AzureDevOpsUrl + "/" + projectName + DefinitionIdKey + "="|..]) == Some(pipelineId)
    ensures ParseInt(LastAfter(r, '=')) == Some(pipelineId)
  {
    DevOpsLink(AzureDevOpsUrl, projectName, DefinitionIdKey, pipelineId)
  }

  /** `getBuildUrl`: the build results page; the id is the value of `buildId`. */
  function BuildUrl(projectName: string, runId: int): (r: string)
    ensures IsPrefix(AzureDevOpsUrl + "/" + projectName + BuildIdKey + "=", r)
    ensures ParseInt(r[|AzureDevOpsUrl + "/" + projectName + BuildIdKey + "="|..]) == Some(runId)
    ensures ParseInt(LastAfter(r, '=')) == Some(runId)
  {
    DevOpsLink(AzureDevOpsUrl, projectName, BuildIdKey, runId)
  }

  // ---------------------------------------------------------------------------
  // Errors reported by the backend calls (handleError)
  // ---------------------------------------------------------------------------

  /** What `error.error` held: a client-side Error, a string body, an object body
      (with its possibly missing `error` field), or nothing usable. */
  datatype Payload =
    | ClientError(message: string)
    | TextPayload(text: string)
    | ObjectPayload(error: Option<string>)
    | NoPayload

  /** An error reaching `handleError`; `status` is None when the error is not an
      HTTP response at all (an Error thrown inside the pipeline). */
  datatype ApiError = ApiError(status: Option<int>, message: string, payload: Payload)

  /** A template literal's rendering of a possibly undefined number. */
  function StatusText(status: Option<int>): (r: string)
    ensures status.None? ==> r == "undefined"
    ensures status.Some? ==> ParseInt(r) == Some(status.value)
  {
    match status
    case None => "undefined"
    case Some(n) => ParseIntToString(n); IntToString(n)
  }

  /** The payload's own message, when it carries one `handleError` reports. */
  function PayloadMessage(p: Payload): Option<string> {
    match p
    case ClientError(m) => Some(m)
    case TextPayload(t) => Some(t)
    case ObjectPayload(e) => if Truthy(e) then Some(e.value) else None
    case NoPayload => None
  }

  /** `handleError`: the payload's message after 'Error: ' when there is one;
      otherwise the status code and the error's own message. */
  function HandleError(e: ApiError): (r: string)
    ensures IsPrefix("Error", r)
    ensures IsPrefix("Error: ", r) <==> PayloadMessage(e.payload).Some?
    ensures PayloadMessage(e.payload).Some? ==> r[|"Error: "|..] == PayloadMessage(e.payload).value
    ensures PayloadMessage(e.payload).None? ==> IsPrefix("Error Code: " + StatusText(e.status) + "\nMessage: ", r)
    ensures PayloadMessage(e.payload).None? ==> r[|"Error Code: " + StatusText(e.status) + "\nMessage: "|..] == e.message
  {
    match PayloadMessage(e.payload)
    case Some(m) => "Error: " + m
    case None =>
      var r := "Error Code: " + StatusText(e.status) + "\nMessage: " + e.message;
      assert r[..7][5] == ' ';
      r
  }

  /** An Error thrown inside a pipeline and caught by `handleError`: it is not an
      HTTP response, so its status is undefined and it has no payload. */
  function Thrown(message: string): ApiError {
    ApiError(None, message, NoPayload)
  }

  // ---------------------------------------------------------------------------
  // downloadHtmlReport
  // ---------------------------------------------------------------------------

  datatype Artifact = Artifact(artifactName: string, size: int, downloadUrl: string)

  /** The artifact listing; `Artifacts` may be missing from the body. */
  datatype ArtifactResponse = ArtifactResponse(artifacts: Option<seq<Artifact>>, message: string)

  /** Ensures the zip format parameter: kept as is when present, otherwise appended
      with '&' to an existing query or with '?' to start one. */
  function NormaliseZipUrl(u: string): (r: string)
    ensures IsPrefix(u, r)
    ensures Contains(r, ZipMarker)
    ensures Contains(u, ZipMarker) ==> r == u
    ensures !Contains(u, ZipMarker) ==> |r| == |u| + 1 + |ZipMarker| && Contains(r, "?")
    ensures !Contains(u, ZipMarker) ==> r[|u|] == (if Contains(u, "?") then '&' else '?')
  {
    if Contains(u, ZipMarker) then u
    else
      var sep := if Contains(u, "?") then '&' else '?';
      ZipMarkerAppended(u, sep);
      u + [sep] + ZipMarker
  }

  lemma ZipMarkerAppended(u: string, sep: char)
    requires sep == (if Contains(u, "?") then '&' else '?')
    ensures IsPrefix(u, u + [sep] + ZipMarker)
    ensures Contains(u + [sep] + ZipMarker, ZipMarker)
    ensures Contains(u + [sep] + ZipMarker, "?")
  {
    var r := u + [sep] + ZipMarker;
    assert r[..|u|] == u;
    assert r == (u + [sep]) + ZipMarker;
    ContainsSuffix(u + [sep], ZipMarker);
    if Contains(u, "?") {
      ContainsPrefixOf(u, "?", [sep] + ZipMarker);
      assert u + ([sep] + ZipMarker) == r;
    } else {
      assert r[|u|..|u| + 1] == "?";
      ContainsAt(r, "?", |u|);
    }
  }

  lemma NormaliseZipUrlIdempotent(u: string)
    ensures NormaliseZipUrl(NormaliseZipUrl(u)) == NormaliseZipUrl(u)
  {
  }

  /** The first artifact's URL, normalised; a missing or empty listing is an error. */
  function ResolveArtifactUrl(response: ArtifactResponse): (r: Result<string, string>)
    ensures r.Success? <==> response.artifacts.Some? && |response.artifacts.value| > 0
    ensures r.Success? ==> IsPrefix(response.artifacts.value[0].downloadUrl, r.value) && Contains(r.value, ZipMarker)
    ensures r.Success? ==> r.value == NormaliseZipUrl(response.artifacts.value[0].downloadUrl)
    ensures r.Failure? ==> r.error == NoArtifacts
  {
    match response.artifacts
    case None => Failure(NoArtifacts)
    case Some(list) => if |list| == 0 then Failure(NoArtifacts) else Success(NormaliseZipUrl(list[0].downloadUrl))
  }

  /** Only the first artifact's URL matters, and a listing that already points at the
      resolved URL resolves to it again. */
  lemma ResolveArtifactUrlIsStable(response: ArtifactResponse, first: Artifact, rest: seq<Artifact>)
    requires response.artifacts == Some([first] + rest)
    ensures ResolveArtifactUrl(response) == ResolveArtifactUrl(response.(artifacts := Some([first])))
    ensures var again := ResolveArtifactUrl(response).value;
            ResolveArtifactUrl(ArtifactResponse(Some([first.(downloadUrl := again)]), response.message)) == Success(again)
  {
    NormaliseZipUrlIdempotent(first.downloadUrl);
  }

  /** `downloadHtmlReport` given the listing call's outcome: the zip URL, or the
      message `handleError` makes. A missing listing is thrown inside the pipeline,
      so it reaches `handleError` as a status-less error. */
  function DownloadHtmlReport(listing: Result<ArtifactResponse, ApiError>): (r: Result<string, string>)
    ensures listing.Failure? ==> r == Failure(HandleError(listing.error))
    ensures r.Success? ==> listing.Success? && r == ResolveArtifactUrl(listing.value)
    ensures r.Success? ==> Contains(r.value, ZipMarker)
    ensures r.Failure? ==> IsPrefix("Error", r.error)
  {
    match listing
    case Failure(e) => Failure(HandleError(e))
    case Success(response) =>
      match ResolveArtifactUrl(response)
      case Success(u) => Success(u)
      case Failure(m) => Failure(HandleError(Thrown(m)))
  }

  /** A missing listing is reported with an undefined status code. */
  lemma NoArtifactsMessage(message: string)
    ensures DownloadHtmlReport(Success(ArtifactResponse(None, message)))
         == Failure("Error Code: " + "undefined" + "\nMessage: " + NoArtifacts)
  {
    assert ResolveArtifactUrl(ArtifactResponse(None, message)) == Failure(NoArtifacts);
    assert PayloadMessage(NoPayload).None?;
    assert HandleError(Thrown(NoArtifacts)) == "Error Code: " + "undefined" + "\nMessage: " + NoArtifacts;
  }

  // ---------------------------------------------------------------------------
  // downloadFromAzureDevOps
  // ---------------------------------------------------------------------------

  /** A received body: its length in bytes and its text when decoded as UTF-8. */
  datatype Body = Body(byteLength: nat, text: string)

  /** A successful HTTP response: the content-type header and a possibly null body. */
  datatype HttpResponse = HttpResponse(contentType: Option<string>, body: Option<Body>)

  /** An error reaching the download's error handler: an HTTP failure (status 0
      for a network failure) or an Error thrown inside the pipeline (no status). */
  datatype HttpFailure = HttpFailure(status: Option<int>, message: string)

  /** What a download yields: the URL to open for an interactive login, or the file. */
  datatype Transfer = AuthRedirect(url: string) | BlobData(size: nat, mimeType: string)

  /** How a download fails: a login is needed at this URL, or a message to show. */
  datatype DownloadError = AuthRequired(url: string) | FailedWith(message: string)

  /** `getErrorMessage`: a message per known status; a missing or zero status is a network failure. */
  function GetErrorMessage(e: HttpFailure): (r: string)
    ensures e.status == Some(404) ==> r == NotFoundMessage
    ensures e.status == Some(401) ==> r == LoginRequiredMessage
    ensures e.status == Some(403) ==> r == AccessDeniedMessage
    ensures r == NetworkMessage <==> e.status.None? || e.status == Some(0)
    ensures IsPrefix(DownloadFailedPrefix, r) <==> e.status.Some? && e.status.value !in {0, 401, 403, 404}
    ensures IsPrefix(DownloadFailedPrefix, r) ==> r[|DownloadFailedPrefix|..] == e.message
  {
    MessageHeads();
    DifferFirst(DownloadFailedPrefix, NotFoundMessage);
    DifferFirst(DownloadFailedPrefix, LoginRequiredMessage);
    DifferFirst(DownloadFailedPrefix, AccessDeniedMessage);
    DifferFirst(DownloadFailedPrefix, NetworkMessage);
    DifferFirst(NetworkMessage, NotFoundMessage);
    DifferFirst(NetworkMessage, LoginRequiredMessage);
    DifferFirst(NetworkMessage, AccessDeniedMessage);
    if e.status == Some(404) then NotFoundMessage
    else if e.status == Some(401) then LoginRequiredMessage
    else if e.status == Some(403) then AccessDeniedMessage
    else if e.status.None? || e.status == Some(0) then NetworkMessage
    else
      var r := DownloadFailedPrefix + e.message;
      PrefixOfConcat(DownloadFailedPrefix, e.message);
      assert r[0] == DownloadFailedPrefix[0];
      r
  }

  /** `handleError`'s fallback text keeps the error's own message: two errors with
      the same status and different messages are reported differently. */
  lemma HandleErrorKeepsMessage(a: ApiError, b: ApiError)
    requires PayloadMessage(a.payload).None? && PayloadMessage(b.payload).None?
    requires a.status == b.status && a.message != b.message
    ensures HandleError(a) != HandleError(b)
  {
  }

  /** `getErrorMessage`'s 'Download failed: ' text keeps the error's own message. */
  lemma DownloadFailedKeepsMessage(a: HttpFailure, b: HttpFailure)
    requires IsPrefix(DownloadFailedPrefix, GetErrorMessage(a)) && IsPrefix(DownloadFailedPrefix, GetErrorMessage(b))
    requires a.message != b.message
    ensures GetErrorMessage(a) != GetErrorMessage(b)
  {
  }

  lemma MessageHeads()
    ensures DownloadFailedPrefix[0] == 'D' && NetworkMessage[0] == 'N'
    ensures NotFoundMessage[0] == 'A' && LoginRequiredMessage[0] == 'A' && AccessDeniedMessage[0] == 'A'
  {
  }

  /** A login page served as HTML instead of the file. */
  predicate IsLoginPage(contentType: Option<string>, text: string) {
    contentType.Some? && Contains(contentType.value, "text/html")
    && (Contains(Lower(text), "login") || Contains(Lower(text), "sign in"))
  }

  /** The `map` step: a null body throws; a login page becomes an auth redirect;
      anything else is the file, typed by its content type. */
  function ClassifyResponse(url: string, resp: HttpResponse): (r: Result<Transfer, HttpFailure>)
    ensures resp.body.None? <==> r.Failure?
    ensures r.Failure? ==> r.error == HttpFailure(None, EmptyResponse)
    ensures r.Success? && r.value.AuthRedirect? <==> resp.body.Some? && IsLoginPage(resp.contentType, resp.body.value.text)
    ensures r.Success? && r.value.AuthRedirect? ==> r.value.url == url
    ensures r.Success? && r.value.BlobData? ==> r.value.size == resp.body.value.byteLength && r.value.mimeType != ""
  {
    match resp.body
    case None => Failure(HttpFailure(None, EmptyResponse))
    case Some(b) =>
      if IsLoginPage(resp.contentType, b.text) then Success(AuthRedirect(url))
      else Success(BlobData(b.byteLength, OrElse(resp.contentType, OctetStream)))
  }

  /** The `catchError` step: 401 and 403 ask for a login, everything else gets a message. */
  function CatchDownloadError(url: string, e: HttpFailure): (r: DownloadError)
    ensures r.AuthRequired? <==> e.status == Some(401) || e.status == Some(403)
    ensures r.AuthRequired? ==> r.url == url
    ensures r.FailedWith? ==> r.message == GetErrorMessage(e)
  {
    if e.status == Some(401) || e.status == Some(403) then AuthRequired(url)
    else FailedWith(GetErrorMessage(e))
  }

  /** `downloadFromAzureDevOps` as written: the error thrown for a null body passes
      through the same handler as transport failures. */
  function DownloadAsWritten(url: string, response: Result<HttpResponse, HttpFailure>): (r: Result<Transfer, DownloadError>)
    ensures response.Failure? ==> r == Failure(CatchDownloadError(url, response.error))
    ensures response.Success? ==> r == match ClassifyResponse(url, response.value)
                                        case Success(t) => Success(t)
                                        case Failure(e) => Failure(CatchDownloadError(url, e))
  {
    var classified := match response
      case Failure(e) => Failure(e)
      case Success(resp) => ClassifyResponse(url, resp);
    match classified
    case Success(t) => Success(t)
    case Failure(e) => Failure(CatchDownloadError(url, e))
  }

  /** The null-body error has no status, so the handler reports it as a network failure. */
  lemma EmptyBodyReportedAsNetworkError(url: string, contentType: Option<string>)
    ensures DownloadAsWritten(url, Success(HttpResponse(contentType, None))) == Failure(FailedWith(NetworkMessage))
    ensures NetworkMessage != EmptyResponse
  {
  }

  /** `downloadFromAzureDevOps` with the null-body error reported by its own message. */
  function Download(url: string, response: Result<HttpResponse, HttpFailure>): (r: Result<Transfer, DownloadError>)
    ensures response.Success? && response.value.body.None? ==> r == Failure(FailedWith(EmptyResponse))
    ensures response.Failure? ==> r == Failure(CatchDownloadError(url, response.error))
    ensures response.Success? && response.value.body.Some? ==> r.Success? && r.value == ClassifyResponse(url, response.value).value
    ensures r.Failure? && r.error.AuthRequired? ==> response.Failure? && r.error.url == url
  {
    match response
    case Failure(e) => Failure(CatchDownloadError(url, e))
    case Success(resp) =>
      match ClassifyResponse(url, resp)
      case Success(t) => Success(t)
      case Failure(e) => Failure(FailedWith(e.message))
  }

  /** The correction changes nothing but the null-body case. */
  lemma DownloadAgreesExceptEmptyBody(url: string, response: Result<HttpResponse, HttpFailure>)
    requires !(response.Success? && response.value.body.None?)
    ensures Download(url, response) == DownloadAsWritten(url, response)
  {
  }
}

=== FILE: results_state.dfy ===
/** The result-summary broadcaster (`TestResultsStateService`): it recomputes a
    summary from a run's step results, publishes it to subscribers, remembers the
    last run and project, and mirrors the summary to storage under `lastTestResults`
    so that a page reload can republish it.

    The subject is modelled as the log of values pushed to it after construction
    (its initial value is null), so "nothing was published" is observable. */
module ResultsState {
  import opened Common
  import opened KeyValue
  import opened TestModels

  const StorageKey := "lastTestResults"

  datatype FeatureSummary = FeatureSummary(featureName: string, totalSteps: nat, passedSteps: nat, failedSteps: nat)

  datatype Summary = Summary(
    totalFeatures: nat,
    totalSteps: nat,
    passedSteps: nat,
    failedSteps: nat,
    features: seq<FeatureSummary>,
    recentResults: seq<Step>,
    runId: int,
    projectName: string,
    buildNumber: string)

  datatype State = State(
    published: seq<Option<Summary>>,
    lastRunId: Option<int>,
    lastProjectName: Option<string>,
    store: Store<Summary>)

  /** The service as constructed over a given storage. */
  function Initial(store: Store<Summary>): State {
    State([], None, None, store)
  }

  /** The subject's current value: the last value pushed, or the initial null. */
  function Current(st: State): Option<Summary> {
    if |st.published| == 0 then None else st.published[|st.published| - 1]
  }

  // ---------------------------------------------------------------------------
  // Distinct features, in first-occurrence order
  // ---------------------------------------------------------------------------

  function Features(steps: seq<Step>): (r: seq<string>)
    ensures |r| == |steps|
    ensures forall i :: 0 <= i < |steps| ==> r[i] == steps[i].feature
  {
    if |steps| == 0 then [] else Features(steps[..|steps| - 1]) + [steps[|steps| - 1].feature]
  }

  predicate NoDuplicates(xs: seq<string>) {
    forall i, j :: 0 <= i < j < |xs| ==> xs[i] != xs[j]
  }

  /** The values of xs without repetition, each where it first occurs. */
  function Distinct(xs: seq<string>): (d: seq<string>)
    ensures forall x :: x in d <==> x in xs
    ensures NoDuplicates(d)
  {
    if |xs| == 0 then []
    else
      var d := Distinct(xs[..|xs| - 1]);
      var x := xs[|xs| - 1];
      assert xs == xs[..|xs| - 1] + [x];
      if x in d then d else d + [x]
  }

  lemma {:induction false} NoDuplicatesCardinality(d: seq<string>)
    requires NoDuplicates(d)
    ensures |set x | x in d| == |d|
  {
    if |d| > 0 {
      var n := |d| - 1;
      NoDuplicatesCardinality(d[..n]);
      assert d == d[..n] + [d[n]];
      assert (set x | x in d) == (set x | x in d[..n]) + {d[n]};
      assert d[n] !in d[..n];
    }
  }

  // ---------------------------------------------------------------------------
  // Per-feature grouping (the Map built by calculateFeatureSummaries)
  // ---------------------------------------------------------------------------

  datatype Group = Group(feature: string, steps: seq<Step>)

  /** The steps of one feature, in input order. */
  function FeatureSteps(steps: seq<Step>, feature: string): (r: seq<Step>)
    ensures |r| <= |steps|
  {
    if |steps| == 0 then []
    else
      var rest := FeatureSteps(steps[..|steps| - 1], feature);
      if steps[|steps| - 1].feature == feature then rest + [steps[|steps| - 1]] else rest
  }

  function IndexOfFeature(groups: seq<Group>, feature: string): (r: Option<nat>)
    ensures r.Some? ==> r.value < |groups| && groups[r.value].feature == feature
    ensures r.None? ==> forall j :: 0 <= j < |groups| ==> groups[j].feature != feature
  {
    if |groups| == 0 then None
    else if groups[0].feature == feature then Some(0)
    else
      match IndexOfFeature(groups[1..], feature)
      case Some(i) => Some(i + 1)
      case None => None
  }

  /** One iteration of the `forEach`: append to the feature's group, creating it if new. */
  function AddToGroups(groups: seq<Group>, r: Step): seq<Group> {
    match IndexOfFeature(groups, r.feature)
    case Some(i) => groups[i := Group(groups[i].feature, groups[i].steps + [r])]
    case None => groups + [Group(r.feature, [r])]
  }

  function GroupByFeature(steps: seq<Step>): seq<Group> {
    if |steps| == 0 then [] else AddToGroups(GroupByFeature(steps[..|steps| - 1]), steps[|steps| - 1])
  }

  function GroupNames(groups: seq<Group>): (r: seq<string>)
    ensures |r| == |groups|
    ensures forall i :: 0 <= i < |groups| ==> r[i] == groups[i].feature
  {
    if |groups| == 0 then [] else GroupNames(groups[..|groups| - 1]) + [groups[|groups| - 1].feature]
  }

  lemma GroupNamesAppend(groups: seq<Group>, g: Group)
    ensures GroupNames(groups + [g]) == GroupNames(groups) + [g.feature]
  {
    assert (groups + [g])[..|groups|] == groups;
  }

  /** The groups are the distinct features, in first-occurrence order. */
  lemma {:induction false} GroupNamesSpec(steps: seq<Step>)
    ensures GroupNames(GroupByFeature(steps)) == Distinct(Features(steps))
  {
    if |steps| > 0 {
      var n := |steps| - 1;
      var prefix := steps[..n];
      var r := steps[n];
      GroupNamesSpec(prefix);
      var g := GroupByFeature(prefix);
      var d := Distinct(Features(prefix));
      assert Features(steps)[..n] == Features(prefix);
      assert Features(steps)[n] == r.feature;
      match IndexOfFeature(g, r.feature)
      case Some(k) =>
        assert GroupNames(g)[k] == r.feature;
        assert Distinct(Features(steps)) == d;
      case None =>
        assert r.feature !in GroupNames(g);
        assert Distinct(Features(steps)) == d + [r.feature];
        GroupNamesAppend(g, Group(r.feature, [r]));
    }
  }

  /** One more step joins its feature's steps and no other feature's. */
  lemma FeatureStepsAppend(prefix: seq<Step>, r: Step, feature: string)
    ensures FeatureSteps(prefix + [r], feature) == FeatureSteps(prefix, feature) + (if r.feature == feature then [r] else [])
  {
    assert (prefix + [r])[..|prefix|] == prefix;
  }

  /** One iteration of the grouping keeps every group equal to its feature's steps. */
  lemma AddToGroupsKeepsSteps(g: seq<Group>, prefix: seq<Step>, r: Step)
    requires NoDuplicates(GroupNames(g))
    requires forall i :: 0 <= i < |g| ==> g[i].steps == FeatureSteps(prefix, g[i].feature)
    requires IndexOfFeature(g, r.feature).None? ==> FeatureSteps(prefix, r.feature) == []
    ensures forall i :: 0 <= i < |AddToGroups(g, r)| ==>
              AddToGroups(g, r)[i].steps == FeatureSteps(prefix + [r], AddToGroups(g, r)[i].feature)
  {
    var g' := AddToGroups(g, r);
    forall i | 0 <= i < |g'|
      ensures g'[i].steps == FeatureSteps(prefix + [r], g'[i].feature)
    {
      FeatureStepsAppend(prefix, r, g'[i].feature);
      match IndexOfFeature(g, r.feature)
      case Some(k) =>
        if i != k {
          assert GroupNames(g)[i] != GroupNames(g)[k];
        }
      case None =>
    }
  }

  /** A feature without a group has no steps. */
  lemma UngroupedFeatureHasNoSteps(prefix: seq<Step>, feature: string)
    requires IndexOfFeature(GroupByFeature(prefix), feature).None?
    ensures FeatureSteps(prefix, feature) == []
  {
    GroupNamesSpec(prefix);
    assert feature !in GroupNames(GroupByFeature(prefix));
    NoStepsOfAbsentFeature(prefix, feature);
  }

  /** Each group holds exactly its feature's steps, in input order. */
  lemma {:induction false} GroupStepsSpec(steps: seq<Step>)
    ensures forall i :: 0 <= i < |GroupByFeature(steps)| ==>
              GroupByFeature(steps)[i].steps == FeatureSteps(steps, GroupByFeature(steps)[i].feature)
  {
    if |steps| > 0 {
      var n := |steps| - 1;
      var prefix := steps[..n];
      var r := steps[n];
      assert steps == prefix + [r];
      var g := GroupByFeature(prefix);
      GroupStepsSpec(prefix);
      GroupNamesSpec(prefix);
      if IndexOfFeature(g, r.feature).None? {
        UngroupedFeatureHasNoSteps(prefix, r.feature);
      }
      AddToGroupsKeepsSteps(g, prefix, r);
      assert GroupByFeature(steps) == AddToGroups(g, r);
    }
  }

  lemma {:induction false} NoStepsOfAbsentFeature(steps: seq<Step>, feature: string)
    requires feature !in Features(steps)
    ensures FeatureSteps(steps, feature) == []
  {
    if |steps| > 0 {
      var n := |steps| - 1;
      assert Features(steps)[..n] == Features(steps[..n]);
      assert Features(steps)[n] == steps[n].feature;
      NoStepsOfAbsentFeature(steps[..n], feature);
    }
  }

  function GroupSizes(groups: seq<Group>): nat {
    if |groups| == 0 then 0 else GroupSizes(groups[..|groups| - 1]) + |groups[|groups| - 1].steps|
  }

  lemma {:induction false} GroupSizesUpdate(groups: seq<Group>, k: nat, g: Group)
    requires k < |groups|
    ensures GroupSizes(groups[k := g]) == GroupSizes(groups) - |groups[k].steps| + |g.steps|
  {
    var n := |groups| - 1;
    if k == n {
      assert groups[k := g][..n] == groups[..n];
    } else {
      assert groups[k := g][..n] == groups[..n][k := g];
      GroupSizesUpdate(groups[..n], k, g);
    }
  }

  /** Every step lands in exactly one group. */
  lemma {:induction false} GroupSizesTotal(steps: seq<Step>)
    ensures GroupSizes(GroupByFeature(steps)) == |steps|
  {
    if |steps| > 0 {
      var n := |steps| - 1;
      var g := GroupByFeature(steps[..n]);
      GroupSizesTotal(steps[..n]);
      match IndexOfFeature(g, steps[n].feature)
      case Some(k) =>
        GroupSizesUpdate(g, k, Group(g[k].feature, g[k].steps + [steps[n]]));
      case None =>
        var g' := g + [Group(steps[n].feature, [steps[n]])];
        assert g'[..|g|] == g;
    }
  }

  // ---------------------------------------------------------------------------
  // Feature summaries and the run summary
  // ---------------------------------------------------------------------------

  function SummarizeGroup(g: Group): FeatureSummary {
    FeatureSummary(g.feature, |g.steps|, CountStatus(g.steps, Passed), CountStatus(g.steps, Failed))
  }

  function SummarizeGroups(groups: seq<Group>): (fs: seq<FeatureSummary>)
    ensures |fs| == |groups|
    ensures forall i :: 0 <= i < |groups| ==> fs[i] == SummarizeGroup(groups[i])
  {
    if |groups| == 0 then [] else SummarizeGroups(groups[..|groups| - 1]) + [SummarizeGroup(groups[|groups| - 1])]
  }

  function TotalOfFeatures(fs: seq<FeatureSummary>): nat {
    if |fs| == 0 then 0 else TotalOfFeatures(fs[..|fs| - 1]) + fs[|fs| - 1].totalSteps
  }

  lemma {:induction false} TotalOfSummarizedGroups(groups: seq<Group>)
    ensures TotalOfFeatures(SummarizeGroups(groups)) == GroupSizes(groups)
  {
    if |groups| > 0 {
      var n := |groups| - 1;
      TotalOfSummarizedGroups(groups[..n]);
      assert SummarizeGroups(groups)[..n] == SummarizeGroups(groups[..n]);
    }
  }

  /** `calculateFeatureSummaries`: one entry per distinct feature, in first-occurrence
      order, counting that feature's steps; the per-feature totals add up to all steps. */
  function FeatureSummaries(steps: seq<Step>): (fs: seq<FeatureSummary>)
    ensures |fs| == |Distinct(Features(steps))|
    ensures forall i :: 0 <= i < |fs| ==>
              var f := Distinct(Features(steps))[i];
              var mine := FeatureSteps(steps, f);
              fs[i] == FeatureSummary(f, |mine|, CountStatus(mine, Passed), CountStatus(mine, Failed))
    ensures TotalOfFeatures(fs) == |steps|
  {
    var groups := GroupByFeature(steps);
    GroupNamesSpec(steps);
    GroupStepsSpec(steps);
    GroupSizesTotal(steps);
    TotalOfSummarizedGroups(groups);
    SummarizeGroups(groups)
  }

  /** `runId?.toString() || '0'`. */
  function BuildNumber(runId: Option<int>): string {
    match runId
    case None => "0"
    case Some(r) => IntToString(r)
  }

  /** The summary `updateTestResults` builds (pass rate and timestamps are not modelled). */
  function Summarize(results: seq<Step>, runId: Option<int>, projectName: Option<string>): (s: Summary)
    ensures s.totalSteps == |results| && s.recentResults == results
    ensures s.passedSteps == CountStatus(results, Passed) && s.failedSteps == CountStatus(results, Failed)
    ensures s.passedSteps + s.failedSteps <= s.totalSteps
    ensures s.totalFeatures == |s.features| == |set r | r in results :: r.feature|
    ensures TotalOfFeatures(s.features) == s.totalSteps
    ensures s.runId == runId.GetOr(0)
    ensures s.projectName == OrElse(projectName, "")
  {
    var distinct := Distinct(Features(results));
    assert (set x | x in distinct) == (set r | r in results :: r.feature) by {
      forall x ensures x in distinct <==> x in (set r | r in results :: r.feature) {
        if x in Features(results) {
          var i :| 0 <= i < |results| && Features(results)[i] == x;
          assert results[i] in results;
        }
        if x in (set r | r in results :: r.feature) {
          var r :| r in results && r.feature == x;
          var i :| 0 <= i < |results| && results[i] == r;
          assert Features(results)[i] == x;
        }
      }
    }
    NoDuplicatesCardinality(distinct);
    DistinctStatusCountsBounded(results, Passed, Failed);
    Summary(
      totalFeatures := |set r | r in results :: r.feature|,
      totalSteps := |results|,
      passedSteps := CountStatus(results, Passed),
      failedSteps := CountStatus(results, Failed),
      features := FeatureSummaries(results),
      recentResults := results,
      runId := runId.GetOr(0),
      projectName := OrElse(projectName, ""),
      buildNumber := BuildNumber(runId))
  }

  /** The summary kept in storage, if the stored text parses. */
  function StoredSummary(store: Store<Summary>): Option<Summary> {
    match GetItem(store, StorageKey)
    case Some(Doc(s)) => Some(s)
    case _ => None
  }

  /** `updateTestResults`: an empty list changes nothing; otherwise the new summary
      is published, remembered as the last run and mirrored to storage. */
  function UpdateTestResults(st: State, results: seq<Step>, runId: Option<int>, projectName: Option<string>): (st': State)
    ensures |results| == 0 ==> st' == st
    ensures |results| > 0 ==>
              var s := Summarize(results, runId, projectName);
              && st'.published == st.published + [Some(s)]
              && Current(st') == Some(s)
              && GetLastRunInfo(st') == (Some(s.runId), Some(s.projectName))
              && StoredSummary(st'.store) == Some(s)
              && (forall k :: k != StorageKey ==> GetItem(st'.store, k) == GetItem(st.store, k))
  {
    if |results| == 0 then st
    else
      var s := Summarize(results, runId, projectName);
      State(st.published + [Some(s)], Some(s.runId), Some(s.projectName), SetDoc(st.store, StorageKey, s))
  }

  /** `getLastRunInfo`. */
  function GetLastRunInfo(st: State): (Option<int>, Option<string>) {
    (st.lastRunId, st.lastProjectName)
  }

  /** `clearTestResults`: publishes null, forgets the last run and drops the stored copy. */
  function ClearTestResults(st: State): (st': State)
    ensures Current(st') == None && |st'.published| == |st.published| + 1
    ensures GetLastRunInfo(st') == (None, None)
    ensures StoredSummary(st'.store) == None && GetItem(st'.store, StorageKey) == None
    ensures forall k :: k != StorageKey ==> GetItem(st'.store, k) == GetItem(st.store, k)
  {
    State(st.published + [None], None, None, Remove(st.store, StorageKey))
  }

  /** `restoreFromStorage`: republishes a summary recomputed from the stored results,
      run id and project name. A missing or empty entry, text that does not parse, and
      a stored summary with no results all leave the service untouched. */
  function RestoreFromStorage(st: State): (st': State)
    ensures StoredSummary(st.store).None? ==> st' == st
    ensures StoredSummary(st.store).Some? && |StoredSummary(st.store).value.recentResults| == 0 ==> st' == st
    ensures StoredSummary(st.store).Some? && |StoredSummary(st.store).value.recentResults| > 0 ==>
              var stored := StoredSummary(st.store).value;
              Current(st') == Some(Summarize(stored.recentResults, Some(stored.runId), Some(stored.projectName)))
  {
    match GetItem(st.store, StorageKey)
    case None => st
    case Some(Text(_)) => st
    case Some(Doc(stored)) =>
      if |stored.recentResults| > 0 then
        UpdateTestResults(st, stored.recentResults, Some(stored.runId), Some(stored.projectName))
      else st
  }

  /** Recomputing a summary from its own results, run id and project name gives it back. */
  lemma {:induction false} SummarizeIsStable(results: seq<Step>, runId: Option<int>, projectName: Option<string>)
    ensures var s := Summarize(results, runId, projectName);
            Summarize(s.recentResults, Some(s.runId), Some(s.projectName)) == s
  {
    var s := Summarize(results, runId, projectName);
    var s' := Summarize(s.recentResults, Some(s.runId), Some(s.projectName));
    assert s'.projectName == s.projectName;
    match runId
    case None =>
      assert NatToString(0) == "0";
      assert s'.buildNumber == IntToString(0) == "0" == s.buildNumber;
    case Some(r) =>
      assert s'.buildNumber == s.buildNumber;
  }

  /** A reload after an update republishes exactly the summary that was on screen. */
  lemma ReloadRepublishesSameSummary(st: State, results: seq<Step>, runId: Option<int>, projectName: Option<string>)
    requires |results| > 0
    ensures var updated := UpdateTestResults(st, results, runId, projectName);
            var reloaded := RestoreFromStorage(Initial(updated.store));
            Current(reloaded) == Current(updated) && GetLastRunInfo(reloaded) == GetLastRunInfo(updated)
  {
    SummarizeIsStable(results, runId, projectName);
  }

  /** After clearing, a reload has nothing to restore. */
  lemma ReloadAfterClearRestoresNothing(st: State)
    ensures Current(RestoreFromStorage(Initial(ClearTestResults(st).store))) == None
  {
  }
}

=== FILE: short_name.dfy ===
/** The `shortName` pipe of the shared components: avatar initials. An empty name
    gives nothing; a name without a space gives its first two letters; otherwise the
    first letters of the first and the last space-separated piece. Letters are
    upper-cased (ASCII only, see the README). */
module SharedShortName {
  import opened Common

  function Min(a: int, b: int): int {
    if a < b then a else b
  }

  function ShortName(value: string): (r: string)
    ensures |r| <= 2
    ensures value == "" ==> r == ""
    ensures ' ' !in r
    ensures Upper(r) == r
    ensures ' ' !in value ==> r == Upper(value[..Min(2, |value|)])
    ensures ' ' in value ==> var parts := Split(value, ' ');
                             r == Upper(CharAt0(parts[0]) + CharAt0(parts[|parts| - 1]))
  {
    if value == "" then ""
    else
      var parts := Split(value, ' ');
      var picked := if |parts| == 1 then value[..Min(2, |value|)] else CharAt0(parts[0]) + CharAt0(parts[|parts| - 1]);
      assert ' ' !in picked by {
        if |parts| == 1 {
          assert forall i :: 0 <= i < |picked| ==> picked[i] == value[i];
        }
      }
      UpperIdempotent(picked);
      UpperSpaceFree(picked);
      Upper(picked)
  }

  /** Two space-free, non-empty words give their two initials. */
  lemma TwoWords(first: string, last: string)
    requires |first| > 0 && |last| > 0 && ' ' !in first && ' ' !in last
    ensures ShortName(first + " " + last) == Upper([first[0], last[0]])
  {
    SplitLastPart(first, ' ', last);
    assert first + " " + last == first + [' '] + last;
  }

  /** However many pieces lie between them, only the first and the last piece give
      initials; an empty first or last piece gives none. */
  lemma ManyWords(first: string, middle: string, last: string)
    requires ' ' !in first && ' ' !in last
    ensures ShortName(first + " " + middle + " " + last) == Upper(CharAt0(first) + CharAt0(last))
  {
    var value := first + " " + middle + " " + last;
    var init := first + " " + middle;
    assert init == first + [' '] + middle;
    assert value == init + [' '] + last;
    SplitFirstPart(first, ' ', middle);
    SplitLastPart(init, ' ', last);
    assert value[|init|] == ' ';
  }

  /** "John Doe" becomes "JD". */
  lemma JohnDoe()
    ensures ShortName("John Doe") == "JD"
  {
    assert "John Doe" == "John" + " " + "Doe";
    TwoWords("John", "Doe");
  }

  /** Initials are already short names: applying the pipe again changes nothing. */
  lemma Idempotent(value: string)
    ensures ShortName(ShortName(value)) == ShortName(value)
  {
    var r := ShortName(value);
    assert r[..Min(2, |r|)] == r;
  }

  /** A space at either end makes an empty first or last piece, whose initial is
      empty: a name padded with a space on each side has no initials at all. */
  lemma PaddedNameLosesInitials(name: string)
    ensures ShortName([' '] + name + [' ']) == ""
  {
    var padded := [' '] + name + [' '];
    SplitLeadingSeparator(' ', name + [' ']);
    assert padded == [' '] + (name + [' ']);
    assert padded[..|padded| - 1] == [' '] + name;
    SplitLeadingSeparator(' ', name);
  }
}

/** The `shortName` pipe of the dashboard: the name is trimmed before it is split on
    spaces, and a single word gives only its first letter. */
module DashboardShortName {
  import opened Common
  import Shared = SharedShortName

  function ShortName(value: string): (r: string)
    ensures |r| <= 2
    ensures value == "" ==> r == ""
    ensures ' ' !in r
    ensures Upper(r) == r
    ensures ' ' !in Trim(value) ==> r == Upper(CharAt0(Trim(value)))
  {
    if value == "" then ""
    else
      var names := Split(Trim(value), ' ');
      var picked := if |names| == 1 then CharAt0(names[0]) else CharAt0(names[0]) + CharAt0(names[|names| - 1]);
      UpperIdempotent(picked);
      UpperSpaceFree(picked);
      Upper(picked)
  }

  /** On a name with no white space at its ends and a space inside, both pipes give
      the same initials. */
  lemma AgreesWithSharedOnTrimmedNames(value: string)
    requires Trim(value) == value && ' ' in value
    ensures ShortName(value) == Shared.ShortName(value)
  {
  }

  /** Upper-casing keeps a prefix a prefix. */
  lemma UpperKeepsPrefix(a: string, b: string)
    requires IsPrefix(a, b)
    ensures IsPrefix(Upper(a), Upper(b))
  {
    assert forall i :: 0 <= i < |a| ==> Upper(b)[i] == UpperChar(b[i]) == UpperChar(a[i]);
    assert Upper(b)[..|a|] == Upper(a);
  }

  /** On a trimmed single word the dashboard gives one letter where the shared pipe
      gives two: its result is a prefix of the shared one. */
  lemma SingleWordIsPrefixOfShared(value: string)
    requires Trim(value) == value && ' ' !in value
    ensures IsPrefix(ShortName(value), Shared.ShortName(value))
    ensures |value| >= 2 ==> |ShortName(value)| == 1 && |Shared.ShortName(value)| == 2
  {
    SingleWordForms(value);
    UpperKeepsPrefix(CharAt0(value), value[..Shared.Min(2, |value|)]);
  }

  /** What each pipe takes from a trimmed single word before upper-casing it. */
  lemma SingleWordForms(value: string)
    requires Trim(value) == value && ' ' !in value
    ensures ShortName(value) == Upper(CharAt0(value))
    ensures Shared.ShortName(value) == Upper(value[..Shared.Min(2, |value|)])
    ensures IsPrefix(CharAt0(value), value[..Shared.Min(2, |value|)])
  {
    if value != "" {
      assert value[..Shared.Min(2, |value|)][..1] == CharAt0(value);
    }
  }

  lemma JohnDiffers()
    ensures ShortName("John") == "J" && Shared.ShortName("John") == "JO"
  {
    var john := "John";
    assert john[0] == 'J' && john[1] == 'o' && john[2] == 'h' && john[3] == 'n';
    assert ' ' !in john;
    assert !IsJsSpace(john[0]) && !IsJsSpace(john[3]);
    assert Trim(john) == john;
    assert CharAt0(john) == "J";
    assert Upper("J") == "J";
    assert john[..Shared.Min(2, |john|)] == "Jo";
    var up := Upper("Jo");
    assert up[0] == 'J' && up[1] == 'O';
    assert up == "JO";
  }

  /** One space on each side of a name that has no white space at its ends is trimmed. */
  lemma TrimPadded(name: string)
    requires |name| > 0 && !IsJsSpace(name[0]) && !IsJsSpace(name[|name| - 1])
    ensures Trim([' '] + name + [' ']) == name
  {
    var padded := [' '] + name + [' '];
    assert padded[1..] == name + [' '];
    assert TrimStart(padded) == name + [' '];
    assert (name + [' '])[..|name|] == name;
  }

  /** For a name with a space inside, the dashboard pipe is the shared pipe applied
      to the trimmed name. */
  lemma SharedAfterTrim(value: string)
    requires ' ' in Trim(value)
    ensures ShortName(value) == Shared.ShortName(Trim(value))
  {
  }

  /** The same name padded with a space on each side keeps its initials. */
  lemma PaddingIgnored(name: string)
    requires |name| > 0 && !IsJsSpace(name[0]) && !IsJsSpace(name[|name| - 1])
    ensures ShortName([' '] + name + [' ']) == ShortName(name)
  {
    TrimPadded(name);
  }

  /** " John Doe " keeps "JD" here, where the shared pipe gives nothing. */
  lemma PaddedJohnDoe(name: string)
    requires name == "John Doe"
    ensures ShortName([' '] + name + [' ']) == "JD"
    ensures Shared.ShortName([' '] + name + [' ']) == ""
  {
    assert name[0] == 'J' && name[|name| - 1] == 'e' && name[4] == ' ';
    PaddingIgnored(name);
    AgreesWithSharedOnTrimmedNames(name);
    Shared.JohnDoe();
    Shared.PaddedNameLosesInitials(name);
  }
}

=== FILE: test_history.dfy ===
/** The test history kept by `TestResultsService`: a log of past runs, published
    on a subject and mirrored in storage under `testHistory`. A fetched summary
    appends one entry and keeps the log at 100 entries; a completed pipeline status
    appends one entry without that cap. The trend figures start from a guard on
    the history's length and look at its last ten entries. */
module TestHistory {
  import opened Common
  import opened KeyValue

  const HistoryKey := "testHistory"
  const Capacity := 100
  const TrendWindow := 10
  const UnknownBranch := "unknown"

  /** `TestHistoryEntry` without its timestamp and pass rate. */
  datatype Entry = Entry(totalTests: int, buildNumber: string, branch: string)

  /** The parts of a fetched `TestResultsSummary` the history reads. */
  datatype FetchedSummary = FetchedSummary(totalSteps: int, buildNumber: string, branch: Option<string>)

  datatype TestsSummary = TestsSummary(total: int, passed: int, failed: int, skipped: int)
  datatype CompletedRun = CompletedRun(runId: int, status: string, testsSummary: TestsSummary)

  /** `PipelineStatus` without its times. */
  datatype PipelineStatus = PipelineStatus(
    isRunning: bool,
    currentStage: Option<string>,
    progress: Option<int>,
    lastCompletedRun: Option<CompletedRun>)

  const InitialStatus := PipelineStatus(false, None, Some(0), None)

  /** The service: the values published on the history and status subjects, and storage. */
  datatype Service = Service(histories: seq<seq<Entry>>, statuses: seq<PipelineStatus>, store: Store<seq<Entry>>)

  function History(svc: Service): seq<Entry> {
    if |svc.histories| == 0 then [] else svc.histories[|svc.histories| - 1]
  }

  function Status(svc: Service): PipelineStatus {
    if |svc.statuses| == 0 then InitialStatus else svc.statuses[|svc.statuses| - 1]
  }

  /** The stored history as `JSON.parse` would read it: missing or empty text is
      skipped, a document is read back, any other text makes the parse throw. */
  function StoredHistory(store: Store<seq<Entry>>): (r: Result<Option<seq<Entry>>, string>)
    ensures GetItem(store, HistoryKey).None? ==> r == Success(None)
    ensures r.Success? && r.value.Some? <==> GetItem(store, HistoryKey).Some? && GetItem(store, HistoryKey).value.Doc?
    ensures r.Failure? <==> GetItem(store, HistoryKey).Some? && GetItem(store, HistoryKey).value.Text?
                            && GetItem(store, HistoryKey).value.raw != ""
  {
    match GetItem(store, HistoryKey)
    case None => Success(None)
    case Some(Text(raw)) => if raw == "" then Success(None) else Failure("JSON parse error")
    case Some(Doc(h)) => Success(Some(h))
  }

  /** The constructor with `loadTestHistory`: a stored history is published; an
      unparsable one makes construction fail. */
  function Load(store: Store<seq<Entry>>): (r: Result<Service, string>)
    ensures r.Failure? <==> StoredHistory(store).Failure?
    ensures r.Success? ==> r.value.store == store && Status(r.value) == InitialStatus
    ensures r.Success? && StoredHistory(store) == Success(None) ==> History(r.value) == []
    ensures r.Success? && GetItem(store, HistoryKey).Some? && GetItem(store, HistoryKey).value.Doc? ==>
              History(r.value) == GetItem(store, HistoryKey).value.value
  {
    match StoredHistory(store)
    case Failure(e) => Failure(e)
    case Success(None) => Success(Service([[]], [InitialStatus], store))
    case Success(Some(h)) => Success(Service([[], h], [InitialStatus], store))
  }

  /** `saveTestHistory`: the same list is stored and published. */
  function SaveTestHistory(svc: Service, h: seq<Entry>): (r: Service)
    ensures History(r) == h
    ensures StoredHistory(r.store) == Success(Some(h))
    ensures forall k :: k != HistoryKey ==> GetItem(r.store, k) == GetItem(svc.store, k)
    ensures r.statuses == svc.statuses
  {
    Service(svc.histories + [h], svc.statuses, SetDoc(svc.store, HistoryKey, h))
  }

  /** A history saved and then loaded afresh is the same history. */
  lemma SaveThenLoad(svc: Service, h: seq<Entry>)
    ensures Load(SaveTestHistory(svc, h).store).Success?
    ensures History(Load(SaveTestHistory(svc, h).store).value) == h
  {
  }

  /** The entry for a fetched summary; a missing or empty branch is 'unknown'. */
  function SummaryEntry(s: FetchedSummary): (e: Entry)
    ensures e.totalTests == s.totalSteps && e.buildNumber == s.buildNumber
    ensures e.branch == OrElse(s.branch, UnknownBranch) && e.branch != ""
  {
    Entry(s.totalSteps, s.buildNumber, OrElse(s.branch, UnknownBranch))
  }

  /** Appends an entry, dropping the oldest when the list then exceeds the capacity. */
  function AppendCapped(h: seq<Entry>, e: Entry): (r: seq<Entry>)
    ensures |r| > 0 && r[|r| - 1] == e
    ensures |r| == if |h| < Capacity then |h| + 1 else |h|
    ensures r == (h + [e])[|h| + 1 - |r|..]
    ensures |h| <= Capacity ==> |r| <= Capacity
  {
    var appended := h + [e];
    if |appended| > Capacity then appended[1..] else appended
  }

  /** The history update made when a summary is fetched (`getTestResults`). */
  function OnFetchedSummary(svc: Service, s: FetchedSummary): (r: Service)
    ensures History(r) == AppendCapped(History(svc), SummaryEntry(s))
    ensures StoredHistory(r.store) == Success(Some(History(r)))
    ensures r.statuses == svc.statuses
  {
    SaveTestHistory(svc, AppendCapped(History(svc), SummaryEntry(s)))
  }

  /** A history within capacity stays within capacity however many summaries arrive. */
  lemma {:induction false} FetchesStayWithinCapacity(svc: Service, summaries: seq<FetchedSummary>)
    requires |History(svc)| <= Capacity
    ensures |History(FetchAll(svc, summaries))| <= Capacity
  {
    if |summaries| > 0 {
      var n := |summaries| - 1;
      FetchesStayWithinCapacity(svc, summaries[..n]);
    }
  }

  /** Several fetches in order. */
  function FetchAll(svc: Service, summaries: seq<FetchedSummary>): Service {
    if |summaries| == 0 then svc
    else OnFetchedSummary(FetchAll(svc, summaries[..|summaries| - 1]), summaries[|summaries| - 1])
  }

  /** The entry for a completed run; its build number is the run id's text. */
  function RunEntry(run: CompletedRun): (e: Entry)
    ensures e.totalTests == run.testsSummary.total && e.branch == UnknownBranch
    ensures ParseInt(e.buildNumber) == Some(run.runId)
  {
    ParseIntToString(run.runId);
    Entry(run.testsSummary.total, IntToString(run.runId), UnknownBranch)
  }

  /** `updatePipelineStatus`: a finished status with a completed run appends its
      entry (with no cap); the status is published in every case. */
  function UpdatePipelineStatus(svc: Service, status: PipelineStatus): (r: Service)
    ensures Status(r) == status
    ensures !status.isRunning && status.lastCompletedRun.Some? ==>
              History(r) == History(svc) + [RunEntry(status.lastCompletedRun.value)]
              && StoredHistory(r.store) == Success(Some(History(r)))
    ensures status.isRunning || status.lastCompletedRun.None? ==> r.histories == svc.histories && r.store == svc.store
  {
    var saved :=
      if !status.isRunning && status.lastCompletedRun.Some? then
        SaveTestHistory(svc, History(svc) + [RunEntry(status.lastCompletedRun.value)])
      else svc;
    saved.(statuses := saved.statuses + [status])
  }

  /** Unlike a fetch, a completed status can grow the history past its capacity. */
  lemma StatusUpdateIgnoresCapacity(svc: Service, run: CompletedRun)
    requires |History(svc)| == Capacity
    ensures |History(UpdatePipelineStatus(svc, PipelineStatus(false, None, None, Some(run))))| == Capacity + 1
  {
  }

  // ---------------------------------------------------------------------------
  // Trends
  // ---------------------------------------------------------------------------

  /** `history.slice(-10)`: the last ten entries, or all of them when there are fewer. */
  function Recent(h: seq<Entry>): (r: seq<Entry>)
    ensures |r| == if |h| < TrendWindow then |h| else TrendWindow
    ensures r == h[|h| - |r|..]
  {
    if |h| < TrendWindow then h else h[|h| - TrendWindow..]
  }

  /** `calculateTrend` before its floating-point step: zero below two values,
      otherwise the relative change from the first value to the last. */
  datatype Trend = NoTrend | Change(first: int, last: int)

  function CalculateTrend(values: seq<int>): (t: Trend)
    ensures |values| < 2 <==> t == NoTrend
    ensures |values| >= 2 ==> t == Change(values[0], values[|values| - 1])
  {
    if |values| < 2 then NoTrend else Change(values[0], values[|values| - 1])
  }

  function TotalsOf(h: seq<Entry>): (r: seq<int>)
    ensures |r| == |h| && forall i :: 0 <= i < |h| ==> r[i] == h[i].totalTests
  {
    seq(|h|, i requires 0 <= i < |h| => h[i].totalTests)
  }

  /** The total-tests trend of `getTestTrends`: none below two entries, otherwise
      the change across the last ten entries. */
  function TotalTestsTrend(h: seq<Entry>): (t: Trend)
    ensures |h| < 2 <==> t == NoTrend
    ensures |h| >= 2 ==> t == Change(Recent(h)[0].totalTests, h[|h| - 1].totalTests)
    ensures |h| >= TrendWindow ==> t == Change(h[|h| - TrendWindow].totalTests, h[|h| - 1].totalTests)
  {
    if |h| < 2 then NoTrend else CalculateTrend(TotalsOf(Recent(h)))
  }

  /** The window slides: a new entry joins it and, once it is full, its oldest entry leaves. */
  lemma RecentSlides(h: seq<Entry>, e: Entry)
    ensures Recent(h + [e]) == (if |h| < TrendWindow then h else Recent(h)[1..]) + [e]
  {
    if |h| >= TrendWindow {
      assert (h + [e])[|h| + 1 - TrendWindow..] == h[|h| + 1 - TrendWindow..] + [e];
    }
  }

  /** Dropping the oldest entry for capacity never changes the window. */
  lemma RecentIgnoresCapacity(h: seq<Entry>, e: Entry)
    ensures Recent(AppendCapped(h, e)) == Recent(h + [e])
  {
    var r := AppendCapped(h, e);
    if |r| < |h| + 1 {
      assert r == (h + [e])[1..];
      assert r[|r| - TrendWindow..] == (h + [e])[|h| + 1 - TrendWindow..];
    }
  }

  /** After a fetch the trend ends at the fetched total and starts at the oldest
      entry of the slid window, whatever the capacity dropped. */
  lemma TrendAfterFetch(svc: Service, s: FetchedSummary)
    requires |History(svc)| > 0
    ensures var h := History(svc);
            var first := if |h| < TrendWindow then h[0] else h[|h| + 1 - TrendWindow];
            TotalTestsTrend(History(OnFetchedSummary(svc, s))) == Change(first.totalTests, s.totalSteps)
  {
    var h := History(svc);
    var e := SummaryEntry(s);
    RecentIgnoresCapacity(h, e);
    RecentSlides(h, e);
  }
}

=== FILE: test_models.dfy ===
/** The step-level test result as the backend delivers it, and the counting and
    filtering the services and components apply to it with exact-case comparisons.

    The TypeScript interface declares lower-case `status`/`featureName`, but every
    service and component reads the backend's `Feature`/`Status` fields and compares
    them against upper-case literals; the model follows those readers. */
module TestModels {
  import opened Common

  const Passed := "PASSED"
  const Failed := "FAILED"
  const Skipped := "SKIPPED"

  datatype Step = Step(
    id: Option<int>,
    reportId: Option<int>,
    feature: string,
    scenario: string,
    stepName: string,
    status: string,
    exceptionType: Option<string>,
    exceptionMessage: Option<string>)

  /** `steps.filter(r => r.Status === status)`. */
  function WithStatus(steps: seq<Step>, status: string): (r: seq<Step>)
    ensures |r| <= |steps|
    ensures forall i :: 0 <= i < |r| ==> r[i].status == status && r[i] in steps
    ensures forall x :: x in steps && x.status == status ==> x in r
  {
    if |steps| == 0 then []
    else
      var rest := WithStatus(steps[..|steps| - 1], status);
      var last := steps[|steps| - 1];
      assert steps == steps[..|steps| - 1] + [last];
      if last.status == status then rest + [last] else rest
  }

  /** `steps.filter(r => r.Status === status).length`. */
  function CountStatus(steps: seq<Step>, status: string): nat {
    |WithStatus(steps, status)|
  }

  /** Counting one step more adds one exactly when its status matches. */
  lemma CountStatusAppend(steps: seq<Step>, x: Step, status: string)
    ensures CountStatus(steps + [x], status) == CountStatus(steps, status) + (if x.status == status then 1 else 0)
  {
    assert (steps + [x])[..|steps|] == steps;
  }

  /** The positions holding a status, after one more step: the old ones, plus the new
      last position when it holds that status. */
  lemma IndexSetAppend(steps: seq<Step>, status: string)
    requires |steps| > 0
    ensures var n := |steps| - 1;
            (set i | 0 <= i < |steps| && steps[i].status == status)
            == (set i | 0 <= i < n && steps[..n][i].status == status) + (if steps[n].status == status then {n} else {})
  {
  }

  /** The index-set reading of the count: the number of positions holding that status. */
  lemma {:induction false} CountStatusIsIndexCount(steps: seq<Step>, status: string)
    ensures CountStatus(steps, status) == |set i | 0 <= i < |steps| && steps[i].status == status|
  {
    if |steps| > 0 {
      var n := |steps| - 1;
      var prefix := steps[..n];
      CountStatusIsIndexCount(prefix, status);
      assert steps == prefix + [steps[n]];
      CountStatusAppend(prefix, steps[n], status);
      IndexSetAppend(steps, status);
      assert n !in (set i | 0 <= i < n && prefix[i].status == status);
    }
  }

  /** Two different statuses are never both counted for the same step. */
  lemma {:induction false} DistinctStatusCountsBounded(steps: seq<Step>, s1: string, s2: string)
    requires s1 != s2
    ensures CountStatus(steps, s1) + CountStatus(steps, s2) <= |steps|
  {
    if |steps| > 0 {
      var n := |steps| - 1;
      assert steps == steps[..n] + [steps[n]];
      DistinctStatusCountsBounded(steps[..n], s1, s2);
      CountStatusAppend(steps[..n], steps[n], s1);
      CountStatusAppend(steps[..n], steps[n], s2);
    }
  }
}

=== FILE: theme.dfy ===
/** `SharedService`: the colour theme (blue, pink or green, each with its own flag
    and a name) and the dark-mode flag with its mode name. */
module Theme {
  const Blue := "blue"
  const Pink := "pink"
  const Green := "green"
  const Light := "light"
  const Dark := "dark"

  datatype ThemeState = ThemeState(blue: bool, pink: bool, green: bool, theme: string, mode: string, dark: bool)

  /** The values the subjects start with. */
  const Initial := ThemeState(true, false, false, Blue, Light, false)

  /** Exactly one theme flag is set and the theme name is that flag's. */
  predicate OneTheme(t: ThemeState) {
    (t.blue && !t.pink && !t.green && t.theme == Blue)
    || (!t.blue && t.pink && !t.green && t.theme == Pink)
    || (!t.blue && !t.pink && t.green && t.theme == Green)
  }

  /** The mode name follows the dark flag. */
  predicate ModeMatches(t: ThemeState) {
    t.mode == (if t.dark then Dark else Light)
  }

  predicate Consistent(t: ThemeState) {
    OneTheme(t) && ModeMatches(t)
  }

  lemma InitialConsistent()
    ensures Consistent(Initial)
  {
  }

  function SetBlueTheme(t: ThemeState): (r: ThemeState)
    ensures OneTheme(r) && r.blue
    ensures r.dark == t.dark && r.mode == t.mode
  {
    t.(blue := true, pink := false, green := false, theme := Blue)
  }

  function SetPinkTheme(t: ThemeState): (r: ThemeState)
    ensures OneTheme(r) && r.pink
    ensures r.dark == t.dark && r.mode == t.mode
  {
    t.(blue := false, pink := true, green := false, theme := Pink)
  }

  function SetGreenTheme(t: ThemeState): (r: ThemeState)
    ensures OneTheme(r) && r.green
    ensures r.dark == t.dark && r.mode == t.mode
  {
    t.(blue := false, pink := false, green := true, theme := Green)
  }

  /** `setDarkMode(v)`: the flag becomes v and the mode is 'dark' exactly when v. */
  function SetDarkMode(t: ThemeState, value: bool): (r: ThemeState)
    ensures r.dark == value && (r.mode == Dark <==> value) && ModeMatches(r)
    ensures r.blue == t.blue && r.pink == t.pink && r.green == t.green && r.theme == t.theme
  {
    t.(dark := value, mode := if value then Dark else Light)
  }

  /** `getDarkMode`. */
  function GetDarkMode(t: ThemeState): bool {
    t.dark
  }

  /** A sequence of calls on the service. */
  datatype Call = BlueCall | PinkCall | GreenCall | DarkCall(value: bool)

  function Step(t: ThemeState, c: Call): ThemeState {
    match c
    case BlueCall => SetBlueTheme(t)
    case PinkCall => SetPinkTheme(t)
    case GreenCall => SetGreenTheme(t)
    case DarkCall(v) => SetDarkMode(t, v)
  }

  function Run(t: ThemeState, calls: seq<Call>): ThemeState {
    if |calls| == 0 then t else Step(Run(t, calls[..|calls| - 1]), calls[|calls| - 1])
  }

  /** The last value given to `setDarkMode`, or the starting flag if there was none. */
  function LastDarkValue(start: bool, calls: seq<Call>): bool {
    if |calls| == 0 then start
    else if calls[|calls| - 1].DarkCall? then calls[|calls| - 1].value
    else LastDarkValue(start, calls[..|calls| - 1])
  }

  /** Whatever calls are made, exactly one theme is on, its name matches, and the
      mode name follows the dark flag. */
  lemma {:induction false} RunStaysConsistent(calls: seq<Call>)
    ensures Consistent(Run(Initial, calls))
  {
    if |calls| > 0 {
      RunStaysConsistent(calls[..|calls| - 1]);
    }
  }

  /** `getDarkMode` returns the last value given to `setDarkMode`; theme calls do
      not touch it. */
  lemma {:induction false} DarkModeIsLastSet(t: ThemeState, calls: seq<Call>)
    ensures GetDarkMode(Run(t, calls)) == LastDarkValue(t.dark, calls)
  {
    if |calls| > 0 {
      DarkModeIsLastSet(t, calls[..|calls| - 1]);
    }
  }
}

=== FILE: user_service.dfy ===
/** `UserService.updatePermissions`: checks its arguments and builds the PUT request
    that changes one user's permissions on one pipeline. The base URL comes from
    the environment and is a parameter. */
module UserService {
  import opened Common
  import opened QaUser

  const UserIdRequired := "User ID is required for updatePermissions"
  const PipelineIdRequired := "Pipeline ID is required for updatePermissions"
  const ChangeAccessPath := "/api/Admin/change-access/"

  datatype PermissionPayload = PermissionPayload(pipelineId: int, permissions: Permission)
  datatype PutRequest = PutRequest(url: string, payload: PermissionPayload)

  /** `!pipelineId && pipelineId !== 0`: null, undefined and NaN are rejected, 0 is not. */
  predicate MissingPipelineId(pipelineId: Option<Num>) {
    pipelineId.None? || pipelineId.value.NaN?
  }

  /** `updatePermissions(userId, pipelineId, permissions)`; a thrown error is a Failure. */
  function UpdatePermissions(apiUrl: string, userId: string, pipelineId: Option<Num>, permissions: LooseFlags): (r: Result<PutRequest, string>)
    ensures userId == "" ==> r == Failure(UserIdRequired)
    ensures userId != "" && MissingPipelineId(pipelineId) ==> r == Failure(PipelineIdRequired)
    ensures r.Success? <==> userId != "" && !MissingPipelineId(pipelineId)
    ensures r.Success? ==> Finite(r.value.payload.pipelineId) == ToNumber(pipelineId)
    ensures r.Success? ==> r.value.payload.permissions == ToPermission(permissions)
    ensures r.Success? ==> r.value.url == apiUrl + ChangeAccessPath + userId
  {
    if userId == "" then Failure(UserIdRequired)
    else if MissingPipelineId(pipelineId) then Failure(PipelineIdRequired)
    else
      var payload := PermissionPayload(ToNumber(pipelineId).n, ToPermission(permissions));
      Success(PutRequest(apiUrl + ChangeAccessPath + userId, payload))
  }

  /** Pipeline id 0 is accepted and sent as 0. */
  lemma ZeroPipelineIdAccepted(apiUrl: string, userId: string, permissions: LooseFlags)
    requires userId != ""
    ensures UpdatePermissions(apiUrl, userId, Some(Finite(0)), permissions).Success?
    ensures UpdatePermissions(apiUrl, userId, Some(Finite(0)), permissions).value.payload.pipelineId == 0
  {
  }

  /** The user id is the last path segment of the request URL. */
  lemma UserIdEndsTheUrl(apiUrl: string, userId: string, pipelineId: Option<Num>, permissions: LooseFlags)
    requires UpdatePermissions(apiUrl, userId, pipelineId, permissions).Success?
    requires '/' !in userId
    ensures var url := UpdatePermissions(apiUrl, userId, pipelineId, permissions).value.url;
            |url| > |userId| && url[|url| - |userId|..] == userId && url[|url| - |userId| - 1] == '/'
  {
    var url := apiUrl + ChangeAccessPath + userId;
    assert url[|url| - |userId|..] == userId;
    assert ChangeAccessPath[|ChangeAccessPath| - 1] == '/';
    assert url[|url| - |userId| - 1] == ChangeAccessPath[|ChangeAccessPath| - 1];
  }

  /** Permissions given with every flag present reach the payload unchanged. */
  lemma PermissionsRoundTrip(apiUrl: string, userId: string, pipelineId: int, p: Permission)
    requires userId != ""
    ensures UpdatePermissions(apiUrl, userId, Some(Finite(pipelineId)), FlagsOf(p))
            == Success(PutRequest(apiUrl + ChangeAccessPath + userId, PermissionPayload(pipelineId, p)))
  {
    ToPermissionFlagsOf(p);
  }
}

=== FILE: users_list.dfy ===
/** The logic of the users table (`UserListComponent`): the view, search and sort
    behind the table, the sort-toggle state, which projects are expanded, CSV field
    escaping, and the local copy of a permission change. String collation
    (`localeCompare`) is modelled as code-point lexicographic order. */
module UsersList {
  import opened Common
  import opened QaUser

  // ---------------------------------------------------------------------------
  // Filter state
  // ---------------------------------------------------------------------------

  datatype View = All | ActiveOnly | InactiveOnly
  datatype SortField = ByName | ByEmail | ByRole | ByStatus
  datatype Direction = Asc | Desc

  datatype ListState = ListState(searchTerm: string, view: View, field: SortField, direction: Direction)

  /** The state the component starts in and `clearFilters` returns to. */
  const InitialState := ListState("", All, ByName, Asc)

  /** `sortBy(field)`: the same field flips the direction, a new field sorts ascending. */
  function SortBy(st: ListState, field: SortField): (r: ListState)
    ensures r.field == field && r.searchTerm == st.searchTerm && r.view == st.view
    ensures st.field == field ==> r.direction != st.direction
    ensures st.field != field ==> r.direction == Asc
  {
    if st.field == field then st.(direction := if st.direction == Asc then Desc else Asc)
    else st.(field := field, direction := Asc)
  }

  /** Sorting twice by the current field restores the state. */
  lemma SortByTwiceRestores(st: ListState)
    ensures SortBy(SortBy(st, st.field), st.field) == st
  {
  }

  /** Sorting by a new field and then by it again sorts that field descending. */
  lemma NewFieldTwiceIsDescending(st: ListState, field: SortField)
    requires st.field != field
    ensures SortBy(SortBy(st, field), field) == st.(field := field, direction := Desc)
  {
  }

  /** `clearFilters`. */
  function ClearFilters(st: ListState): (r: ListState)
    ensures r.searchTerm == "" && r.view == All && r.field == ByName && r.direction == Asc
  {
    InitialState
  }

  // ---------------------------------------------------------------------------
  // View and search
  // ---------------------------------------------------------------------------

  /** Keeps the elements `keep` accepts, in order. */
  function Filter(xs: seq<QaUser>, keep: QaUser -> bool): (r: seq<QaUser>)
    ensures |r| <= |xs|
    ensures forall x :: x in r <==> x in xs && keep(x)
    ensures multiset(r) <= multiset(xs)
  {
    if |xs| == 0 then []
    else
      var init := xs[..|xs| - 1];
      var last := xs[|xs| - 1];
      assert xs == init + [last];
      Filter(init, keep) + (if keep(last) then [last] else [])
  }

  /** The view keeps the users whose status is exactly 'Active' or 'Inactive'. */
  predicate InView(u: QaUser, view: View) {
    match view
    case All => true
    case ActiveOnly => u.status == "Active"
    case InactiveOnly => u.status == "Inactive"
  }

  /** A user matches a search when the lower-cased term occurs in a lower-cased first
      name, last name, email, role or password. */
  predicate Matches(u: QaUser, term: string) {
    var search := Lower(term);
    Contains(Lower(u.firstname), search) || Contains(Lower(u.lastname), search)
    || Contains(Lower(u.email), search) || Contains(Lower(u.role), search)
    || (u.password != "" && Contains(Lower(u.password), search))
  }

  /** The users `applyFilters` keeps before sorting; an empty term filters nothing. */
  predicate Kept(u: QaUser, st: ListState) {
    InView(u, st.view) && (st.searchTerm == "" || Matches(u, st.searchTerm))
  }

  function Selected(users: seq<QaUser>, st: ListState): (r: seq<QaUser>)
    ensures forall u :: u in r <==> u in users && Kept(u, st)
    ensures multiset(r) <= multiset(users)
  {
    var viewed := if st.view == All then users else Filter(users, u => InView(u, st.view));
    if st.searchTerm == "" then viewed else Filter(viewed, u => Matches(u, st.searchTerm))
  }

  /** Searching ignores the letter case of the term. */
  lemma SearchIgnoresTermCase(u: QaUser, term: string)
    ensures Matches(u, term) == Matches(u, Lower(term))
  {
    LowerIdempotent(term);
  }

  // ---------------------------------------------------------------------------
  // Sorting
  // ---------------------------------------------------------------------------

  /** Code-point lexicographic order on strings. */
  predicate LexLe(a: string, b: string) {
    if |a| == 0 then true
    else if |b| == 0 then false
    else if a[0] != b[0] then a[0] < b[0]
    else LexLe(a[1..], b[1..])
  }

  lemma {:induction false} LexLeTotal(a: string, b: string)
    ensures LexLe(a, b) || LexLe(b, a)
  {
    if |a| > 0 && |b| > 0 && a[0] == b[0] {
      LexLeTotal(a[1..], b[1..]);
    }
  }

  lemma {:induction false} LexLeReflexive(a: string)
    ensures LexLe(a, a)
  {
    if |a| > 0 {
      LexLeReflexive(a[1..]);
    }
  }

  function SortKey(u: QaUser, field: SortField): string {
    match field
    case ByName => u.firstname + " " + u.lastname
    case ByEmail => u.email
    case ByRole => u.role
    case ByStatus => u.status
  }

  /** Whether `a` may come before `b`: the comparator's result is at most 0. */
  predicate InOrder(a: QaUser, b: QaUser, field: SortField, dir: Direction) {
    if dir == Asc then LexLe(SortKey(a, field), SortKey(b, field))
    else LexLe(SortKey(b, field), SortKey(a, field))
  }

  lemma InOrderTotal(a: QaUser, b: QaUser, field: SortField, dir: Direction)
    ensures InOrder(a, b, field, dir) || InOrder(b, a, field, dir)
  {
    LexLeTotal(SortKey(a, field), SortKey(b, field));
  }

  predicate Sorted(xs: seq<QaUser>, field: SortField, dir: Direction) {
    forall i, j :: 0 <= i < j < |xs| ==> InOrder(xs[i], xs[j], field, dir)
  }

  /** Inserts `x` after every element it does not precede, which keeps equal
      elements in the order they arrived. */
  function Insert(s: seq<QaUser>, x: QaUser, field: SortField, dir: Direction): (r: seq<QaUser>)
    requires Sorted(s, field, dir)
    ensures multiset(r) == multiset(s) + multiset{x}
    ensures Sorted(r, field, dir)
  {
    if |s| == 0 then [x]
    else
      var init := s[..|s| - 1];
      var last := s[|s| - 1];
      assert s == init + [last];
      if InOrder(last, x, field, dir) then
        assert forall i :: 0 <= i < |s| ==> InOrder(s[i], x, field, dir) by {
          forall i | 0 <= i < |s|
            ensures InOrder(s[i], x, field, dir)
          {
            if i < |s| - 1 {
              assert InOrder(s[i], last, field, dir);
              InOrderTransitive(s[i], last, x, field, dir);
            } else {
              assert s[i] == last;
            }
          }
        }
        s + [x]
      else
        InOrderTotal(last, x, field, dir);
        var front := Insert(init, x, field, dir);
        InsertTail(front, init, x, last, field, dir);
        front + [last]
  }

  /** Appending `last` keeps the order when every element before it may precede it. */
  lemma InsertTail(front: seq<QaUser>, init: seq<QaUser>, x: QaUser, last: QaUser, field: SortField, dir: Direction)
    requires Sorted(front, field, dir)
    requires multiset(front) == multiset(init) + multiset{x}
    requires forall i :: 0 <= i < |init| ==> InOrder(init[i], last, field, dir)
    requires InOrder(x, last, field, dir)
    ensures Sorted(front + [last], field, dir)
  {
    forall i | 0 <= i < |front|
      ensures InOrder(front[i], last, field, dir)
    {
      assert front[i] in multiset(front);
      if front[i] != x {
        assert front[i] in multiset(init);
        var k :| 0 <= k < |init| && init[k] == front[i];
      }
    }
  }

  lemma LexLeTransitive(a: string, b: string, c: string)
    requires LexLe(a, b) && LexLe(b, c)
    ensures LexLe(a, c)
  {
    if |a| > 0 && |b| > 0 && |c| > 0 && a[0] == b[0] && b[0] == c[0] {
      LexLeTransitive(a[1..], b[1..], c[1..]);
    }
  }

  lemma InOrderTransitive(a: QaUser, b: QaUser, c: QaUser, field: SortField, dir: Direction)
    requires InOrder(a, b, field, dir) && InOrder(b, c, field, dir)
    ensures InOrder(a, c, field, dir)
  {
    if dir == Asc {
      LexLeTransitive(SortKey(a, field), SortKey(b, field), SortKey(c, field));
    } else {
      LexLeTransitive(SortKey(c, field), SortKey(b, field), SortKey(a, field));
    }
  }

  /** `result.sort(...)` with the field's comparator, negated for 'desc'. */
  function Sort(xs: seq<QaUser>, field: SortField, dir: Direction): (r: seq<QaUser>)
    ensures multiset(r) == multiset(xs)
    ensures Sorted(r, field, dir)
  {
    if |xs| == 0 then []
    else
      assert xs == xs[..|xs| - 1] + [xs[|xs| - 1]];
      Insert(Sort(xs[..|xs| - 1], field, dir), xs[|xs| - 1], field, dir)
  }

  /** `applyFilters`: exactly the kept users, each as often as in the input, in the
      order of the chosen field and direction. */
  function ApplyFilters(users: seq<QaUser>, st: ListState): (r: seq<QaUser>)
    ensures forall u :: u in r <==> u in users && Kept(u, st)
    ensures multiset(r) == multiset(Selected(users, st)) && multiset(r) <= multiset(users)
    ensures Sorted(r, st.field, st.direction)
  {
    var selected := Selected(users, st);
    var r := Sort(selected, st.field, st.direction);
    assert forall u :: u in r <==> u in multiset(r);
    r
  }

  /** With the initial state every user is shown. */
  lemma ClearedShowsEveryone(users: seq<QaUser>)
    ensures multiset(ApplyFilters(users, InitialState)) == multiset(users)
  {
  }

  /** A descending table is an ascending one read backwards. */
  lemma DescendingIsReversedAscending(xs: seq<QaUser>, field: SortField)
    requires Sorted(xs, field, Asc)
    ensures Sorted(Reverse(xs), field, Desc)
  {
  }

  function Reverse<T>(xs: seq<T>): (r: seq<T>)
    ensures |r| == |xs| && forall i :: 0 <= i < |xs| ==> r[i] == xs[|xs| - 1 - i]
  {
    seq(|xs|, i requires 0 <= i < |xs| => xs[|xs| - 1 - i])
  }

  // ---------------------------------------------------------------------------
  // Expanded projects
  // ---------------------------------------------------------------------------

  type Expanded = map<string, set<string>>

  /** `isProjectExpanded`: false for an empty user or project id. */
  predicate IsExpanded(m: Expanded, userId: string, projectId: string) {
    userId != "" && projectId != "" && userId in m && projectId in m[userId]
  }

  /** `toggleProject`: flips one project of one user; empty ids do nothing. */
  function Toggle(m: Expanded, userId: string, projectId: string): (r: Expanded)
    ensures userId == "" || projectId == "" ==> r == m
    ensures userId != "" && projectId != "" ==>
              IsExpanded(r, userId, projectId) == !IsExpanded(m, userId, projectId)
    ensures forall u, p :: (u, p) != (userId, projectId) ==> IsExpanded(r, u, p) == IsExpanded(m, u, p)
  {
    if userId == "" || projectId == "" then m
    else
      var projects := if userId in m then m[userId] else {};
      m[userId := if projectId in projects then projects - {projectId} else projects + {projectId}]
  }

  /** Toggling twice restores every expansion. */
  lemma ToggleTwice(m: Expanded, userId: string, projectId: string)
    ensures forall u, p :: IsExpanded(Toggle(Toggle(m, userId, projectId), userId, projectId), u, p) == IsExpanded(m, u, p)
  {
  }

  // ---------------------------------------------------------------------------
  // CSV
  // ---------------------------------------------------------------------------

  /** The characters that force a field into quotes (section 2, rule 6 of RFC 4180). */
  predicate NeedsQuotes(value: string) {
    '"' in value || ',' in value || '\n' in value || '\r' in value
  }

  /** Every double quote written twice (section 2, rule 7 of RFC 4180). */
  function DoubleQuotes(value: string): (r: string)
    ensures '"' !in value ==> r == value
    ensures |r| >= |value|
  {
    if |value| == 0 then ""
    else (if value[0] == '"' then "\"\"" else [value[0]]) + DoubleQuotes(value[1..])
  }

  /** `escapeCsvValue`. */
  function EscapeCsvValue(value: string): (r: string)
    ensures value == "" ==> r == ""
    ensures NeedsQuotes(value) ==> |r| >= 2 && r[0] == '"' && r[|r| - 1] == '"'
    ensures !NeedsQuotes(value) ==> r == value
  {
    if value == "" then ""
    else if NeedsQuotes(value) then "\"" + DoubleQuotes(value) + "\""
    else DoubleQuotes(value)
  }

  /** Reading doubled quotes back as single quotes. */
  function Undouble(s: string): string {
    if |s| >= 2 && s[0] == '"' && s[1] == '"' then "\"" + Undouble(s[2..])
    else if |s| == 0 then ""
    else [s[0]] + Undouble(s[1..])
  }

  /** Reading one CSV field: a quoted field loses its quotes and its doubled quotes. */
  function ReadCsvField(field: string): string {
    if |field| >= 2 && field[0] == '"' && field[|field| - 1] == '"' then Undouble(field[1..|field| - 1])
    else field
  }

  lemma {:induction false} UndoubleDoubleQuotes(value: string)
    ensures Undouble(DoubleQuotes(value)) == value
  {
    if |value| > 0 {
      UndoubleDoubleQuotes(value[1..]);
      var rest := DoubleQuotes(value[1..]);
      if value[0] == '"' {
        assert DoubleQuotes(value) == "\"\"" + rest;
        assert (("\"\"" + rest)[2..]) == rest;
      } else {
        assert DoubleQuotes(value) == [value[0]] + rest;
        assert ([value[0]] + rest)[1..] == rest;
      }
    }
  }

  /** A field read back gives the value that was escaped. */
  lemma EscapeRoundTrip(value: string)
    ensures ReadCsvField(EscapeCsvValue(value)) == value
  {
    if value != "" && NeedsQuotes(value) {
      var escaped := "\"" + DoubleQuotes(value) + "\"";
      assert escaped[1..|escaped| - 1] == DoubleQuotes(value);
      UndoubleDoubleQuotes(value);
    } else if value != "" {
      assert value[0] != '"';
    }
  }

  // ---------------------------------------------------------------------------
  // Permissions
  // ---------------------------------------------------------------------------

  /** `getPermissionCount`: how many of the four flags are set. */
  function PermissionCount(p: Permission): (n: nat)
    ensures n <= 4
    ensures n == 0 <==> p == NoPermission
    ensures n == 4 <==> p == Permission(true, true, true, true)
  {
    (if p.canViewHistory then 1 else 0) + (if p.canTrigger then 1 else 0)
    + (if p.canViewResults then 1 else 0) + (if p.canDownloadReport then 1 else 0)
  }

  /** Granting one more flag raises the count by one. */
  lemma GrantingTriggerCountsOnce(p: Permission)
    requires !p.canTrigger
    ensures PermissionCount(p.(canTrigger := true)) == PermissionCount(p) + 1
  {
  }

  /** The first position whose element `pick` accepts. */
  function FirstIndex<T>(xs: seq<T>, pick: T -> bool): (r: Option<nat>)
    ensures r.None? <==> forall i :: 0 <= i < |xs| ==> !pick(xs[i])
    ensures r.Some? ==> r.value < |xs| && pick(xs[r.value]) && forall i :: 0 <= i < r.value ==> !pick(xs[i])
  {
    if |xs| == 0 then None
    else if pick(xs[0]) then Some(0)
    else match FirstIndex(xs[1..], pick)
      case None => None
      case Some(k) => Some(k + 1)
  }

  /** The permissions of the first pipeline with the id replaced, or None when no
      pipeline has it. */
  function UpdatePipelines(pipelines: seq<QaPipeline>, pipelineId: int, perms: Permission): (r: Option<seq<QaPipeline>>)
    ensures r.None? <==> forall i :: 0 <= i < |pipelines| ==> pipelines[i].id != pipelineId
    ensures r.Some? ==> |r.value| == |pipelines|
    ensures r.Some? ==>
              var k := FirstIndex(pipelines, (p: QaPipeline) => p.id == pipelineId).value;
              r.value == pipelines[k := pipelines[k].(permissions := perms)]
  {
    match FirstIndex(pipelines, (p: QaPipeline) => p.id == pipelineId)
    case None => None
    case Some(k) => Some(pipelines[k := pipelines[k].(permissions := perms)])
  }

  /** Whether a project holds a pipeline with the id. */
  predicate Holds(project: QaProject, pipelineId: int) {
    exists i :: 0 <= i < |project.pipelines| && project.pipelines[i].id == pipelineId
  }

  /** The loop over a user's projects: the first project holding the pipeline gets
      the new permissions, and the loop stops there. */
  function UpdateProjects(projects: seq<QaProject>, pipelineId: int, perms: Permission): (r: Option<seq<QaProject>>)
    ensures r.None? <==> forall i :: 0 <= i < |projects| ==> !Holds(projects[i], pipelineId)
    ensures r.Some? ==> |r.value| == |projects|
    ensures r.Some? ==>
              var k := FirstIndex(projects, (pr: QaProject) => Holds(pr, pipelineId)).value;
              r.value == projects[k := projects[k].(pipelines := UpdatePipelines(projects[k].pipelines, pipelineId, perms).value)]
  {
    match FirstIndex(projects, (pr: QaProject) => Holds(pr, pipelineId))
    case None => None
    case Some(k) =>
      var ps := UpdatePipelines(projects[k].pipelines, pipelineId, perms);
      Some(projects[k := projects[k].(pipelines := ps.value)])
  }

  /** `updateLocalPermissions`: only the first user with the id, and in it only the
      first pipeline with the id, changes; an unknown user or pipeline changes nothing. */
  function UpdateLocalPermissions(users: seq<QaUser>, userId: string, pipelineId: int, perms: Permission): (r: seq<QaUser>)
    ensures |r| == |users|
    ensures (forall i :: 0 <= i < |users| ==> users[i].id != Some(userId)) ==> r == users
    ensures (forall i, p :: 0 <= i < |users| && users[i].id == Some(userId) && 0 <= p < |users[i].projects| ==>
               !Holds(users[i].projects[p], pipelineId)) ==> r == users
    ensures forall i :: 0 <= i < |users| && users[i].id != Some(userId) ==> r[i] == users[i]
    ensures forall i :: 0 <= i < |users| ==> r[i].(projects := users[i].projects) == users[i]
    ensures forall i, j :: 0 <= i < j < |users| && r[i] != users[i] ==> r[j] == users[j]
    ensures forall i, j :: 0 <= i < j < |users| && users[i].id == Some(userId) ==> r[j] == users[j]
  {
    match FirstIndex(users, (u: QaUser) => u.id == Some(userId))
    case None => users
    case Some(k) =>
      match UpdateProjects(users[k].projects, pipelineId, perms)
      case None => users
      case Some(projects) => users[k := users[k].(projects := projects)]
  }

  /** When the user, a project holding the pipeline and the pipeline are found, the
      first such pipeline of the first such project carries the new permissions,
      and every other user, project, pipeline and field is as it was. */
  lemma PermissionsLandOnFirstMatch(users: seq<QaUser>, userId: string, pipelineId: int, perms: Permission,
                                    k: nat, j: nat, m: nat)
    requires FirstIndex(users, (u: QaUser) => u.id == Some(userId)) == Some(k)
    requires FirstIndex(users[k].projects, (pr: QaProject) => Holds(pr, pipelineId)) == Some(j)
    requires FirstIndex(users[k].projects[j].pipelines, (p: QaPipeline) => p.id == pipelineId) == Some(m)
    ensures var r := UpdateLocalPermissions(users, userId, pipelineId, perms);
            |r[k].projects| == |users[k].projects|
            && |r[k].projects[j].pipelines| == |users[k].projects[j].pipelines|
            && r[k].projects[j].pipelines[m] == users[k].projects[j].pipelines[m].(permissions := perms)
    ensures var u := users[k];
            var pr := u.projects[j];
            var pl := pr.pipelines[m];
            UpdateLocalPermissions(users, userId, pipelineId, perms)
              == users[k := u.(projects := u.projects[j := pr.(pipelines := pr.pipelines[m := pl.(permissions := perms)])])]
  {
  }
}
